=== FILE: README.md ===
# Notarization backend — a Dafny model

This project models the core of a document-notarization backend. The backend keeps a local cache of
**notaries** and **documents**. Next to the cache it uses a smart contract on a ledger and a content
store (IPFS). Notaries register with a fixed stake. Documents are uploaded, registered on the ledger
and notarized. Stored content is checked against its SHA-256 hash, and notaries are slashed when a
check fails or when they notarize the same document twice. At start-up the service locates or
deploys the contract.

The model is functional. Each service operation is a pure function from a `World` to either a new
`World` or an error, and a failure leaves nothing changed. The `World` is the cache, the ledger and
the content store. External systems are parameters:

- the ledger is a record of what its reads answer, plus the set of calls it refuses and the log of
  calls it accepted;
- the content store is a map from CID to content;
- an upload is its outcome, a CID or nothing;
- SHA-256 is an arbitrary function `hash: string -> string`, and nothing assumes it is injective;
- the clock is a `now` argument;
- the Ethereum node is an `Rpc.Node` value listing its answers. Each start-up attempt gets two of them, one for the load phase and one for the deploy phase, because each deployment sends its own transaction.

| file | module | models |
|---|---|---|
| wrappers.dfy | Wrappers | `Option`, `Result` |
| errors.dfy | Errors | the exceptions the services throw, as values |
| strings.dfy | Strings | `trim`, `startsWith`, `contains`, `toLowerCase`, `indexOf`, `lastIndexOf`, `split("\n")` |
| entities.dfy | Entities | the `Document` and `Notary` entities and their lifecycle hooks |
| repositories.dfy | Store | the two Spring Data repositories and `save` |
| ledger.dfy | Gateway | `BlockchainService`: CID check, contract-state guard, calls and reads |
| world.dfy | Worlds | cache, ledger and content store together |
| notaries.dfy | Notaries | `NotaryService` |
| documents.dfy | Documents | `DocumentService` |
| slashing.dfy | Slashing | `SlashingService` |
| rpc.dfy | Rpc | the node's answers during start-up |
| deployer.dfy | Deployer | `ContractDeployerUtil` |
| deployment.dfy | Deployment | `ContractDeploymentService` |
| automation.dfy | Automation | `AutomatedContractService` |
| infura.dfy | Infura | the masking and naming helpers of `InfuraWeb3Config` |
| debug.dfy | Debug | the arithmetic and the probe of `DebugController` |

Two behaviours of the code are worth stating because a reader might expect otherwise:

- `NotaryService.slashNotary` does not check that the notary is active, so an inactive notary can still be slashed.
- In `manuallyVerifyDocument` a failed download makes the content check false, so a document whose content cannot be fetched is never reported verified.

## Model

| member | source | states |
|---|---|---|
| Store.FindByDocumentHash | src/main/java/com/notarize/repository/DocumentRepository.java:13-14 | The lookup is present iff some row has the hash, and the row it returns has that hash. When hashes are unique, the row returned is the stored one. |
| Store.FindByOwnerAddress | src/main/java/com/notarize/repository/DocumentRepository.java:15 | Returns exactly the rows with that owner. |
| Store.FindByNotarized | src/main/java/com/notarize/repository/DocumentRepository.java:16 | Returns exactly the rows with that notarized flag. |
| Store.FindByNotaryAddressesContaining | src/main/java/com/notarize/repository/DocumentRepository.java:17 | Returns exactly the rows whose notary list contains the address. |
| Store.FindByLastVerifiedBeforeOrLastVerifiedIsNull | src/main/java/com/notarize/repository/DocumentRepository.java:18 | Returns exactly the rows never verified or verified strictly before the cutoff. |
| Store.FindByIpfsHash | src/main/java/com/notarize/repository/DocumentRepository.java:20 | The column is not unique. The result is empty iff no row has the CID. A single match is returned. Two or more matches give the non-unique-result failure. |
| Store.SaveDocument | src/main/java/com/notarize/model/Document.java:45-55 | A new hash is appended after the create hook stamps createdAt, timestamp and lastVerified. A known hash is merged over the stored row. The update hook refreshes lastVerified only when some field changed, and an unchanged entity leaves the table as it was. Hashes stay unique, other rows are unchanged, and the table invariant is kept. |
| Store.ReplaceBySelf | src/main/java/com/notarize/model/Document.java:52-55 | Overwriting a row with an identical entity leaves the table as it was, so no update runs. |
| Store.SaveKeepsOtherLookups | src/main/java/com/notarize/repository/DocumentRepository.java:13 | Saving one row leaves the lookup of every other hash unchanged. |
| Store.DeleteDocument | src/main/java/com/notarize/service/DocumentService.java:432-438 | Exactly the rows with that hash go; every other row stays; the invariant is kept. |
| Store.FindByNotaryAddress | src/main/java/com/notarize/repository/NotaryRepository.java:11-12 | The lookup is present iff some row has the address. When addresses are unique, it is that row. |
| Store.FindByActiveTrue | src/main/java/com/notarize/repository/NotaryRepository.java:13 | Returns every active notary and only those. |
| Store.UpdateNotary | src/main/java/com/notarize/model/Notary.java:30-36 | There is no update hook, so the entity is merged as given, and a null registeredAt violates the NOT NULL column. Otherwise the row is replaced and the others are kept. |
| Store.SaveNotary | src/main/java/com/notarize/model/Notary.java:30-36 | A new address is appended after the create hook stamps registeredAt. A known one is merged as given. Addresses stay unique. |
| Gateway.IsValidIpfsCid | src/main/java/com/notarize/service/BlockchainService.java:409-416 | False for null and for blank input. Otherwise true iff the untrimmed string starts with "Qm", "bafy" or "bafk". |
| Gateway.ContractStateError | src/main/java/com/notarize/service/BlockchainService.java:425-432 | No contract loaded gives "not initialized"; a contract that is not ready gives "not ready"; otherwise there is no error. |
| Gateway.CidCallError | src/main/java/com/notarize/service/BlockchainService.java:418-422 | The guard before every CID call: contract state first, then the CID format. It passes iff both pass. |
| Gateway.RegisterNotary | src/main/java/com/notarize/service/BlockchainService.java:122-154 | State guard first. Then a failed STAKE_AMOUNT read fails. Any stake other than the contract's is refused before a call. On success exactly one registerAsNotary call is logged. |
| Gateway.SlashNotary | src/main/java/com/notarize/service/BlockchainService.java:156-167 | The guard failure is returned as is. Success iff the guard passes and the ledger accepts the call, which is then logged. |
| Gateway.RegisterDocument | src/main/java/com/notarize/service/BlockchainService.java:214-227 | The same as SlashNotary, for the registerDocument call. |
| Gateway.NotarizeDocument | src/main/java/com/notarize/service/BlockchainService.java:229-240 | The same as SlashNotary, for the notarizeDocument call. |
| Gateway.WithdrawStake | src/main/java/com/notarize/service/BlockchainService.java:169-177 | Contract-state guard only. On success the withdrawStake call is logged. |
| Gateway.WritesKeepLogSanctioned | src/main/java/com/notarize/service/BlockchainService.java:122-240 | An invariant of all five writes: each sends only with a usable contract. Every call it adds to the log carries a valid CID, and a registration offers the contract's own stake. |
| Gateway.AfterSanctioned | src/main/java/com/notarize/service/BlockchainService.java:418-422 | Appending a call that passed the guard keeps every logged call sanctioned. |
| Gateway.GetDocument | src/main/java/com/notarize/service/BlockchainService.java:244-253 | Success iff the guard passes and the ledger answers for the CID; the value is the ledger's record. |
| Gateway.IsDocumentNotarized | src/main/java/com/notarize/service/BlockchainService.java:262-267 | Succeeds exactly when the read does, with the record's flag. It is `true` iff the CID is notarized on chain. |
| Gateway.DocumentExists | src/main/java/com/notarize/service/BlockchainService.java:436-445 | True iff the read succeeds and the owner is not the zero address. Every failure, an invalid CID included, reads as false. |
| Gateway.IsNotaryRegisteredOnBlockchain | src/main/java/com/notarize/service/BlockchainService.java:107-116 | True iff the contract is usable and the ledger reports the notary active; failures read as false. |
| Gateway.GetUserDocuments | src/main/java/com/notarize/service/BlockchainService.java:323-331 | Contract-state guard, then the ledger's CID list for the user. |
| Gateway.CountNotarizedExtremes | src/main/java/com/notarize/service/BlockchainService.java:453-468 | The count equals the list length iff every CID is notarized on chain, and is zero iff none is. |
| Gateway.GetUserNotarizedDocumentCount | src/main/java/com/notarize/service/BlockchainService.java:453-468 | Fails iff the list read fails. Failing lookups are skipped. The count is at most the number of CIDs, and equal iff all are notarized. |
| Gateway.DetailsMembers | src/main/java/com/notarize/service/BlockchainService.java:333-349 | A record is in the detail list iff some CID of the list reads back as it. |
| Gateway.CollectDetails | src/main/java/com/notarize/service/BlockchainService.java:338-347 | The loop builds the detail list one CID at a time, in order. |
| Gateway.GetUserDocumentsWithDetails | src/main/java/com/notarize/service/BlockchainService.java:333-349 | Fails iff the list read fails. Otherwise it gives the readable records in the ledger's order, with failures dropped. |
| Notaries.ApplySlash | src/main/java/com/notarize/service/NotaryService.java:223-229 | One more slash and 90% of the stake. The notary stays active iff it was and the new stake is at least half the required one. Every other field is kept. |
| Notaries.RegisterNotary | src/main/java/com/notarize/service/NotaryService.java:35-82 | A cached address, then an address active on the ledger, are refused with no ledger write. Exactly 10^18 wei is submitted, whatever the request says. On success the saved row is active with stake 1.0, both counters 0 and registeredAt = now. A ledger failure is wrapped and saves nothing. |
| Notaries.SlashNotaryByIpfsCid | src/main/java/com/notarize/service/NotaryService.java:87-109 | An unknown notary, then an invalid CID, change nothing. On success one slash call is logged and the row is updated as ApplySlash says. Only that row changes. |
| Notaries.SlashNotary | src/main/java/com/notarize/service/NotaryService.java:203-234 | The checks run in order: unknown notary, unknown document, missing CID, then the gateway. Each failure changes nothing. Activity is not checked. On success the row is updated as ApplySlash says. |
| Notaries.WithdrawStake | src/main/java/com/notarize/service/NotaryService.java:147-170 | Refuses an unknown, an active, or an unstaked notary. On success the call is logged, the stake becomes 0, and every other field is kept. |
| Notaries.AddStake | src/main/java/com/notarize/service/NotaryService.java:248-267 | Adds exactly the amount. The notary is reactivated iff the new stake reaches the required one, and is never deactivated. No ledger call. |
| Notaries.DeactivateNotary | src/main/java/com/notarize/service/NotaryService.java:236-246 | Clears only the active flag. An unknown notary gives the fixed "Failed to deactivate notary" error, which carries no cause. |
| Notaries.IncrementSuccessfulNotarizations | src/main/java/com/notarize/service/NotaryService.java:172-181 | Adds one to that notary's counter and keeps every other field and row. An unknown address changes nothing. |
| Notaries.GetNotary | src/main/java/com/notarize/service/NotaryService.java:111-114 | The cached row for the address, or "not found" iff there is none. |
| Notaries.GetActiveNotaries | src/main/java/com/notarize/service/NotaryService.java:116-118 | Exactly the active cached notaries. |
| Notaries.IsNotaryActive | src/main/java/com/notarize/service/NotaryService.java:120-128 | True iff a cached row with the address is active; unknown addresses are inactive. |
| Notaries.ActiveMeansListed | src/main/java/com/notarize/service/NotaryService.java:111-128 | Active iff getNotary finds the notary and it is among getActiveNotaries. |
| Notaries.Reputation | src/main/java/com/notarize/service/NotaryService.java:130-145 | In [0, 100]. It is 0 for an unknown notary and 100 with no history. Otherwise it is exactly 100·s/(s+k); equal counts give 50. |
| Documents.RegisterDocument | src/main/java/com/notarize/service/DocumentService.java:44-81 | The checks run in order: duplicate hash, upload failure, invalid CID, then the ledger. Each failure changes nothing. On success one registerDocument call is logged and one unnotarized row is appended: hash of the content, owner from the request, empty notary list, times = now. |
| Documents.RegisterDocumentTolerant | src/main/java/com/notarize/service/DocumentService.java:133-186 | The same checks, wrapped. A ledger failure is tolerated: the row is saved with notarized = whether the ledger call succeeded. |
| Documents.FallbackCid | src/main/java/com/notarize/service/DocumentService.java:105 | The placeholder CID after a failed upload starts with "ipfs_failed_" and is never a valid CID. |
| Documents.RegisterDocumentSimple | src/main/java/com/notarize/service/DocumentService.java:86-128 | Fails, wrapped, iff the hash is already cached. Never writes to the ledger. Saves the uploaded CID or the placeholder. |
| Documents.AppendIfAbsent | src/main/java/com/notarize/service/DocumentService.java:231-232 | The notary ends up listed. The old list is a prefix. The members are the old ones plus the notary, and a duplicate-free list stays duplicate-free. |
| Documents.AppendIfAbsentIdempotent | src/main/java/com/notarize/service/DocumentService.java:231-232 | Appending the same notary twice is the same as once. |
| Documents.NotarizeDocument | src/main/java/com/notarize/service/DocumentService.java:212-243 | The checks run in order: unknown document, inactive notary, missing CID, then the ledger. Each failure changes nothing. On success: one notarize call is logged; the row is notarized and lists the notary once, with other fields kept. lastVerified becomes now, unless the row was already notarized and listed the notary, since then the save changes nothing and no update runs; the notary's success count rises by 1 and its other fields are kept; nothing else changes. |
| Documents.NotarizeDocumentWithContent | src/main/java/com/notarize/service/DocumentService.java:193-207 | A content hash other than the document hash is refused before any lookup. Then an inactive notary is refused before the document is looked up. Otherwise the 2-argument path runs. |
| Documents.NotarizeTwiceListsOnce | src/main/java/com/notarize/service/DocumentService.java:212-243 | A second notarization by the same notary leaves the document row exactly as the first left it. The notary is listed once, lastVerified keeps the first stamp, and the notary's success count rises by 2 in total. |
| Documents.GetDocument | src/main/java/com/notarize/service/DocumentService.java:247-264 | Unknown document, then missing CID, then the ledger read. The result is the cached row with the ledger's notarized flag. |
| Documents.GetDocumentByIpfsCid | src/main/java/com/notarize/service/DocumentService.java:269-281 | The cached row with that CID, with the ledger's flag. No row gives "not found", and several rows give the non-unique failure. With exactly one such row it succeeds iff the ledger read does, and a ledger failure reaches the caller unwrapped. |
| Documents.ByCidAgreesWithByHash | src/main/java/com/notarize/service/DocumentService.java:247-281 | When no other row shares a document's CID, getDocumentByIpfsCid on that CID gives the same answer as getDocument on the document's hash. |
| Documents.UpdateDocumentMetadata | src/main/java/com/notarize/service/DocumentService.java:440-449 | Renames the row. The update hook refreshes lastVerified unless the name was already the given one, when no update runs. Nothing else changes. |
| Documents.DownloadFromIpfs | src/main/java/com/notarize/service/DocumentService.java:397-426 | Success iff the row exists, has a CID, and the gateways return non-empty content for it; the value is that content. Every failure is wrapped. |
| Worlds.IpfsDownload | src/main/java/com/notarize/util/IpfsUtil.java:120-187 | The gateways' answer. An empty answer counts as a failed gateway, so the call returns non-empty content or throws. |
| Documents.GetDocumentSimple | src/main/java/com/notarize/service/DocumentService.java:538-550 | The cached row, or the wrapped "not found" iff there is none. |
| Documents.GetUserDocuments | src/main/java/com/notarize/service/DocumentService.java:283-288 | Exactly the owner's rows. |
| Documents.GetNotarizedDocuments | src/main/java/com/notarize/service/DocumentService.java:297-302 | Exactly the notarized rows. |
| Documents.GetDocumentsByNotary | src/main/java/com/notarize/service/DocumentService.java:304-309 | Exactly the rows listing the notary. |
| Documents.GetDocumentsNeedingVerification | src/main/java/com/notarize/service/DocumentService.java:454-461 | Exactly the rows never verified or verified more than 24 hours before now. |
| Documents.DeleteDocument | src/main/java/com/notarize/service/DocumentService.java:432-438 | An unknown hash gives "not found". Otherwise that row goes and nothing else changes. |
| Documents.VerifyDocumentWithIpfs | src/main/java/com/notarize/service/DocumentService.java:321-352 | Succeeds iff the row exists, has a CID, the gateways return non-empty content, and the ledger read succeeds. The answer is true iff that content hashes to the document hash and the ledger reports the CID notarized. Every failure is wrapped. |
| Documents.VerifyIsDownloadThenLedger | src/main/java/com/notarize/service/DocumentService.java:321-352 | verifyDocumentWithIpfs fails whenever downloadFromIpfs does. Otherwise it succeeds iff the ledger read does, and answers hash(downloaded content) = document hash and notarized on chain. |
| Documents.ManuallyVerifyDocument | src/main/java/com/notarize/service/DocumentService.java:357-393 | Verified iff notarized on chain, the gateways return non-empty content, and that content matches. A failed download reads as a mismatch, not an error. lastVerified is stamped, and nothing else changes. |
| Documents.ManualVerdictIsIpfsVerdict | src/main/java/com/notarize/service/DocumentService.java:357-393 | The manual verdict is true exactly when verifyDocumentWithIpfs answers true, so content that cannot be downloaded is never verified. |
| Documents.ManualVerificationKeepsView | src/main/java/com/notarize/service/DocumentService.java:357-393 | A manual verification changes nothing that a later verification reads. |
| Documents.ItemResult | src/main/java/com/notarize/service/DocumentService.java:472-481 | One batch row: it carries the input hash. It has an error iff the manual verification threw, and the error is that exception. A success row carries the manual verification's verdict; an error row is unverified. |
| Documents.VerifyMultipleDocuments | src/main/java/com/notarize/service/DocumentService.java:468-484 | One row per input, in order. Each row is what verifying that hash alone on the initial world gives. Never throws. Keeps the invariant. |
| Documents.GetDocumentVerificationStatus | src/main/java/com/notarize/service/DocumentService.java:489-518 | notaryCount is the list length. A missing CID makes both the on-chain flag and availability false. Availability is false on a failed or empty download. |
| Documents.StatusAgreesWithDownload | src/main/java/com/notarize/service/DocumentService.java:500-515 | The report's availability is exactly downloadFromIpfs succeeding, and its on-chain flag is the ledger's answer for the CID. |
| Slashing.CleanOldAttempts | src/main/java/com/notarize/service/SlashingService.java:123-127 | Keeps exactly the entries no older than 24 hours before now, with their values. |
| Slashing.CleanOldAttemptsIdempotent | src/main/java/com/notarize/service/SlashingService.java:123-127 | Purging twice is purging once. |
| Slashing.IncrementErrorCount | src/main/java/com/notarize/service/SlashingService.java:118-121 | The count, defaulting to 0, rises by one; other counts are kept. |
| Slashing.SlashNotary | src/main/java/com/notarize/service/SlashingService.java:80-96 | The error count rises by one even when the slash fails. A failure leaves the world and the audit as they were. A success applies the notary slash and logs one event. |
| Slashing.DetectDoubleNotarization | src/main/java/com/notarize/service/SlashingService.java:31-42 | Slashes iff the key was already present; the check runs before the purge, so a stale key still counts. Afterwards the key maps to now, and every other key survives iff it is fresh. |
| Slashing.SecondAttemptIsSlashed | src/main/java/com/notarize/service/SlashingService.java:31-42 | The first attempt costs nothing; the second costs one error. |
| Slashing.CalculateErrorRate | src/main/java/com/notarize/service/SlashingService.java:112-116 | The rate is the count divided by 100. |
| Slashing.MonitorNotaryPerformance | src/main/java/com/notarize/service/SlashingService.java:65-77 | Flags iff the notary exists and its count exceeds 10, that is, the rate exceeds 0.1. |
| Slashing.SlashingRaisesWarnings | src/main/java/com/notarize/service/SlashingService.java:65-96 | A slash, even a failed one, never clears a warning. The eleventh error of a cached notary raises one. |
| Slashing.SlashAllCountsEveryListing | src/main/java/com/notarize/service/SlashingService.java:52-55 | Slashing the list raises each notary's count by its number of listings. |
| Slashing.SlashAllLogsListedNotaries | src/main/java/com/notarize/service/SlashingService.java:129-133 | The audit log is extended by at most one event per listing, each for a listed notary, this document and this reason. |
| Slashing.VerifyDocumentAndSlashAsWritten | src/main/java/com/notarize/service/SlashingService.java:45-62 | The check as written: the content is fetched by treating the CID as a document hash. An unknown document changes nothing. |
| Slashing.AsWrittenNeverSlashes | src/main/java/com/notarize/service/SlashingService.java:47-49 | When CIDs are never also document hashes, the written check changes nothing. |
| Slashing.VerifyDocumentAndSlash | src/main/java/com/notarize/service/SlashingService.java:45-62 | The corrected check: the content is fetched by the document hash. |
| Slashing.VerifyDocumentAndSlashSlashesAll | src/main/java/com/notarize/service/SlashingService.java:49-56 | When the content does not match, every listed notary gets one error per listing; otherwise nothing changes. |
| Slashing.TamperedSampleShowsDiscrepancy | src/main/java/com/notarize/service/SlashingService.java:47-49 | On one tampered document, the written check slashes nobody and the corrected one slashes its notary. |
| Deployer.DetectLocal | src/main/java/com/notarize/util/ContractDeployerUtil.java:105-119 | Local iff the lower-cased client version contains "ganache" or "testrpc". A failed detection means local. |
| Deployer.TestRpcClauseIsRedundant | src/main/java/com/notarize/util/ContractDeployerUtil.java:110-113 | The third test ("EthereumJS TestRPC") implies the second. |
| Deployer.IsValidContractAddress | src/main/java/com/notarize/util/ContractDeployerUtil.java:259-284 | False unless the address has 42 characters and a "0x" prefix. Code other than null, "0x" or "0x0" makes it true. A failed code lookup gives true on a local network and false otherwise. |
| Deployer.LocalAcceptsWhatRemoteAccepts | src/main/java/com/notarize/util/ContractDeployerUtil.java:259-284 | A local network accepts every address a remote one does. The two differ only on a well-formed address whose code lookup fails. |
| Deployer.LocalValidAddressLoads | src/main/java/com/notarize/util/ContractDeployerUtil.java:205-254 | On a local network, loading any address the validity check accepts succeeds and binds it. |
| Deployer.FirstAddressTakesFirstKeyLine | src/main/java/com/notarize/util/ContractDeployerUtil.java:325-346 | An address is found iff some line starts with "contract.address="; it is the trimmed remainder of the first such line. |
| Deployer.LoadOfRenderedConfig | src/main/java/com/notarize/util/ContractDeployerUtil.java:297-320 | Loading the file the deployer writes gives back the address, for an address with no newline and no surrounding blanks. |
| Deployer.Verify | src/main/java/com/notarize/util/ContractDeployerUtil.java:225-254 | A local network always passes. A remote one passes iff both contract constants can be read. |
| Deployer.LoadExisting | src/main/java/com/notarize/util/ContractDeployerUtil.java:205-220 | Binds the contract and address first, then succeeds iff verification passes. |
| Deployer.DeployNew | src/main/java/com/notarize/util/ContractDeployerUtil.java:124-200 | A failed balance read fails. Too little balance aborts only on a remote network. On success the new contract is bound, its address saved to the config, and verified. |
| Deployer.DeployedAddressReloads | src/main/java/com/notarize/util/ContractDeployerUtil.java:194-197 | The config a deployment saves loads back to the deployed address. |
| Deployer.InitializeContract | src/main/java/com/notarize/util/ContractDeployerUtil.java:61-100 | The network type is detected first. Then the configured address is used only when auto-deploy is off and it is valid; then the saved one; then a deployment if auto-deploy is on; otherwise false. |
| Deployment.Deploy | src/main/java/com/notarize/service/ContractDeploymentService.java:53-99 | A failed balance read, a balance ≤ 0 or a failed deployment leave the service as it was. Otherwise the contract is bound and the result is the post-check. |
| Deployment.Load | src/main/java/com/notarize/service/ContractDeploymentService.java:104-123 | Binds the address, then succeeds iff the post-check passes. |
| Deployment.Initialize | src/main/java/com/notarize/service/ContractDeploymentService.java:34-48 | Deploys when asked to or when the address is null or empty, and loads otherwise. Reports false rather than throwing. A success leaves a bound contract that passed the post-check. |
| Deployment.InitializedServiceHandsOutContract | src/main/java/com/notarize/service/ContractDeploymentService.java:34-48 | After a successful initialize, getContract hands out the reported address: the given one after a load, the new one after a deployment. |
| Deployment.GetContract | src/main/java/com/notarize/service/ContractDeploymentService.java:172-177 | Succeeds iff a contract is bound. |
| Automation.TryLoadWithUtil | src/main/java/com/notarize/service/AutomatedContractService.java:112-137 | A valid, non-blank configured address is loaded, with no fall-through. Otherwise a valid saved address is loaded. Otherwise nothing happens. |
| Automation.TryLoadExisting | src/main/java/com/notarize/service/AutomatedContractService.java:88-110 | ContractDeploymentService is tried first. ContractDeployerUtil is tried only when that fails, and the winner's contract and address are taken over. |
| Automation.EmptyConfiguredAddressDeploys | src/main/java/com/notarize/service/AutomatedContractService.java:91 | With the default empty address, the load path of ContractDeploymentService deploys. |
| Automation.TryDeployNew | src/main/java/com/notarize/service/AutomatedContractService.java:139-167 | Skipped with no effect unless deployment is enabled. Otherwise ContractDeploymentService is tried before ContractDeployerUtil. |
| Automation.Attempt | src/main/java/com/notarize/service/AutomatedContractService.java:68 | Succeeds iff loading succeeds or, failing that, deployment does. Deployment is tried only when loading failed, and each phase reads its own node answers. |
| Automation.FreshDeploymentRescuesAttempt | src/main/java/com/notarize/service/AutomatedContractService.java:88-167 | With the default settings, a deployment that failed while loading does not doom the attempt: a fresh deployment that passes the post-check makes it succeed. |
| Automation.Retry | src/main/java/com/notarize/service/AutomatedContractService.java:63-86 | At most maxRetries attempts, stopping at the first success. Ready iff the last attempt succeeded. Without a success the whole budget is used. |
| Automation.RetryReadyHasContract | src/main/java/com/notarize/service/AutomatedContractService.java:191-204 | A bootstrap that makes the service ready leaves a contract that getContract returns. |
| Automation.Initialize | src/main/java/com/notarize/service/AutomatedContractService.java:45-61 | No attempt unless the node answers. maxRetries ≤ 0 makes no attempt. |
| Automation.PrimaryService | src/main/java/com/notarize/service/AutomatedContractService.java:181-188 | ContractDeploymentService, then ContractDeployerUtil, then "None", each iff the earlier ones do not apply. |
| Automation.GetContract | src/main/java/com/notarize/service/AutomatedContractService.java:191-204 | Not ready fails. Otherwise the first service holding a contract supplies it, and the call fails iff neither holds one. |
| Automation.GetContractAddress | src/main/java/com/notarize/service/AutomatedContractService.java:206-213 | The address of the service getPrimaryService names, or the service's own field. |
| Automation.GetContractStatus | src/main/java/com/notarize/service/AutomatedContractService.java:219-224 | "NOT_READY" iff not ready. Otherwise "READY - " + the first 10 address characters + "...", or "UNKNOWN" without an address. An address shorter than 10 characters makes substring throw. |
| Automation.StatusFollowsContract | src/main/java/com/notarize/service/AutomatedContractService.java:191-224 | The status is "NOT_READY" exactly when getContract refuses for not being ready. A status that names an address names the first 10 characters of getContractAddress. |
| Infura.MaskAddress | src/main/java/com/notarize/config/InfuraWeb3Config.java:105-109 | "***" iff null or shorter than 10. Otherwise 13 characters: the first 6, "...", the last 4. |
| Infura.MaskAddressIdempotent | src/main/java/com/notarize/config/InfuraWeb3Config.java:105-109 | Masking a masked address changes nothing. |
| Infura.MaskUrl | src/main/java/com/notarize/config/InfuraWeb3Config.java:91-103 | "***" for null or empty. A tail of more than 8 characters after a last '/' at an index > 0 becomes its first 4 + "..." + last 4, with the prefix kept. Anything else is returned unchanged. |
| Infura.MaskUrlIdempotent | src/main/java/com/notarize/config/InfuraWeb3Config.java:91-103 | Masking a masked URL changes nothing. |
| Infura.GetNetworkName | src/main/java/com/notarize/config/InfuraWeb3Config.java:111-120 | A name other than "Unknown Network" iff the id is one of the five known ones. |
| Infura.NetworkNameRoundTrip | src/main/java/com/notarize/config/InfuraWeb3Config.java:111-120 | The five names identify their ids, both ways. |
| Debug.BalanceEth | src/main/java/com/notarize/controller/DebugController.java:133 | The whole ether in the balance, rounded toward zero as BigInteger.divide does. |
| Debug.EnoughForStakeShowsOneEth | src/main/java/com/notarize/controller/DebugController.java:140-144 | "Enough" means strictly more than 1.02 ETH, which implies at least 1 ETH is shown; exactly 1 ETH is not enough. |
| Debug.ConvertWeiToEth | src/main/java/com/notarize/controller/DebugController.java:257-266 | The exact quotient wei / 10^18, between the whole-ether figure and the next one. |
| Debug.TestDocumentExists | src/main/java/com/notarize/controller/DebugController.java:192-195 | The probe id "test_document_hash_" + millis is never a valid CID, so the probe always answers false. |

## Left out

- HashUtil, the IpfsUtil upload and the ledger wrapper are not part of this model. They appear only as oracles: the hash function, the upload outcome, and the read answers and refused calls of the ledger. The IpfsUtil download is Worlds.IpfsDownload over the content map.
- Network, file and clock I/O: the config-file write, the `deployed-contract.txt` write, RPC calls, `Thread.sleep` between retries, and `@PostConstruct` wiring. A failed config write is not modelled: the rendered text is taken as saved.
- Each operation reads the clock once. The source reads `LocalDateTime.now()` several times within one call.
- Concurrency on the unsynchronized maps of SlashingService.
- Floating point: reputation and error rate are exact reals, and stake is an exact decimal, so IEEE rounding is not modelled.
- Java `int` overflow of the two notary counters is not modelled.
- Unicode: `trim` and `toLowerCase` are modelled on the characters at or below U+0020 and on ASCII letters.
- `split("\n")` drops trailing empty strings in Java; the loader only searches for the first line with a non-empty prefix, so this never matters.
- The controllers' HTTP mapping, and everything in DebugController except the balance arithmetic and the existence probe. The decimal rendering of `convertWeiToEth` is left out as well.
- `getAllDocuments` is the whole table, and `documentExists` is `Store.ExistsByDocumentHash`. The DTO conversion copies fields.
- `getNotaryStatistics` only copies fields. It is left out.
- `ContractDeploymentService.isContractReady`, `ContractDeployerUtil.isContractValid` and `getDetailedStatus` need the contract's own validity call, and `printContractInfo` only logs. They are left out.
- `ContractDeployerUtil.getContract` returns the bound contract or null; in the model it is the `contract` field itself.
- The ledger registers the transaction sender, not the address the service passes; the model logs the call without a notary address.
- `getNetworkName` throws on a null id; the model's id is always a string.
- Automation.Initialize: the node's answer to the block-number probe is its `connected` field; an exception thrown during one attempt is modelled as that attempt failing.
- Deployer.InitializeContract: the start-up path through AutomatedContractService never calls network detection, so Automation.TryLoadWithUtil uses the util's network flag as it stands.

## Findings

| source | as written | input that shows it | evidently intended | confidence | as-written member | corrected member |
|---|---|---|---|---|---|---|
| src/main/java/com/notarize/service/SlashingService.java:47-49 | `verifyDocumentAndSlash` passes the document's CID to `downloadFromIpfs`, which looks a document up by its content hash. The lookup fails, the failure is swallowed, and no notary is ever slashed. | Document "h" with CID "Qm1", listed notary "n", and stored content "tampered" under "Qm1"; the hash is the identity. | Download by the document hash, so that a content mismatch slashes every listed notary. | not executed | Slashing.VerifyDocumentAndSlashAsWritten, Slashing.AsWrittenNeverSlashes, Slashing.TamperedSampleShowsDiscrepancy | Slashing.VerifyDocumentAndSlash, Slashing.VerifyDocumentAndSlashSlashesAll |

=== FILE: automation.dfy ===
/**
 * AutomatedContractService: the start-up bootstrap that loads or deploys
 * the contract through ContractDeploymentService first and
 * ContractDeployerUtil second, retried up to `maxRetries` times, and the
 * getters that pick whichever service holds a contract. The node's
 * answers during attempt `k` are `rounds(k)`; the five-second pause between
 * attempts is left out.
 */
module Automation {
  import opened Wrappers
  import opened Errors
  import opened Strings
  import opened Rpc
  import opened Deployment
  import opened Deployer

  /** The injected settings; the defaults are an empty address, auto-deploy on, three retries. */
  datatype Settings = Settings(configuredAddress: Option<string>, autoDeploy: bool, maxRetries: int,
                               deployNewContract: bool)

  const DefaultSettings := Settings(Some(""), true, 3, false)

  /** The two collaborating services and this service's own fields. */
  datatype Automation = Automation(service: Service, util: Util, contract: Option<string>,
                                   currentAddress: Option<string>, ready: bool)

  /** The services after one try, and whether it succeeded. */
  datatype Attempted = Attempted(state: Automation, ok: bool)

  /**
   * The node's answers during one attempt: while loading, and while
   * deploying afterwards. Each deployment sends its own transaction, so a
   * deployment of the deploy phase is independent of one the load phase
   * may already have made.
   */
  datatype Round = Round(load: Node, deploy: Node)

  /** The address is present and not blank, the util path's test. */
  predicate Configured(address: Option<string>) {
    address.Some? && Trim(address.value) != ""
  }

  /**
   * tryLoadWithContractDeployerUtil: the configured address if it is
   * present and valid (no fall-through once it is valid), else the address
   * in the config file if valid, else nothing. Network detection does not
   * run on this path, so the util's network flag is used as it stands.
   */
  function TryLoadWithUtil(u: Util, cfg: Settings, node: Node): (r: Outcome<()>)
    ensures r.util.isLocal == u.isLocal
    ensures Configured(cfg.configuredAddress) && IsValidContractAddress(u, node, cfg.configuredAddress) ==>
      r.util.contract == cfg.configuredAddress && (r.result.Success? <==> Verify(u, node, cfg.configuredAddress.value))
    ensures !(Configured(cfg.configuredAddress) && IsValidContractAddress(u, node, cfg.configuredAddress)) ==>
      var saved := LoadContractAddress(u.configFile);
      && (IsValidContractAddress(u, node, saved) ==>
            r.util.contract == saved && (r.result.Success? <==> Verify(u, node, saved.value)))
      && (!IsValidContractAddress(u, node, saved) ==> r.util == u && r.result.Failure?)
    ensures r.result.Success? ==> r.util.contract.Some?
  {
    if Configured(cfg.configuredAddress) && IsValidContractAddress(u, node, cfg.configuredAddress) then
      LoadExisting(u, node, cfg.configuredAddress.value)
    else
      var saved := LoadContractAddress(u.configFile);
      if IsValidContractAddress(u, node, saved) then LoadExisting(u, node, saved.value)
      else Outcome(u, Failure(NoContractAvailable))
  }

  /**
   * tryLoadExistingContract: ContractDeploymentService with the configured
   * address first, then the util; the winner's contract and address are
   * taken over.
   */
  function TryLoadExisting(a: Automation, cfg: Settings, node: Node): (r: Attempted)
    ensures r.state.ready == a.ready && r.state.util.isLocal == a.util.isLocal
    ensures r.state.service == Deployment.Initialize(a.service, cfg.configuredAddress, false, node).service
    ensures Deployment.Initialize(a.service, cfg.configuredAddress, false, node).ok ==>
      r.ok && r.state.util == a.util && r.state.contract == r.state.service.contract &&
      r.state.currentAddress == r.state.service.contractAddress
    ensures r.ok ==> Available(r.state)
    ensures !Deployment.Initialize(a.service, cfg.configuredAddress, false, node).ok ==>
      r.state.util == TryLoadWithUtil(a.util, cfg, node).util &&
      (r.ok <==> TryLoadWithUtil(a.util, cfg, node).result.Success?)
    ensures r.ok ==> r.state.contract.Some?
  {
    var ds := Deployment.Initialize(a.service, cfg.configuredAddress, false, node);
    if ds.ok then
      Attempted(a.(service := ds.service, contract := ds.service.contract, currentAddress := ds.service.contractAddress), true)
    else
      var ul := TryLoadWithUtil(a.util, cfg, node);
      if ul.result.Success? then
        Attempted(a.(service := ds.service, util := ul.util, contract := ul.util.contract,
                     currentAddress := ul.util.contractAddress), true)
      else Attempted(a.(service := ds.service, util := ul.util), false)
  }

  /** With the default empty address, the "load" path of ContractDeploymentService deploys a new contract. */
  lemma EmptyConfiguredAddressDeploys(a: Automation, node: Node)
    ensures TryLoadExisting(a, DefaultSettings, node).state.service == Deployment.Deploy(a.service, node).service
  {
  }

  /**
   * tryDeployNewContract: skipped without any effect unless deployment is
   * enabled; then ContractDeploymentService deploys, and the util deploys
   * if that failed.
   */
  function TryDeployNew(a: Automation, cfg: Settings, node: Node): (r: Attempted)
    ensures !cfg.autoDeploy && !cfg.deployNewContract ==> r == Attempted(a, false)
    ensures r.state.ready == a.ready && r.state.util.isLocal == a.util.isLocal
    ensures cfg.autoDeploy || cfg.deployNewContract ==>
      var ds := Deployment.Initialize(a.service, None, true, node);
      && r.state.service == ds.service
      && (ds.ok ==> r.ok && r.state.util == a.util && r.state.currentAddress == ds.service.contractAddress)
      && (!ds.ok ==> r.state.util == DeployNew(a.util, node).util && (r.ok <==> DeployNew(a.util, node).result.Success?))
      && (!ds.ok && r.ok ==> r.state.currentAddress == Some(DeployNew(a.util, node).result.value))
    ensures r.ok ==> Available(r.state)
    ensures r.ok ==> r.state.contract.Some?
  {
    if !cfg.autoDeploy && !cfg.deployNewContract then Attempted(a, false)
    else
      var ds := Deployment.Initialize(a.service, None, true, node);
      if ds.ok then
        Attempted(a.(service := ds.service, contract := ds.service.contract, currentAddress := ds.service.contractAddress), true)
      else
        var dn := DeployNew(a.util, node);
        match dn.result
        case Success(address) =>
          Attempted(a.(service := ds.service, util := dn.util, contract := dn.util.contract, currentAddress := Some(address)),
                    true)
        case Failure(_) => Attempted(a.(service := ds.service, util := dn.util), false)
  }

  /** One attempt: deployment is tried only when loading failed. */
  function Attempt(a: Automation, cfg: Settings, round: Round): (r: Attempted)
    ensures TryLoadExisting(a, cfg, round.load).ok ==> r == TryLoadExisting(a, cfg, round.load)
    ensures !TryLoadExisting(a, cfg, round.load).ok ==>
      r == TryDeployNew(TryLoadExisting(a, cfg, round.load).state, cfg, round.deploy)
    ensures r.state.ready == a.ready && r.state.util.isLocal == a.util.isLocal
    ensures r.ok ==> Available(r.state)
  {
    var l := TryLoadExisting(a, cfg, round.load);
    if l.ok then l else TryDeployNew(l.state, cfg, round.deploy)
  }

  /**
   * With the default settings, a deployment by ContractDeploymentService
   * that failed while loading does not doom the attempt: a fresh deployment
   * that passes the post-check makes it succeed.
   */
  lemma FreshDeploymentRescuesAttempt(a: Automation, round: Round)
    requires !TryLoadExisting(a, DefaultSettings, round.load).ok
    requires Deployment.Deploy(a.service, round.deploy).ok
    ensures Attempt(a, DefaultSettings, round).ok
    ensures Attempt(a, DefaultSettings, round).state.service == Deployment.Deploy(a.service, round.deploy).service
  {
  }

  /** The services after the bootstrap and the outcome of each attempt made. */
  datatype Bootstrap = Bootstrap(state: Automation, outcomes: seq<bool>)

  /** The attempts still allowed once `done` have been made. */
  function Budget(cfg: Settings, done: nat): nat {
    if cfg.maxRetries <= done then 0 else cfg.maxRetries - done
  }

  /**
   * initializeContractWithRetry from attempt `done + 1` on: stops at the
   * first success, marking the service ready, and otherwise uses up the
   * budget.
   */
  function Retry(a: Automation, cfg: Settings, rounds: nat -> Round, done: nat): (r: Bootstrap)
    ensures |r.outcomes| <= Budget(cfg, done)
    ensures forall i :: 0 <= i < |r.outcomes| - 1 ==> !r.outcomes[i]
    ensures r.state.ready <==> a.ready || (|r.outcomes| > 0 && r.outcomes[|r.outcomes| - 1])
    ensures !(|r.outcomes| > 0 && r.outcomes[|r.outcomes| - 1]) ==> |r.outcomes| == Budget(cfg, done)
    ensures r.state.util.isLocal == a.util.isLocal
    decreases Budget(cfg, done)
  {
    if Budget(cfg, done) == 0 then Bootstrap(a, [])
    else
      var t := Attempt(a, cfg, rounds(done));
      if t.ok then Bootstrap(t.state.(ready := true), [true])
      else
        var rest := Retry(t.state, cfg, rounds, done + 1);
        Bootstrap(rest.state, [false] + rest.outcomes)
  }

  /** Some service holds a contract for getContract to hand out. */
  predicate Available(a: Automation) {
    IsDeployed(a.service) || IsContractInitialized(a.util)
  }

  /** A bootstrap that makes the service ready leaves a contract that getContract returns. */
  lemma {:induction false} RetryReadyHasContract(a: Automation, cfg: Settings, rounds: nat -> Round, done: nat)
    requires !a.ready
    ensures Retry(a, cfg, rounds, done).state.ready ==> Available(Retry(a, cfg, rounds, done).state)
    ensures Retry(a, cfg, rounds, done).state.ready ==> GetContract(Retry(a, cfg, rounds, done).state).Success?
    decreases Budget(cfg, done)
  {
    if Budget(cfg, done) > 0 {
      var t := Attempt(a, cfg, rounds(done));
      if !t.ok {
        RetryReadyHasContract(t.state, cfg, rounds, done + 1);
      }
    }
  }

  /** initialize: no attempt at all unless the node answers the block-number probe. */
  function Initialize(a: Automation, cfg: Settings, probe: Node, rounds: nat -> Round): (r: Bootstrap)
    ensures !probe.connected ==> r == Bootstrap(a, [])
    ensures probe.connected ==> r == Retry(a, cfg, rounds, 0)
    ensures cfg.maxRetries <= 0 ==> r.outcomes == [] && r.state == a
    ensures r.state.ready ==> a.ready || probe.connected
  {
    if !probe.connected then Bootstrap(a, []) else Retry(a, cfg, rounds, 0)
  }

  /** getPrimaryService: ContractDeploymentService, then ContractDeployerUtil, then neither. */
  function PrimaryService(a: Automation): (r: string)
    ensures r == "ContractDeploymentService" <==> IsDeployed(a.service) && a.service.contractAddress.Some?
    ensures r == "ContractDeployerUtil" <==>
      !(IsDeployed(a.service) && a.service.contractAddress.Some?) && IsContractInitialized(a.util)
    ensures r == "None" <==> !(IsDeployed(a.service) && a.service.contractAddress.Some?) && !IsContractInitialized(a.util)
  {
    if IsDeployed(a.service) && a.service.contractAddress.Some? then "ContractDeploymentService"
    else if IsContractInitialized(a.util) then "ContractDeployerUtil"
    else "None"
  }

  /** getContract: only once ready, from the first service that holds one. */
  function GetContract(a: Automation): (r: Result<string, Error>)
    ensures !a.ready ==> r == Failure(ContractNotReady)
    ensures a.ready && IsDeployed(a.service) ==> r == Success(a.service.contract.value)
    ensures a.ready && !IsDeployed(a.service) && IsContractInitialized(a.util) ==> r == Success(a.util.contract.value)
    ensures r.Failure? <==> !a.ready || (!IsDeployed(a.service) && !IsContractInitialized(a.util))
  {
    if !a.ready then Failure(ContractNotReady)
    else if IsDeployed(a.service) then Success(a.service.contract.value)
    else if IsContractInitialized(a.util) then Success(a.util.contract.value)
    else Failure(NoContractAvailable)
  }

  /** getContractAddress: as getPrimaryService picks, falling back to this service's own field. */
  function GetContractAddress(a: Automation): (r: Option<string>)
    ensures PrimaryService(a) == "ContractDeploymentService" ==> r == a.service.contractAddress
    ensures PrimaryService(a) == "ContractDeployerUtil" ==> r == a.util.contractAddress
    ensures PrimaryService(a) == "None" ==> r == a.currentAddress
  {
    if IsDeployed(a.service) && a.service.contractAddress.Some? then a.service.contractAddress
    else if IsContractInitialized(a.util) then a.util.contractAddress
    else a.currentAddress
  }

  const NotReady := "NOT_READY"
  const ReadyPrefix := "READY - "

  /**
   * getContractStatus: "NOT_READY" when not ready; otherwise the first ten
   * address characters and "...", or "UNKNOWN" without an address. An
   * address shorter than ten characters makes `substring` throw.
   */
  function GetContractStatus(a: Automation): (r: Result<string, Error>)
    ensures r == Success(NotReady) <==> !a.ready
    ensures r.Failure? <==> a.ready && GetContractAddress(a).Some? && |GetContractAddress(a).value| < 10
    ensures r.Failure? ==> r.error == IndexOutOfBounds
    ensures a.ready && r.Success? ==> StartsWith(r.value, ReadyPrefix)
    ensures a.ready && r.Success? && GetContractAddress(a).Some? ==>
      r.value == ReadyPrefix + GetContractAddress(a).value[..10] + "..." && |r.value| == 21
  {
    if !a.ready then Success(NotReady)
    else
      match GetContractAddress(a)
      case None => Success(ReadyPrefix + "UNKNOWN")
      case Some(address) =>
        if |address| < 10 then Failure(IndexOutOfBounds)
        else
          var r := ReadyPrefix + address[..10] + "...";
          assert r[..8] == ReadyPrefix;
          Success(r)
  }

  /**
   * The status and getContract agree on readiness: the status is
   * "NOT_READY" exactly when getContract refuses for not being ready, and a
   * ready service whose status names an address names the one
   * getContractAddress reports.
   */
  lemma StatusFollowsContract(a: Automation)
    ensures GetContractStatus(a) == Success(NotReady) <==> GetContract(a) == Failure(ContractNotReady)
    ensures GetContract(a).Success? ==> GetContractStatus(a) != Success(NotReady)
    ensures a.ready && GetContractStatus(a).Success? && GetContractAddress(a).Some? ==>
      GetContractStatus(a).value[|ReadyPrefix|..|ReadyPrefix| + 10] == GetContractAddress(a).value[..10]
  {
  }
}

=== FILE: debug.dfy ===
/**
 * The arithmetic and the existence probe of DebugController's balance
 * and contract-status pages. The HTTP responses around them are left out.
 */
module Debug {
  import opened Wrappers
  import opened Strings
  import opened Gateway

  /** One ether in wei. */
  const WeiPerEth: int := 1_000_000_000_000_000_000

  /** The gas allowance added to a 1 ETH stake: 0.02 ETH. */
  const EstimatedGas: int := 20_000_000_000_000_000

  /** balanceETH: BigInteger.divide by one ether, so the fraction is dropped toward zero. */
  function BalanceEth(balance: int): (r: int)
    ensures balance >= 0 ==> 0 <= r && r * WeiPerEth <= balance < (r + 1) * WeiPerEth
    ensures balance < 0 ==> r <= 0 && (r - 1) * WeiPerEth < balance <= r * WeiPerEth
    ensures -WeiPerEth < balance < WeiPerEth ==> r == 0
  {
    if balance >= 0 then balance / WeiPerEth else -((-balance) / WeiPerEth)
  }

  /** requiredFor1ETHStake: one ether and the gas allowance, 1.02 ETH. */
  const RequiredForStake: int := WeiPerEth + EstimatedGas

  /** hasEnoughFor1ETHStake: strictly more than the required amount. */
  predicate HasEnoughForStake(balance: int) {
    balance > RequiredForStake
  }

  /** Enough for the stake means at least one whole ether is shown; one whole ether alone is not enough. */
  lemma EnoughForStakeShowsOneEth(balance: int)
    ensures HasEnoughForStake(balance) ==> BalanceEth(balance) >= 1
    ensures !HasEnoughForStake(WeiPerEth) && BalanceEth(WeiPerEth) == 1
    ensures HasEnoughForStake(1_020_000_000_000_000_001) && !HasEnoughForStake(1_020_000_000_000_000_000)
  {
  }

  /** convertWeiToEth: the exact decimal quotient; dividing by a power of ten never needs rounding. */
  function ConvertWeiToEth(wei: int): (r: real)
    ensures r * (WeiPerEth as real) == wei as real
    ensures wei >= 0 ==> (BalanceEth(wei) as real) <= r < (BalanceEth(wei) + 1) as real
  {
    (wei as real) / (WeiPerEth as real)
  }

  /** The probe's prefix, before the clock reading in milliseconds. */
  const ProbePrefix := "test_document_hash_"

  /** The identifier the probe looks up at time `millis`. */
  function ProbeHash(millis: nat): (r: string)
    ensures StartsWith(r, ProbePrefix)
  {
    ProbePrefix + DecimalString(millis)
  }

  /** testDocumentExists: the probe identifier is never a CID, so the lookup always answers false. */
  function TestDocumentExists(l: Ledger, millis: nat): (r: bool)
    ensures !r
    ensures !IsValidIpfsCid(Some(ProbeHash(millis)))
  {
    var h := ProbeHash(millis);
    assert h[0] == 't';
    DocumentExists(l, h)
  }
}

=== FILE: deployer.dfy ===
/**
 * ContractDeployerUtil: network detection, the contract-address syntax
 * and code check, the config file the deployer writes and reads back,
 * loading and deploying with their post-checks, and the precedence of
 * initializeContract. The config file is its content (None when absent).
 */
module Deployer {
  import opened Wrappers
  import opened Errors
  import opened Strings
  import opened Rpc

  /** The util's fields: the bound contract (by address), the address, the network flag, the config file. */
  datatype Util = Util(contract: Option<string>, contractAddress: Option<string>, isLocal: bool, configFile: Option<string>)

  /** The result of a deployer call: the util after it and, on failure, the exception. */
  datatype Outcome<T> = Outcome(util: Util, result: Result<T, Error>)

  /** The config key of the contract address. */
  const AddressKey := "contract.address="
  /** 0.01 ETH and 0.1 ETH, in wei. */
  const MinBalanceLocal: int := 10_000_000_000_000_000
  const MinBalanceRemote: int := 100_000_000_000_000_000

  /** detectNetworkType: a Ganache or TestRPC client; a failed or null answer counts as local. */
  function DetectLocal(clientVersion: Option<string>): (r: bool)
    ensures clientVersion.None? ==> r
    ensures clientVersion.Some? ==>
      (r <==> Contains(Lower(clientVersion.value), "ganache") || Contains(Lower(clientVersion.value), "testrpc"))
  {
    match clientVersion
    case None => true
    case Some(v) =>
      TestRpcClauseIsRedundant(v);
      Contains(Lower(v), "ganache") || Contains(Lower(v), "testrpc") || Contains(v, TestRpcClient)
  }

  /** The client name of the third test, and its lower-case form. */
  const TestRpcClient := "EthereumJS TestRPC"
  const TestRpcLower := "ethereumjs testrpc"

  /** The third test of detectNetworkType adds nothing: the second already matches such a client. */
  lemma TestRpcClauseIsRedundant(v: string)
    ensures Contains(v, TestRpcClient) ==> Contains(Lower(v), "testrpc")
  {
    if Contains(v, TestRpcClient) {
      ContainsLower(v, TestRpcClient);
      LowerTestRpcClient();
      LowerNameHasTestRpc();
      ContainsTransitive(Lower(v), TestRpcLower, "testrpc");
    }
  }

  lemma LowerTestRpcClient()
    ensures Lower(TestRpcClient) == TestRpcLower
  {
    assert TestRpcClient == "Ethereum" + "JS " + "TestRPC";
    assert TestRpcLower == "ethereum" + "js " + "testrpc";
    assert Lower("Ethereum") == "ethereum";
    assert Lower("JS ") == "js ";
    assert Lower("TestRPC") == "testrpc";
    LowerAppend("Ethereum", "JS ");
    LowerAppend("Ethereum" + "JS ", "TestRPC");
  }

  lemma LowerNameHasTestRpc()
    ensures Contains(TestRpcLower, "testrpc")
  {
    assert TestRpcLower[11..] == "testrpc";
    assert OccursAt(TestRpcLower, "testrpc", 11);
  }

  /** The syntactic half of isValidContractAddress. */
  predicate WellFormedAddress(a: string) {
    |a| == 42 && StartsWith(a, "0x")
  }

  /** The node holds code at the address: not null, "0x" or "0x0". */
  predicate HasCode(code: Option<string>) {
    code.Some? && code.value != "0x" && code.value != "0x0"
  }

  /**
   * isValidContractAddress: well-formed and holding code; a failed code
   * lookup counts as valid on a local network only.
   */
  function IsValidContractAddress(u: Util, node: Node, address: Option<string>): (r: bool)
    ensures r ==> address.Some? && WellFormedAddress(address.value)
    ensures r && !u.isLocal ==> address.value in node.code && HasCode(node.code[address.value])
    ensures (address.Some? && WellFormedAddress(address.value) && address.value in node.code &&
             HasCode(node.code[address.value])) ==> r
    ensures address.Some? && WellFormedAddress(address.value) && address.value !in node.code ==> (r <==> u.isLocal)
  {
    match address
    case None => false
    case Some(a) =>
      if !WellFormedAddress(a) then false
      else if a in node.code then HasCode(node.code[a])
      else u.isLocal
  }

  /**
   * A local network accepts every address a remote one accepts; the two
   * disagree only on an address whose code lookup fails.
   */
  lemma LocalAcceptsWhatRemoteAccepts(u: Util, node: Node, address: Option<string>)
    ensures IsValidContractAddress(u.(isLocal := false), node, address) ==>
      IsValidContractAddress(u.(isLocal := true), node, address)
    ensures (IsValidContractAddress(u.(isLocal := true), node, address) !=
             IsValidContractAddress(u.(isLocal := false), node, address)) ==>
      address.Some? && WellFormedAddress(address.value) && address.value !in node.code
  {
  }

  function NetworkLabel(isLocal: bool): string {
    if isLocal then "local-ganache" else "sepolia-testnet"
  }

  // The fixed parts of the config lines.
  // Written in pieces: the verifier reads the characters of a literal this long only through its concatenations.
  const ConfigHeader := "# Smart " + "Contract " + "Configura" + "tion - " + "Auto-gen" + "erated"
  const GeneratedPrefix := "# Generated at: "
  const NetworkPrefix := "# Network: "
  const DeployerKey := "contract.deployer="
  const NetworkKey := "contract.network="

  /** The six lines saveContractAddressToConfig writes. */
  function ConfigLines(address: string, isLocal: bool, clock: string, deployer: string): seq<string> {
    [ ConfigHeader,
      GeneratedPrefix + clock,
      NetworkPrefix + NetworkLabel(isLocal),
      AddressKey + address,
      DeployerKey + deployer,
      NetworkKey + NetworkLabel(isLocal) ]
  }

  /** The file content: every line terminated by a newline. */
  function RenderConfig(address: string, isLocal: bool, clock: string, deployer: string): string {
    JoinLines(ConfigLines(address, isLocal, clock, deployer))
  }

  /** A line that starts with the key does not start with "#", so the comment test of the loader adds nothing. */
  lemma KeyLineIsNoComment(line: string)
    ensures StartsWith(line, AddressKey) ==> !StartsWith(line, "#")
  {
    if StartsWith(line, AddressKey) {
      assert line[0] == AddressKey[0];
    }
  }

  /** The loader passes over leading lines that are not address lines. */
  lemma {:induction false} FirstAddressSkips(lines: seq<string>, k: nat)
    requires k <= |lines|
    requires forall j :: 0 <= j < k ==> !StartsWith(lines[j], AddressKey)
    ensures FirstAddress(lines) == FirstAddress(lines[k..])
    decreases k
  {
    if k > 0 {
      assert lines[1..][k - 1..] == lines[k..];
      FirstAddressSkips(lines[1..], k - 1);
    }
  }

  /** The trimmed value of the first address line, if any. */
  function FirstAddress(lines: seq<string>): Option<string> {
    if |lines| == 0 then None
    else if StartsWith(lines[0], AddressKey) && !StartsWith(lines[0], "#") then Some(Trim(lines[0][|AddressKey|..]))
    else FirstAddress(lines[1..])
  }

  /** Line `i` is the first address line. */
  predicate FirstKeyLine(lines: seq<string>, i: int) {
    0 <= i < |lines| && StartsWith(lines[i], AddressKey) && forall j :: 0 <= j < i ==> !StartsWith(lines[j], AddressKey)
  }

  /** The loader finds an address iff some line starts with the key, and then takes the first such line. */
  lemma FirstAddressTakesFirstKeyLine(lines: seq<string>)
    ensures FirstAddress(lines).Some? <==> exists i :: 0 <= i < |lines| && StartsWith(lines[i], AddressKey)
    ensures FirstAddress(lines).Some? ==>
      exists i :: FirstKeyLine(lines, i) && FirstAddress(lines).value == Trim(lines[i][|AddressKey|..])
  {
    if FirstAddress(lines).Some? {
      var i := FirstAddressLine(lines);
    }
    forall i | 0 <= i < |lines| && StartsWith(lines[i], AddressKey)
      ensures FirstAddress(lines).Some?
    {
      FirstAddressFinds(lines, i);
    }
  }

  /** The line the loader took its address from. */
  lemma {:induction false} FirstAddressLine(lines: seq<string>) returns (i: int)
    requires FirstAddress(lines).Some?
    ensures FirstKeyLine(lines, i) && FirstAddress(lines).value == Trim(lines[i][|AddressKey|..])
    decreases |lines|
  {
    KeyLineIsNoComment(lines[0]);
    if StartsWith(lines[0], AddressKey) {
      i := 0;
    } else {
      var j := FirstAddressLine(lines[1..]);
      i := j + 1;
      assert lines[i] == lines[1..][j];
      assert forall k :: 1 <= k < i ==> lines[k] == lines[1..][k - 1];
    }
  }

  /** Any address line makes the loader find an address. */
  lemma {:induction false} FirstAddressFinds(lines: seq<string>, i: int)
    requires 0 <= i < |lines| && StartsWith(lines[i], AddressKey)
    ensures FirstAddress(lines).Some?
    decreases i
  {
    KeyLineIsNoComment(lines[0]);
    if !StartsWith(lines[0], AddressKey) {
      assert lines[1..][i - 1] == lines[i];
      FirstAddressFinds(lines[1..], i - 1);
    }
  }

  /** loadContractAddressFromConfig: None when the file is absent or names no address. */
  function LoadContractAddress(configFile: Option<string>): (r: Option<string>)
    ensures configFile.None? ==> r.None?
  {
    match configFile
    case None => None
    case Some(content) => FirstAddress(Lines(content))
  }

  /**
   * The file the deployer writes gives back the address it was written
   * with, whenever the address carries no newline and no surrounding
   * blanks and the clock and deployer lines are single lines.
   */
  lemma LoadOfRenderedConfig(address: string, isLocal: bool, clock: string, deployer: string)
    requires '\n' !in address && Trim(address) == address
    requires '\n' !in clock && '\n' !in deployer
    ensures LoadContractAddress(Some(RenderConfig(address, isLocal, clock, deployer))) == Some(address)
  {
    var ls := ConfigLines(address, isLocal, clock, deployer);
    ConfigLinesAreLines(address, isLocal, clock, deployer);
    assert ls[0][0] == '#' && ls[1][0] == '#' && ls[2][0] == '#';
    LoadOfJoinedLines(ls, address);
  }

  /** Three comment lines and then an address line: the loader takes that address. */
  lemma LoadOfJoinedLines(ls: seq<string>, address: string)
    requires forall k :: 0 <= k < |ls| ==> '\n' !in ls[k]
    requires |ls| >= 4 && ls[3] == AddressKey + address
    requires |ls[0]| > 0 && ls[0][0] == '#' && |ls[1]| > 0 && ls[1][0] == '#' && |ls[2]| > 0 && ls[2][0] == '#'
    ensures LoadContractAddress(Some(JoinLines(ls))) == Some(Trim(address))
  {
    LinesOfJoin(ls);
    FirstAddressAfterComments(ls + [""], address);
  }

  lemma FirstAddressAfterComments(lines: seq<string>, address: string)
    requires |lines| >= 4 && lines[3] == AddressKey + address
    requires |lines[0]| > 0 && lines[0][0] == '#' && |lines[1]| > 0 && lines[1][0] == '#'
    requires |lines[2]| > 0 && lines[2][0] == '#'
    ensures FirstAddress(lines) == Some(Trim(address))
  {
    CommentIsNoKeyLine(lines[0]);
    CommentIsNoKeyLine(lines[1]);
    CommentIsNoKeyLine(lines[2]);
    FirstAddressSkips(lines, 3);
    FirstAddressHit(lines[3..], address);
  }

  /** A comment line is not an address line. */
  lemma CommentIsNoKeyLine(line: string)
    requires |line| > 0 && line[0] == '#'
    ensures !StartsWith(line, AddressKey)
  {
  }

  /** An address line first in the file is the one the loader takes. */
  lemma FirstAddressHit(lines: seq<string>, address: string)
    requires |lines| > 0 && lines[0] == AddressKey + address
    ensures FirstAddress(lines) == Some(Trim(address))
  {
    assert lines[0][..|AddressKey|] == AddressKey;
    assert lines[0][|AddressKey|..] == address;
    KeyLineIsNoComment(lines[0]);
  }

  lemma HeaderIsSingleLine()
    ensures '\n' !in ConfigHeader
  {
  }

  lemma PrefixesAreSingleLines()
    ensures '\n' !in GeneratedPrefix && '\n' !in NetworkPrefix
  {
  }

  lemma KeysAreSingleLines()
    ensures '\n' !in AddressKey && '\n' !in DeployerKey && '\n' !in NetworkKey
  {
  }

  lemma LabelIsSingleLine(isLocal: bool)
    ensures '\n' !in NetworkLabel(isLocal)
  {
    assert "sepolia-testnet" == "sepolia" + "-testnet";
  }

  /** No rendered line carries a newline of its own. */
  lemma ConfigLinesAreLines(address: string, isLocal: bool, clock: string, deployer: string)
    requires '\n' !in address && '\n' !in clock && '\n' !in deployer
    ensures forall k :: 0 <= k < |ConfigLines(address, isLocal, clock, deployer)| ==>
      '\n' !in ConfigLines(address, isLocal, clock, deployer)[k]
  {
    HeaderIsSingleLine();
    PrefixesAreSingleLines();
    KeysAreSingleLines();
    LabelIsSingleLine(isLocal);
  }

  /**
   * verifyContractDeployment: a local network always passes (its failures
   * are logged only); a remote one needs both constants to read.
   */
  function Verify(u: Util, node: Node, address: string): (r: bool)
    ensures u.isLocal ==> r
    ensures !u.isLocal ==> (r <==> address in node.stakeReadable && address in node.slashReadable)
  {
    u.isLocal || (address in node.stakeReadable && address in node.slashReadable)
  }

  /** loadExistingContract: binds the contract and the address first, then verifies. */
  function LoadExisting(u: Util, node: Node, address: string): (r: Outcome<()>)
    ensures r.util == u.(contract := Some(address), contractAddress := Some(address))
    ensures r.result.Success? <==> Verify(u, node, address)
    ensures r.result.Failure? ==> r.result.error == ContractVerificationFailed
  {
    var u' := u.(contract := Some(address), contractAddress := Some(address));
    Outcome(u', if Verify(u', node, address) then Success(()) else Failure(ContractVerificationFailed))
  }

  /** On a local network, loading any address the validity check accepts succeeds. */
  lemma LocalValidAddressLoads(u: Util, node: Node, address: string)
    requires u.isLocal && IsValidContractAddress(u, node, Some(address))
    ensures LoadExisting(u, node, address).result.Success?
    ensures LoadExisting(u, node, address).util.contract == Some(address)
  {
  }

  /**
   * deployNewContractMethod: reads the balance (a shortfall aborts only on
   * a remote network), deploys, binds the new contract, saves the config
   * file, then verifies.
   */
  function DeployNew(u: Util, node: Node): (r: Outcome<string>)
    ensures node.balance.None? ==> r == Outcome(u, Failure(RpcFailed))
    ensures r.result == Failure(InsufficientBalance) <==>
      node.balance.Some? && !u.isLocal && node.balance.value < MinBalanceRemote
    ensures r.result.Success? <==>
      && node.balance.Some?
      && (u.isLocal || node.balance.value >= MinBalanceRemote)
      && node.deployedByUtil.Some?
      && Verify(u, node, node.deployedByUtil.value)
    ensures r.util.isLocal == u.isLocal
    ensures r.util == u || r.util.contract == node.deployedByUtil
    ensures r.result.Success? ==>
      && r.result.value == node.deployedByUtil.value
      && r.util.contract == Some(r.result.value)
      && r.util.contractAddress == Some(r.result.value)
      && r.util.configFile == Some(RenderConfig(r.result.value, u.isLocal, node.clock, node.deployer))
  {
    match node.balance
    case None => Outcome(u, Failure(RpcFailed))
    case Some(balance) =>
      var minBalance := if u.isLocal then MinBalanceLocal else MinBalanceRemote;
      if balance < minBalance && !u.isLocal then Outcome(u, Failure(InsufficientBalance))
      else
        match node.deployedByUtil
        case None => Outcome(u, Failure(DeploymentFailed))
        case Some(a) =>
          var u' := u.(contract := Some(a), contractAddress := Some(a),
                       configFile := Some(RenderConfig(a, u.isLocal, node.clock, node.deployer)));
          Outcome(u', if Verify(u', node, a) then Success(a) else Failure(ContractVerificationFailed))
  }

  /** A successful deployment leaves a config file that names the new contract. */
  lemma DeployedAddressReloads(u: Util, node: Node)
    requires DeployNew(u, node).result.Success?
    requires '\n' !in node.deployedByUtil.value && Trim(node.deployedByUtil.value) == node.deployedByUtil.value
    requires '\n' !in node.clock && '\n' !in node.deployer
    ensures LoadContractAddress(DeployNew(u, node).util.configFile) == Some(DeployNew(u, node).result.value)
  {
    LoadOfRenderedConfig(node.deployedByUtil.value, u.isLocal, node.clock, node.deployer);
  }

  /** The initialization result: the util after it and whether a contract is in use. */
  datatype Initialized = Initialized(util: Util, ok: bool)

  /** The configured address is tried only without auto-deploy and when it is non-empty and valid. */
  predicate UsesConfigured(u: Util, node: Node, configured: Option<string>, autoDeploy: bool) {
    !autoDeploy && configured.Some? && configured.value != "" && IsValidContractAddress(u, node, configured)
  }

  /**
   * initializeContract: detects the network, then uses the configured
   * address, else the saved one, else deploys when auto-deploy is on;
   * every exception comes back as false.
   */
  function InitializeContract(u: Util, node: Node, configured: Option<string>, autoDeploy: bool): (r: Initialized)
    ensures r.util.isLocal == DetectLocal(node.clientVersion)
    ensures
      var u0 := u.(isLocal := DetectLocal(node.clientVersion));
      var saved := LoadContractAddress(u0.configFile);
      && (UsesConfigured(u0, node, configured, autoDeploy) ==>
            r.util.contract == configured && (r.ok <==> Verify(u0, node, configured.value)))
      && (!UsesConfigured(u0, node, configured, autoDeploy) && IsValidContractAddress(u0, node, saved) ==>
            r.util.contract == saved && r.util.contractAddress == saved && (r.ok <==> Verify(u0, node, saved.value)))
      && (!UsesConfigured(u0, node, configured, autoDeploy) && !IsValidContractAddress(u0, node, saved) && autoDeploy ==>
            r.util == DeployNew(u0, node).util && (r.ok <==> DeployNew(u0, node).result.Success?))
      && (!UsesConfigured(u0, node, configured, autoDeploy) && !IsValidContractAddress(u0, node, saved) && !autoDeploy ==>
            r.util == u0 && !r.ok)
    ensures r.ok ==> r.util.contract.Some?
  {
    var u0 := u.(isLocal := DetectLocal(node.clientVersion));
    if UsesConfigured(u0, node, configured, autoDeploy) then
      var o := LoadExisting(u0, node, configured.value);
      Initialized(o.util, o.result.Success?)
    else
      var saved := LoadContractAddress(u0.configFile);
      if IsValidContractAddress(u0, node, saved) then
        var o := LoadExisting(u0.(contractAddress := saved), node, saved.value);
        Initialized(o.util, o.result.Success?)
      else if autoDeploy then
        var o := DeployNew(u0, node);
        Initialized(o.util, o.result.Success?)
      else Initialized(u0, false)
  }

  /** isContractInitialized: a contract is bound. */
  predicate IsContractInitialized(u: Util) {
    u.contract.Some?
  }
}

=== FILE: deployment.dfy ===
/**
 * ContractDeploymentService: deploy-or-load, the balance guard, and the
 * post-check that both contract constants read. Every failure comes back
 * as `false`; the fields keep whatever was assigned before the failure.
 */
module Deployment {
  import opened Wrappers
  import opened Errors
  import opened Rpc

  /** The bound contract (by address) and the recorded address. */
  datatype Service = Service(contract: Option<string>, contractAddress: Option<string>)

  /** The service after a call, and the call's boolean answer. */
  datatype Step = Step(service: Service, ok: bool)

  const Unbound := Service(None, None)

  /** testContract: both STAKE_AMOUNT() and SLASH_PERCENTAGE() answer at the address. */
  predicate TestContract(node: Node, address: string) {
    address in node.stakeReadable && address in node.slashReadable
  }

  /**
   * deployContract: a failed balance read, a non-positive balance or a
   * failed deployment leaves the service as it was; a deployment binds the
   * new contract and then reports the post-check.
   */
  function Deploy(s: Service, node: Node): (r: Step)
    ensures node.balance.None? || node.balance.value <= 0 || node.deployedByService.None? ==> r == Step(s, false)
    ensures r.ok <==>
      node.balance.Some? && node.balance.value > 0 && node.deployedByService.Some? &&
      TestContract(node, node.deployedByService.value)
    ensures node.balance.Some? && node.balance.value > 0 && node.deployedByService.Some? ==>
      r.service == Service(node.deployedByService, node.deployedByService)
  {
    if node.balance.None? || node.balance.value <= 0 then Step(s, false)
    else
      match node.deployedByService
      case None => Step(s, false)
      case Some(a) => Step(Service(Some(a), Some(a)), TestContract(node, a))
  }

  /** loadContract: binds the address, then reports the post-check. */
  function Load(s: Service, node: Node, address: string): (r: Step)
    ensures r.service == Service(Some(address), Some(address))
    ensures r.ok <==> TestContract(node, address)
  {
    Step(Service(Some(address), Some(address)), TestContract(node, address))
  }

  /** The deploy branch of initialize: asked to, or no usable address given. */
  predicate DeploysFor(existing: Option<string>, shouldDeploy: bool) {
    shouldDeploy || existing.None? || existing.value == ""
  }

  /** initialize: deploy when asked to or when no address is given, load the given address otherwise. */
  function Initialize(s: Service, existing: Option<string>, shouldDeploy: bool, node: Node): (r: Step)
    ensures DeploysFor(existing, shouldDeploy) ==> r == Deploy(s, node)
    ensures !DeploysFor(existing, shouldDeploy) ==> r.service == Service(existing, existing)
    ensures r.ok ==> IsDeployed(r.service) && TestContract(node, r.service.contract.value)
    ensures r.ok ==> r.service.contractAddress == r.service.contract
  {
    if DeploysFor(existing, shouldDeploy) then Deploy(s, node) else Load(s, node, existing.value)
  }

  /** isDeployed: a contract is bound. */
  predicate IsDeployed(s: Service) {
    s.contract.Some?
  }

  /** getContract: the bound contract, or the "not initialized" failure. */
  function GetContract(s: Service): (r: Result<string, Error>)
    ensures r.Success? <==> IsDeployed(s)
    ensures r.Failure? ==> r.error == ContractNotInitialized
  {
    match s.contract
    case Some(c) => Success(c)
    case None => Failure(ContractNotInitialized)
  }

  /**
   * After a successful initialize, getContract hands out the contract the
   * service reports: the given address when it loaded, the new one when it
   * deployed.
   */
  lemma InitializedServiceHandsOutContract(s: Service, existing: Option<string>, shouldDeploy: bool, node: Node)
    ensures Initialize(s, existing, shouldDeploy, node).ok ==>
      var s' := Initialize(s, existing, shouldDeploy, node).service;
      && s'.contractAddress.Some?
      && GetContract(s') == Success(s'.contractAddress.value)
      && (!DeploysFor(existing, shouldDeploy) ==> GetContract(s') == Success(existing.value))
      && (DeploysFor(existing, shouldDeploy) ==> GetContract(s') == Success(node.deployedByService.value))
  {
  }
}

=== FILE: documents.dfy ===
/**
 * DocumentService: registration (strict, tolerant and simple), the two
 * notarization entry points, lookups, and the verification checks. The
 * SHA-256 helper is the function parameter `hash`; nothing is assumed of
 * it. An upload is the CID the content store answered, or None.
 */
module Documents {
  import opened Wrappers
  import opened Errors
  import opened Strings
  import opened Entities
  import opened Store
  import opened Gateway
  import opened Worlds
  import Notaries

  /** The registration request: content, display name, and the address recorded as owner. */
  datatype Request = Request(fileContent: string, documentName: string, notaryAddress: string)

  const RegisterContext := "Failed to register document"
  const IpfsVerifyContext := "Failed to verify document with IPFS"
  const ManualVerifyContext := "Manual verification failed"
  const DownloadContext := "Failed to download document from IPFS"
  const GetContext := "Failed to get document"

  /** Only `h`'s document row may differ; notaries and the content store are untouched. */
  ghost predicate OnlyDocumentChanged(w: World, w': World, h: string) {
    && OtherDocumentsUnchanged(w.cache.documents, w'.cache.documents, h)
    && w'.cache.notaries == w.cache.notaries
    && w'.ipfs == w.ipfs
  }

  /** The record a registration persists: the create hook stamps all three times with `now`. */
  function Registered(h: string, req: Request, cid: string, notarized: bool, now: Time): Document {
    Document(h, req.notaryAddress, req.documentName, Some(cid), Some(now), notarized, [], Some(now), Some(now))
  }

  // ------------------------------------------------------------ registration

  /**
   * registerDocument: duplicate check on the content hash, then the upload,
   * then CID validation, then the ledger registration, and only then the
   * cache save of an unnotarized record owned by the request's address.
   */
  function RegisterDocument(w: World, hash: string -> string, req: Request, uploaded: Option<string>, now: Time)
    : (r: Result<World, Error>)
    requires Valid(w.cache)
    ensures ExistsByDocumentHash(w.cache.documents, hash(req.fileContent)) ==> r == Failure(DocumentAlreadyRegistered)
    ensures !ExistsByDocumentHash(w.cache.documents, hash(req.fileContent)) && uploaded.None? ==> r == Failure(UploadFailed)
    ensures !ExistsByDocumentHash(w.cache.documents, hash(req.fileContent)) && uploaded.Some? && !IsValidIpfsCid(uploaded) ==>
      r == Failure(InvalidIpfsCid(uploaded))
    ensures r.Success? <==>
      && !ExistsByDocumentHash(w.cache.documents, hash(req.fileContent))
      && IsValidIpfsCid(uploaded)
      && Gateway.RegisterDocument(w.ledger, uploaded.value, req.documentName).Success?
    ensures r.Success? ==> r.value.ledger == After(w.ledger, RegisterDocumentCall(uploaded.value, req.documentName))
    ensures r.Success? ==>
      r.value.cache.documents == w.cache.documents + [Registered(hash(req.fileContent), req, uploaded.value, false, now)]
    ensures r.Success? ==> OnlyDocumentChanged(w, r.value, hash(req.fileContent)) && Valid(r.value.cache)
  {
    var h := hash(req.fileContent);
    if ExistsByDocumentHash(w.cache.documents, h) then Failure(DocumentAlreadyRegistered)
    else if uploaded.None? then Failure(UploadFailed)
    else if !IsValidIpfsCid(uploaded) then Failure(InvalidIpfsCid(uploaded))
    else
      var ledger :- Gateway.RegisterDocument(w.ledger, uploaded.value, req.documentName);
      var d := NewDocument(h, req.notaryAddress, req.documentName, uploaded, now);
      Success(w.(cache := w.cache.(documents := SaveDocument(w.cache.documents, d, now)), ledger := ledger))
  }

  /**
   * registerDocumentTolerant: like registerDocument up to the CID check,
   * then tries the ledger registration and saves the record either way,
   * with `notarized` telling whether the ledger accepted it. All failures
   * come back wrapped.
   */
  function RegisterDocumentTolerant(w: World, hash: string -> string, req: Request, uploaded: Option<string>, now: Time)
    : (r: Result<World, Error>)
    requires Valid(w.cache)
    ensures ExistsByDocumentHash(w.cache.documents, hash(req.fileContent)) ==>
      r == Failure(Wrapped(RegisterContext, DocumentAlreadyRegistered))
    ensures !ExistsByDocumentHash(w.cache.documents, hash(req.fileContent)) && uploaded.None? ==>
      r == Failure(Wrapped(RegisterContext, UploadFailed))
    ensures !ExistsByDocumentHash(w.cache.documents, hash(req.fileContent)) && uploaded.Some? && !IsValidIpfsCid(uploaded) ==>
      r == Failure(Wrapped(RegisterContext, InvalidIpfsCid(uploaded)))
    ensures r.Success? <==> !ExistsByDocumentHash(w.cache.documents, hash(req.fileContent)) && IsValidIpfsCid(uploaded)
    ensures r.Success? ==>
      var attempt := Gateway.RegisterDocument(w.ledger, uploaded.value, req.documentName);
      && r.value.cache.documents == w.cache.documents + [Registered(hash(req.fileContent), req, uploaded.value, attempt.Success?, now)]
      && r.value.ledger == (if attempt.Success? then attempt.value else w.ledger)
    ensures r.Success? ==> OnlyDocumentChanged(w, r.value, hash(req.fileContent)) && Valid(r.value.cache)
  {
    var h := hash(req.fileContent);
    if ExistsByDocumentHash(w.cache.documents, h) then Failure(Wrapped(RegisterContext, DocumentAlreadyRegistered))
    else if uploaded.None? then Failure(Wrapped(RegisterContext, UploadFailed))
    else if !IsValidIpfsCid(uploaded) then Failure(Wrapped(RegisterContext, InvalidIpfsCid(uploaded)))
    else
      var attempt := Gateway.RegisterDocument(w.ledger, uploaded.value, req.documentName);
      var ledger := if attempt.Success? then attempt.value else w.ledger;
      var d := NewDocument(h, req.notaryAddress, req.documentName, uploaded, now).(notarized := attempt.Success?);
      Success(w.(cache := w.cache.(documents := SaveDocument(w.cache.documents, d, now)), ledger := ledger))
  }

  /** The placeholder CID registerDocumentSimple records when the upload fails. */
  function FallbackCid(millis: nat): (r: string)
    ensures StartsWith(r, "ipfs_failed_")
    ensures !IsValidIpfsCid(Some(r))
  {
    var r := "ipfs_failed_" + DecimalString(millis);
    assert r[..12] == "ipfs_failed_";
    assert r[0] == 'i';
    r
  }

  /**
   * registerDocumentSimple: duplicate check, then the upload with a
   * timestamped placeholder CID on failure, then the save; no CID check
   * and no ledger call.
   */
  function RegisterDocumentSimple(w: World, hash: string -> string, documentName: string, fileContent: string,
                                  ownerAddress: string, uploaded: Option<string>, millis: nat, now: Time)
    : (r: Result<World, Error>)
    requires Valid(w.cache)
    ensures r.Failure? <==> ExistsByDocumentHash(w.cache.documents, hash(fileContent))
    ensures r.Failure? ==> r.error == Wrapped(RegisterContext, DocumentAlreadyRegistered)
    ensures r.Success? ==> r.value.ledger == w.ledger
    ensures r.Success? ==>
      var cid := if uploaded.Some? then uploaded.value else FallbackCid(millis);
      r.value.cache.documents ==
        w.cache.documents + [Registered(hash(fileContent), Request(fileContent, documentName, ownerAddress), cid, false, now)]
    ensures r.Success? && uploaded.None? ==> !IsValidIpfsCid(Some(FallbackCid(millis)))
    ensures r.Success? ==> OnlyDocumentChanged(w, r.value, hash(fileContent)) && Valid(r.value.cache)
  {
    var h := hash(fileContent);
    if ExistsByDocumentHash(w.cache.documents, h) then Failure(Wrapped(RegisterContext, DocumentAlreadyRegistered))
    else
      var cid := if uploaded.Some? then uploaded.value else FallbackCid(millis);
      var d := NewDocument(h, ownerAddress, documentName, Some(cid), now);
      Success(w.(cache := w.cache.(documents := SaveDocument(w.cache.documents, d, now))))
  }

  // ----------------------------------------------------------- notarization

  predicate NoDuplicates(s: seq<string>) {
    forall i, j :: 0 <= i < j < |s| ==> s[i] != s[j]
  }

  /** Adds `x` at the end unless it is already listed. */
  function AppendIfAbsent(s: seq<string>, x: string): (r: seq<string>)
    ensures x in r
    ensures forall y :: y in r <==> y in s || y == x
    ensures |s| <= |r| && r[..|s|] == s
    ensures NoDuplicates(s) ==> NoDuplicates(r)
  {
    if x in s then s else s + [x]
  }

  /** Appending the same notary twice lists it once: the second append changes nothing. */
  lemma AppendIfAbsentIdempotent(s: seq<string>, x: string)
    ensures AppendIfAbsent(AppendIfAbsent(s, x), x) == AppendIfAbsent(s, x)
  {
  }

  /**
   * notarizeDocument(documentHash, notaryAddress): the document must be
   * cached, the notary active and the CID non-empty; after the ledger call
   * the document is notarized, lists the notary exactly once more at most,
   * and the notary gains one success. lastVerified is refreshed unless the
   * row was already notarized and listed the notary, when the save changes
   * nothing and issues no update.
   */
  function NotarizeDocument(w: World, documentHash: string, notary: string, now: Time): (r: Result<World, Error>)
    requires Valid(w.cache)
    ensures !ExistsByDocumentHash(w.cache.documents, documentHash) ==> r == Failure(DocumentNotFound)
    ensures ExistsByDocumentHash(w.cache.documents, documentHash) && !Notaries.IsNotaryActive(w.cache, notary) ==>
      r == Failure(NotaryNotActive)
    ensures ExistsByDocumentHash(w.cache.documents, documentHash) && Notaries.IsNotaryActive(w.cache, notary) ==>
      (!HasIpfsCid(DocumentOf(w.cache, documentHash)) ==> r == Failure(DocumentHasNoCid))
    ensures r.Success? <==>
      && ExistsByDocumentHash(w.cache.documents, documentHash)
      && Notaries.IsNotaryActive(w.cache, notary)
      && HasIpfsCid(DocumentOf(w.cache, documentHash))
      && Gateway.NotarizeDocument(w.ledger, DocumentOf(w.cache, documentHash).ipfsHash.value).Success?
    ensures r.Success? ==>
      r.value.ledger == After(w.ledger, NotarizeDocumentCall(DocumentOf(w.cache, documentHash).ipfsHash.value))
    ensures r.Success? ==> ExistsByDocumentHash(r.value.cache.documents, documentHash)
    ensures r.Success? ==>
      var before, after := DocumentOf(w.cache, documentHash), DocumentOf(r.value.cache, documentHash);
      && after.notarized
      && after.notaryAddresses == AppendIfAbsent(before.notaryAddresses, notary)
      && after.lastVerified == (if before.notarized && notary in before.notaryAddresses then before.lastVerified else Some(now))
      && after.(notarized := before.notarized, notaryAddresses := before.notaryAddresses,
                lastVerified := before.lastVerified) == before
    ensures r.Success? ==> ExistsByNotaryAddress(r.value.cache.notaries, notary)
    ensures r.Success? ==>
      NotaryOf(r.value.cache, notary).successfulNotarizations ==
      NotaryOf(w.cache, notary).successfulNotarizations + 1
    ensures r.Success? ==>
      NotaryOf(r.value.cache, notary).(successfulNotarizations := NotaryOf(w.cache, notary).successfulNotarizations) ==
      NotaryOf(w.cache, notary)
    ensures r.Success? ==>
      && OtherDocumentsUnchanged(w.cache.documents, r.value.cache.documents, documentHash)
      && OtherNotariesUnchanged(w.cache.notaries, r.value.cache.notaries, notary)
      && r.value.ipfs == w.ipfs
      && Valid(r.value.cache)
  {
    match FindByDocumentHash(w.cache.documents, documentHash)
    case None => Failure(DocumentNotFound)
    case Some(d) =>
      if !Notaries.IsNotaryActive(w.cache, notary) then Failure(NotaryNotActive)
      else if !HasIpfsCid(d) then Failure(DocumentHasNoCid)
      else
        var ledger :- Gateway.NotarizeDocument(w.ledger, d.ipfsHash.value);
        var d' := d.(notarized := true, notaryAddresses := AppendIfAbsent(d.notaryAddresses, notary));
        var cache := w.cache.(documents := SaveDocument(w.cache.documents, d', now));
        Success(w.(cache := Notaries.IncrementSuccessfulNotarizations(cache, notary), ledger := ledger))
  }

  /**
   * notarizeDocument(documentHash, notaryAddress, fileContent): the content
   * must hash to the document hash and the notary must be active before the
   * two-argument form runs.
   */
  function NotarizeDocumentWithContent(w: World, hash: string -> string, documentHash: string, notary: string,
                                       fileContent: string, now: Time): (r: Result<World, Error>)
    requires Valid(w.cache)
    ensures hash(fileContent) != documentHash ==> r == Failure(HashMismatch)
    ensures hash(fileContent) == documentHash && !Notaries.IsNotaryActive(w.cache, notary) ==> r == Failure(NotaryNotActive)
    ensures hash(fileContent) == documentHash && Notaries.IsNotaryActive(w.cache, notary) ==>
      r == NotarizeDocument(w, documentHash, notary, now)
  {
    if hash(fileContent) != documentHash then Failure(HashMismatch)
    else if !Notaries.IsNotaryActive(w.cache, notary) then Failure(NotaryNotActive)
    else NotarizeDocument(w, documentHash, notary, now)
  }

  /**
   * A second notarization by the same notary leaves the document row
   * exactly as the first one made it: the notary is listed once and, since
   * no field changes, lastVerified keeps the first stamp. The notary's
   * success count still rises again.
   */
  lemma NotarizeTwiceListsOnce(w: World, documentHash: string, notary: string, t1: Time, t2: Time)
    requires Valid(w.cache)
    ensures
      var r1 := NotarizeDocument(w, documentHash, notary, t1);
      r1.Success? && NotarizeDocument(r1.value, documentHash, notary, t2).Success? ==>
        var w2 := NotarizeDocument(r1.value, documentHash, notary, t2).value;
        && DocumentOf(w2.cache, documentHash) == DocumentOf(r1.value.cache, documentHash)
        && notary in DocumentOf(w2.cache, documentHash).notaryAddresses
        && NotaryOf(w2.cache, notary).successfulNotarizations == NotaryOf(w.cache, notary).successfulNotarizations + 2
  {
    if NotarizeDocument(w, documentHash, notary, t1).Success? {
      AppendIfAbsentIdempotent(DocumentOf(w.cache, documentHash).notaryAddresses, notary);
    }
  }

  // ---------------------------------------------------------------- lookups

  /** getDocument: the cached record with `notarized` replaced by what the ledger reports for its CID. */
  function GetDocument(w: World, documentHash: string): (r: Result<Document, Error>)
    ensures !ExistsByDocumentHash(w.cache.documents, documentHash) ==> r == Failure(DocumentNotFound)
    ensures ExistsByDocumentHash(w.cache.documents, documentHash) && !HasIpfsCid(DocumentOf(w.cache, documentHash)) ==>
      r == Failure(DocumentHasNoCid)
    ensures r.Success? <==>
      && ExistsByDocumentHash(w.cache.documents, documentHash)
      && HasIpfsCid(DocumentOf(w.cache, documentHash))
      && IsDocumentNotarized(w.ledger, DocumentOf(w.cache, documentHash).ipfsHash.value).Success?
    ensures r.Success? ==>
      r.value == DocumentOf(w.cache, documentHash).(notarized :=
        w.ledger.documents[DocumentOf(w.cache, documentHash).ipfsHash.value].isNotarized)
  {
    match FindByDocumentHash(w.cache.documents, documentHash)
    case None => Failure(DocumentNotFound)
    case Some(d) =>
      if !HasIpfsCid(d) then Failure(DocumentHasNoCid)
      else
        var onChain :- IsDocumentNotarized(w.ledger, d.ipfsHash.value);
        Success(d.(notarized := onChain))
  }

  /** getDocumentByIpfsCid: the one cached record with that CID, with the ledger's notarized flag. */
  function GetDocumentByIpfsCid(w: World, cid: string): (r: Result<Document, Error>)
    ensures (forall d :: d in w.cache.documents ==> d.ipfsHash != Some(cid)) ==> r == Failure(DocumentNotFound)
    ensures (exists i, j :: SharedCid(w.cache.documents, cid, i, j)) ==> r == Failure(NonUniqueResult)
    ensures r.Success? ==>
      && (exists d :: d in w.cache.documents && r.value == d.(notarized := r.value.notarized))
      && r.value.ipfsHash == Some(cid)
      && cid in w.ledger.documents
      && r.value.notarized == w.ledger.documents[cid].isNotarized
    ensures (exists d :: d in w.cache.documents && d.ipfsHash == Some(cid)) &&
            !(exists i, j :: SharedCid(w.cache.documents, cid, i, j)) ==>
      && (r.Success? <==> IsDocumentNotarized(w.ledger, cid).Success?)
      && (r.Failure? ==> r.error == IsDocumentNotarized(w.ledger, cid).error)
  {
    var found :- FindByIpfsHash(w.cache.documents, cid);
    match found
    case None => Failure(DocumentNotFound)
    case Some(d) =>
      var onChain :- IsDocumentNotarized(w.ledger, cid);
      Success(d.(notarized := onChain))
  }

  /**
   * Looking a document up by its CID answers as looking it up by its hash
   * does, as long as no other row shares the CID.
   */
  lemma ByCidAgreesWithByHash(w: World, d: Document)
    requires Valid(w.cache) && d in w.cache.documents && HasIpfsCid(d)
    ensures !(exists i, j :: SharedCid(w.cache.documents, d.ipfsHash.value, i, j)) ==>
      GetDocumentByIpfsCid(w, d.ipfsHash.value) == GetDocument(w, d.documentHash)
  {
    var ds, cid := w.cache.documents, d.ipfsHash.value;
    if !(exists i, j :: SharedCid(ds, cid, i, j)) {
      var found := FindByIpfsHash(ds, cid).value.value;
      assert found == d by {
        var i, k :| 0 <= i < |ds| && ds[i] == found && 0 <= k < |ds| && ds[k] == d;
        assert !SharedCid(ds, cid, i, k) && !SharedCid(ds, cid, k, i);
      }
    }
  }

  /**
   * updateDocumentMetadata: renames a cached document. The save refreshes
   * lastVerified unless the name was already the given one, when no update
   * is issued.
   */
  function UpdateDocumentMetadata(w: World, documentHash: string, documentName: string, now: Time): (r: Result<World, Error>)
    requires Valid(w.cache)
    ensures r.Failure? <==> !ExistsByDocumentHash(w.cache.documents, documentHash)
    ensures r.Failure? ==> r.error == DocumentNotFound
    ensures r.Success? ==> ExistsByDocumentHash(r.value.cache.documents, documentHash)
    ensures r.Success? ==>
      DocumentOf(r.value.cache, documentHash) ==
      var d := DocumentOf(w.cache, documentHash);
      d.(documentName := documentName, lastVerified := if d.documentName == documentName then d.lastVerified else Some(now))
    ensures r.Success? ==> OnlyDocumentChanged(w, r.value, documentHash) && r.value.ledger == w.ledger && Valid(r.value.cache)
  {
    match FindByDocumentHash(w.cache.documents, documentHash)
    case None => Failure(DocumentNotFound)
    case Some(d) =>
      Success(w.(cache := w.cache.(documents := SaveDocument(w.cache.documents, d.(documentName := documentName), now))))
  }

  /** downloadFromIpfs(documentHash): the content behind the cached document's CID; every failure comes back wrapped. */
  function DownloadFromIpfs(w: World, documentHash: string): (r: Result<string, Error>)
    ensures !ExistsByDocumentHash(w.cache.documents, documentHash) ==> r == Failure(Wrapped(DownloadContext, DocumentNotFound))
    ensures r.Success? <==>
      && ExistsByDocumentHash(w.cache.documents, documentHash)
      && HasIpfsCid(DocumentOf(w.cache, documentHash))
      && DocumentOf(w.cache, documentHash).ipfsHash.value in w.ipfs
      && w.ipfs[DocumentOf(w.cache, documentHash).ipfsHash.value] != ""
    ensures r.Success? ==> r.value == w.ipfs[DocumentOf(w.cache, documentHash).ipfsHash.value]
    ensures r.Failure? ==> r.error.Wrapped? && r.error.context == DownloadContext
  {
    match FindByDocumentHash(w.cache.documents, documentHash)
    case None => Failure(Wrapped(DownloadContext, DocumentNotFound))
    case Some(d) =>
      if !HasIpfsCid(d) then Failure(Wrapped(DownloadContext, DocumentHasNoCid))
      else
        match IpfsDownload(w, d.ipfsHash.value)
        case Failure(e) => Failure(Wrapped(DownloadContext, e))
        case Success(content) =>
          if content == "" then Failure(Wrapped(DownloadContext, EmptyDownload)) else Success(content)
  }

  /** getDocumentSimple: the cached record as it is, without asking the ledger. */
  function GetDocumentSimple(w: World, documentHash: string): (r: Result<Document, Error>)
    ensures r.Failure? <==> !ExistsByDocumentHash(w.cache.documents, documentHash)
    ensures r.Failure? ==> r.error == Wrapped(GetContext, DocumentNotFound)
    ensures r.Success? ==> r.value in w.cache.documents && r.value.documentHash == documentHash
  {
    match FindByDocumentHash(w.cache.documents, documentHash)
    case None => Failure(Wrapped(GetContext, DocumentNotFound))
    case Some(d) => Success(d)
  }

  /** getUserDocuments: exactly the cached documents owned by `owner`. */
  function GetUserDocuments(c: Cache, owner: string): (r: seq<Document>)
    ensures forall d :: d in r <==> d in c.documents && d.ownerAddress == owner
  {
    FindByOwnerAddress(c.documents, owner)
  }

  /** getNotarizedDocuments: exactly the cached documents flagged notarized. */
  function GetNotarizedDocuments(c: Cache): (r: seq<Document>)
    ensures forall d :: d in r <==> d in c.documents && d.notarized
  {
    FindByNotarized(c.documents, true)
  }

  /** getDocumentsByNotary: exactly the cached documents whose notary list names `notary`. */
  function GetDocumentsByNotary(c: Cache, notary: string): (r: seq<Document>)
    ensures forall d :: d in r <==> d in c.documents && notary in d.notaryAddresses
  {
    FindByNotaryAddressesContaining(c.documents, notary)
  }

  /** getDocumentsNeedingVerification: never verified, or last verified more than a day before `now`. */
  function GetDocumentsNeedingVerification(c: Cache, now: Time): (r: seq<Document>)
    ensures forall d :: d in r <==>
      d in c.documents && (d.lastVerified.None? || d.lastVerified.value + SecondsPerDay < now)
  {
    FindByLastVerifiedBeforeOrLastVerifiedIsNull(c.documents, now - SecondsPerDay)
  }

  /** deleteDocument: removes the cached row of `documentHash`; nothing else changes. */
  function DeleteDocument(w: World, documentHash: string): (r: Result<World, Error>)
    requires Valid(w.cache)
    ensures r.Failure? <==> !ExistsByDocumentHash(w.cache.documents, documentHash)
    ensures r.Failure? ==> r.error == DocumentNotFound
    ensures r.Success? ==> !ExistsByDocumentHash(r.value.cache.documents, documentHash)
    ensures r.Success? ==> OnlyDocumentChanged(w, r.value, documentHash) && r.value.ledger == w.ledger
    ensures r.Success? ==> Valid(r.value.cache)
  {
    if !ExistsByDocumentHash(w.cache.documents, documentHash) then Failure(DocumentNotFound)
    else Success(w.(cache := w.cache.(documents := Store.DeleteDocument(w.cache.documents, documentHash))))
  }

  // ----------------------------------------------------------- verification

  /** verifyDocumentIntegrity: the content hashes to the document hash. */
  predicate VerifyDocumentIntegrity(hash: string -> string, documentHash: string, fileContent: string) {
    documentHash == hash(fileContent)
  }

  /**
   * verifyDocumentWithIpfs: the downloaded content hashes to the document
   * hash and the ledger reports the CID notarized. Both checks run; every
   * failure comes back wrapped.
   */
  function VerifyDocumentWithIpfs(w: World, hash: string -> string, documentHash: string): (r: Result<bool, Error>)
    ensures r.Success? <==>
      && ExistsByDocumentHash(w.cache.documents, documentHash)
      && HasIpfsCid(DocumentOf(w.cache, documentHash))
      && IpfsDownload(w, DocumentOf(w.cache, documentHash).ipfsHash.value).Success?
      && IsDocumentNotarized(w.ledger, DocumentOf(w.cache, documentHash).ipfsHash.value).Success?
    ensures r.Success? ==>
      var cid := DocumentOf(w.cache, documentHash).ipfsHash.value;
      (r.value <==> VerifyDocumentIntegrity(hash, documentHash, w.ipfs[cid]) && w.ledger.documents[cid].isNotarized)
    ensures r.Failure? ==> r.error.Wrapped? && r.error.context == IpfsVerifyContext
  {
    match FindByDocumentHash(w.cache.documents, documentHash)
    case None => Failure(Wrapped(IpfsVerifyContext, DocumentNotFound))
    case Some(d) =>
      if !HasIpfsCid(d) then Failure(Wrapped(IpfsVerifyContext, DocumentHasNoCid))
      else
        var cid := d.ipfsHash.value;
        match IpfsDownload(w, cid)
        case Failure(e) => Failure(Wrapped(IpfsVerifyContext, e))
        case Success(content) =>
          var hashMatches := VerifyDocumentIntegrity(hash, documentHash, content);
          match IsDocumentNotarized(w.ledger, cid)
          case Failure(e) => Failure(Wrapped(IpfsVerifyContext, e))
          case Success(onChain) => Success(hashMatches && onChain)
  }

  /**
   * verifyDocumentWithIpfs is downloadFromIpfs followed by the ledger read:
   * it succeeds exactly when both do, and then answers whether the
   * downloaded content hashes to the document hash and the CID is
   * notarized on chain.
   */
  lemma VerifyIsDownloadThenLedger(w: World, hash: string -> string, documentHash: string)
    ensures DownloadFromIpfs(w, documentHash).Failure? ==> VerifyDocumentWithIpfs(w, hash, documentHash).Failure?
    ensures DownloadFromIpfs(w, documentHash).Success? ==>
      var cid := DocumentOf(w.cache, documentHash).ipfsHash.value;
      var r := VerifyDocumentWithIpfs(w, hash, documentHash);
      && (r.Success? <==> IsDocumentNotarized(w.ledger, cid).Success?)
      && (r.Success? ==>
            (r.value <==> hash(DownloadFromIpfs(w, documentHash).value) == documentHash && IsDocumentNotarized(w.ledger, cid).value))
  {
  }

  /** The verdict of a manual verification and the world after it. */
  datatype Verified = Verified(verified: bool, world: World)

  /**
   * manuallyVerifyDocument: reads the ledger status (its failure is
   * fatal), runs verifyDocumentWithIpfs treating any failure as false,
   * stamps lastVerified, and reports both checks' conjunction.
   */
  function ManuallyVerifyDocument(w: World, hash: string -> string, documentHash: string, now: Time): (r: Result<Verified, Error>)
    requires Valid(w.cache)
    ensures r.Success? <==>
      && ExistsByDocumentHash(w.cache.documents, documentHash)
      && HasIpfsCid(DocumentOf(w.cache, documentHash))
      && IsDocumentNotarized(w.ledger, DocumentOf(w.cache, documentHash).ipfsHash.value).Success?
    ensures r.Success? ==>
      var cid := DocumentOf(w.cache, documentHash).ipfsHash.value;
      (r.value.verified <==>
        && w.ledger.documents[cid].isNotarized
        && IpfsDownload(w, cid).Success?
        && VerifyDocumentIntegrity(hash, documentHash, w.ipfs[cid]))
    ensures r.Success? ==> ExistsByDocumentHash(r.value.world.cache.documents, documentHash)
    ensures r.Success? ==>
      DocumentOf(r.value.world.cache, documentHash) == DocumentOf(w.cache, documentHash).(lastVerified := Some(now))
    ensures r.Success? ==> OnlyDocumentChanged(w, r.value.world, documentHash) && r.value.world.ledger == w.ledger
    ensures r.Success? ==> Valid(r.value.world.cache)
    ensures r.Failure? ==> r.error.Wrapped? && r.error.context == ManualVerifyContext
  {
    match FindByDocumentHash(w.cache.documents, documentHash)
    case None => Failure(Wrapped(ManualVerifyContext, DocumentNotFound))
    case Some(d) =>
      if !HasIpfsCid(d) then Failure(Wrapped(ManualVerifyContext, DocumentHasNoCid))
      else
        match IsDocumentNotarized(w.ledger, d.ipfsHash.value)
        case Failure(e) => Failure(Wrapped(ManualVerifyContext, e))
        case Success(onChain) =>
          var integrity := match VerifyDocumentWithIpfs(w, hash, documentHash)
            case Success(ok) => ok
            case Failure(_) => false;
          var w' := w.(cache := w.cache.(documents := SaveDocument(w.cache.documents, d.(lastVerified := Some(now)), now)));
          Success(Verified(onChain && integrity, w'))
  }

  /**
   * The manual verdict is the IPFS verdict: verified exactly when
   * verifyDocumentWithIpfs answers true, so content that cannot be
   * downloaded is never verified.
   */
  lemma ManualVerdictIsIpfsVerdict(w: World, hash: string -> string, documentHash: string, now: Time)
    requires Valid(w.cache)
    ensures ManuallyVerifyDocument(w, hash, documentHash, now).Success? ==>
      (ManuallyVerifyDocument(w, hash, documentHash, now).value.verified <==>
       VerifyDocumentWithIpfs(w, hash, documentHash) == Success(true))
    ensures ManuallyVerifyDocument(w, hash, documentHash, now).Success? && DownloadFromIpfs(w, documentHash).Failure? ==>
      !ManuallyVerifyDocument(w, hash, documentHash, now).value.verified
  {
    VerifyIsDownloadThenLedger(w, hash, documentHash);
  }

  /** One row of the batch answer; `failure` holds the exception behind a "Verification failed" message. */
  datatype VerificationResult = VerificationResult(documentHash: string, verified: bool, failure: Option<Error>)

  /** The batch row for one hash, judged against world `w`. */
  function ItemResult(w: World, hash: string -> string, documentHash: string, now: Time): (r: VerificationResult)
    requires Valid(w.cache)
    ensures r.documentHash == documentHash
    ensures r.failure.Some? ==> !r.verified
    ensures r.failure.None? <==> ManuallyVerifyDocument(w, hash, documentHash, now).Success?
    ensures r.failure.None? ==> r.verified == ManuallyVerifyDocument(w, hash, documentHash, now).value.verified
    ensures r.failure.Some? ==> r.failure.value == ManuallyVerifyDocument(w, hash, documentHash, now).error
  {
    match ManuallyVerifyDocument(w, hash, documentHash, now)
    case Success(v) => VerificationResult(documentHash, v.verified, None)
    case Failure(e) => VerificationResult(documentHash, false, Some(e))
  }

  /** A document as far as a verification reads it: everything but the lastVerified stamp. */
  function Unstamped(d: Document): Document {
    d.(lastVerified := None)
  }

  function LookupView(ds: seq<Document>, h: string): Option<Document> {
    match FindByDocumentHash(ds, h)
    case None => None
    case Some(d) => Some(Unstamped(d))
  }

  /** Two worlds a verification cannot tell apart. */
  ghost predicate SameForVerification(w: World, w': World) {
    && w'.ledger == w.ledger
    && w'.ipfs == w.ipfs
    && forall h :: LookupView(w'.cache.documents, h) == LookupView(w.cache.documents, h)
  }

  lemma ItemResultDependsOnView(w: World, w': World, hash: string -> string, documentHash: string, now: Time)
    requires Valid(w.cache) && Valid(w'.cache)
    requires w'.ledger == w.ledger && w'.ipfs == w.ipfs
    requires LookupView(w'.cache.documents, documentHash) == LookupView(w.cache.documents, documentHash)
    ensures ItemResult(w', hash, documentHash, now) == ItemResult(w, hash, documentHash, now)
  {
    if ExistsByDocumentHash(w.cache.documents, documentHash) {
      var d, d' := DocumentOf(w.cache, documentHash), DocumentOf(w'.cache, documentHash);
      assert Unstamped(d') == Unstamped(d);
      assert d'.ipfsHash == d.ipfsHash;
    }
  }

  /** A successful manual verification only moves a lastVerified stamp. */
  lemma ManualVerificationKeepsView(w: World, hash: string -> string, documentHash: string, now: Time)
    requires Valid(w.cache)
    ensures ManuallyVerifyDocument(w, hash, documentHash, now).Success? ==>
      SameForVerification(w, ManuallyVerifyDocument(w, hash, documentHash, now).value.world)
  {
    if ManuallyVerifyDocument(w, hash, documentHash, now).Success? {
      var w' := ManuallyVerifyDocument(w, hash, documentHash, now).value.world;
      var d := DocumentOf(w.cache, documentHash);
      forall h
        ensures LookupView(w'.cache.documents, h) == LookupView(w.cache.documents, h)
      {
        if h != documentHash {
          SaveKeepsOtherLookups(w.cache.documents, d.(lastVerified := Some(now)), now, h);
        }
      }
    }
  }

  /**
   * One batch step taken in a world `w'` that verification cannot tell from
   * `w`: it reports what it would have reported in `w`, and the world after
   * it still cannot be told from `w`.
   */
  lemma BatchStep(w: World, w': World, hash: string -> string, documentHash: string, now: Time)
    requires Valid(w.cache) && Valid(w'.cache) && SameForVerification(w, w')
    ensures ItemResult(w', hash, documentHash, now) == ItemResult(w, hash, documentHash, now)
    ensures ManuallyVerifyDocument(w', hash, documentHash, now).Success? ==>
      var w'' := ManuallyVerifyDocument(w', hash, documentHash, now).value.world;
      Valid(w''.cache) && SameForVerification(w, w'')
  {
    ItemResultDependsOnView(w, w', hash, documentHash, now);
    var o := ManuallyVerifyDocument(w', hash, documentHash, now);
    if o.Success? {
      ManualVerificationKeepsView(w', hash, documentHash, now);
      var w'' := o.value.world;
      forall h
        ensures LookupView(w''.cache.documents, h) == LookupView(w.cache.documents, h)
      {
        assert LookupView(w''.cache.documents, h) == LookupView(w'.cache.documents, h);
      }
    }
  }

  /**
   * verifyMultipleDocuments: one row per requested hash, in order, never
   * an exception. Each row equals what a manual verification of that hash
   * alone would report, because earlier rows only move lastVerified stamps.
   */
  method VerifyMultipleDocuments(w: World, hash: string -> string, documentHashes: seq<string>, now: Time)
    returns (results: seq<VerificationResult>, w': World)
    requires Valid(w.cache)
    ensures |results| == |documentHashes|
    ensures forall i :: 0 <= i < |results| ==> results[i] == ItemResult(w, hash, documentHashes[i], now)
    ensures forall i :: 0 <= i < |results| ==> results[i].documentHash == documentHashes[i]
    ensures forall i :: 0 <= i < |results| ==> results[i].failure.Some? ==> !results[i].verified
    ensures Valid(w'.cache) && SameForVerification(w, w')
  {
    results := [];
    w' := w;
    var i := 0;
    while i < |documentHashes|
      invariant 0 <= i <= |documentHashes|
      invariant |results| == i
      invariant forall k :: 0 <= k < i ==> results[k] == ItemResult(w, hash, documentHashes[k], now)
      invariant Valid(w'.cache) && SameForVerification(w, w')
    {
      var h := documentHashes[i];
      BatchStep(w, w', hash, h, now);
      var row := ItemResult(w', hash, h, now);
      var outcome := ManuallyVerifyDocument(w', hash, h, now);
      results := results + [row];
      if outcome.Success? {
        w' := outcome.value.world;
      }
      i := i + 1;
    }
  }

  /** The verification status report of one document. */
  datatype VerificationStatus = VerificationStatus(
    documentHash: string,
    documentName: string,
    notarized: bool,
    notarizedOnChain: bool,
    ipfsAvailable: bool,
    lastVerified: Option<Time>,
    notaryCount: nat)

  /**
   * getDocumentVerificationStatus: cached fields and the notary count; with
   * a CID, the ledger status (its failure propagates) and whether the
   * content store returns non-empty content; without one, both false.
   */
  function GetDocumentVerificationStatus(w: World, documentHash: string): (r: Result<VerificationStatus, Error>)
    ensures !ExistsByDocumentHash(w.cache.documents, documentHash) ==> r == Failure(DocumentNotFound)
    ensures r.Success? ==> ExistsByDocumentHash(w.cache.documents, documentHash)
    ensures r.Success? ==>
      var d := DocumentOf(w.cache, documentHash);
      && r.value.documentHash == documentHash
      && r.value.documentName == d.documentName
      && r.value.notarized == d.notarized
      && r.value.lastVerified == d.lastVerified
      && r.value.notaryCount == |d.notaryAddresses|
      && (!HasIpfsCid(d) ==> !r.value.notarizedOnChain && !r.value.ipfsAvailable)
      && (HasIpfsCid(d) ==> d.ipfsHash.value in w.ledger.documents)
      && (HasIpfsCid(d) ==> r.value.notarizedOnChain == w.ledger.documents[d.ipfsHash.value].isNotarized)
      && (r.value.ipfsAvailable <==> HasIpfsCid(d) && IpfsDownload(w, d.ipfsHash.value).Success?)
    ensures ExistsByDocumentHash(w.cache.documents, documentHash) ==>
      (r.Failure? <==>
        HasIpfsCid(DocumentOf(w.cache, documentHash)) &&
        IsDocumentNotarized(w.ledger, DocumentOf(w.cache, documentHash).ipfsHash.value).Failure?)
  {
    match FindByDocumentHash(w.cache.documents, documentHash)
    case None => Failure(DocumentNotFound)
    case Some(d) =>
      if HasIpfsCid(d) then
        var cid := d.ipfsHash.value;
        var onChain :- IsDocumentNotarized(w.ledger, cid);
        var available := IpfsDownload(w, cid).Success?;
        Success(VerificationStatus(documentHash, d.documentName, d.notarized, onChain, available, d.lastVerified,
                                   |d.notaryAddresses|))
      else
        Success(VerificationStatus(documentHash, d.documentName, d.notarized, false, false, d.lastVerified,
                                   |d.notaryAddresses|))
  }

  /**
   * The status report agrees with the operations it summarises: content is
   * available exactly when downloadFromIpfs succeeds, and the on-chain flag
   * is the ledger's answer for the CID.
   */
  lemma StatusAgreesWithDownload(w: World, documentHash: string)
    ensures GetDocumentVerificationStatus(w, documentHash).Success? ==>
      (GetDocumentVerificationStatus(w, documentHash).value.ipfsAvailable <==> DownloadFromIpfs(w, documentHash).Success?)
    ensures GetDocumentVerificationStatus(w, documentHash).Success? && HasIpfsCid(DocumentOf(w.cache, documentHash)) ==>
      var cid := DocumentOf(w.cache, documentHash).ipfsHash.value;
      Success(GetDocumentVerificationStatus(w, documentHash).value.notarizedOnChain) == IsDocumentNotarized(w.ledger, cid)
  {
  }
}

=== FILE: entities.dfy ===
/**
 * The two JPA entities of the local cache, `Document` and `Notary`, with
 * their field initialisers and lifecycle hooks.
 */
module Entities {
  import opened Wrappers

  /** A clock reading, in seconds. */
  type Time = int

  /** Twenty-four hours, the staleness window of the verification and double-notarization checks. */
  const SecondsPerDay: int := 86400

  /**
   * A registered file. `documentHash` is the unique key; `ipfsHash` is the
   * CID of the pinned content and is nullable; `notaryAddresses` lists the
   * notaries that notarized it, in order.
   */
  datatype Document = Document(
    documentHash: string,
    ownerAddress: string,
    documentName: string,
    ipfsHash: Option<string>,
    timestamp: Option<Time>,
    notarized: bool,
    notaryAddresses: seq<string>,
    createdAt: Option<Time>,
    lastVerified: Option<Time>)

  /**
   * A document as the registration paths build it: the field initialisers
   * give `notarized = false` and an empty notary list, `lastVerified` stays
   * null, and the service sets `timestamp` and `createdAt` itself.
   */
  function NewDocument(documentHash: string, ownerAddress: string, documentName: string,
                       ipfsHash: Option<string>, now: Time): Document
  {
    Document(documentHash, ownerAddress, documentName, ipfsHash, Some(now), false, [], Some(now), None)
  }

  /** The document names a non-empty CID (the services' `ipfsHash == null || isEmpty()` test, negated). */
  predicate HasIpfsCid(d: Document) {
    d.ipfsHash.Some? && d.ipfsHash.value != ""
  }

  /** The @PrePersist hook: createdAt, timestamp and lastVerified become the current time. */
  function OnCreate(d: Document, now: Time): Document {
    d.(createdAt := Some(now), timestamp := Some(now), lastVerified := Some(now))
  }

  /** The @PreUpdate hook: lastVerified becomes the current time. */
  function OnUpdate(d: Document, now: Time): Document {
    d.(lastVerified := Some(now))
  }

  /**
   * The row a merge of `d` over the stored row leaves. The flush issues an
   * UPDATE, and so runs @PreUpdate, only when some field differs.
   */
  function Merged(stored: Document, d: Document, now: Time): Document {
    if d == stored then stored else OnUpdate(d, now)
  }

  /**
   * A registered notary. `notaryAddress` is the unique key, `stakeAmount`
   * is a BigDecimal amount of ether, the two counters are Java ints.
   */
  datatype Notary = Notary(
    notaryAddress: string,
    name: string,
    active: bool,
    stakeAmount: real,
    successfulNotarizations: nat,
    slashedCount: nat,
    registeredAt: Option<Time>)

  /** The notary's @PrePersist hook; there is no update hook. */
  function OnCreateNotary(n: Notary, now: Time): Notary {
    n.(registeredAt := Some(now))
  }
}

=== FILE: errors.dfy ===
/** The exceptions the notarization core raises, one constructor per cause. */
module Errors {
  import opened Wrappers

  datatype Error =
    // registration
    | NotaryAlreadyInDatabase
    | NotaryAlreadyOnLedger
    | StakeMismatch(offered: nat, required: nat)
    | DocumentAlreadyRegistered
    // ledger gateway
    | ContractNotInitialized
    | ContractNotReady
    | InvalidIpfsCid(cid: Option<string>)
    | LedgerReadFailed
    | LedgerRejected
    // lookups and preconditions of the services
    | NotaryNotFound
    | DocumentNotFound
    | DocumentHasNoCid
    | ActiveNotaryCannotWithdraw
    | NoStakeToWithdraw
    | HashMismatch
    | NotaryNotActive
    // content store
    | UploadFailed
    | DownloadFailed
    | EmptyDownload
    // persistence
    | NonUniqueResult
    | NullColumn(column: string)
    // contract bootstrap
    | RpcFailed
    | InsufficientBalance
    | DeploymentFailed
    | ContractVerificationFailed
    | NoContractAvailable
    | IndexOutOfBounds
    // notary administration
    /** deactivateNotary's own RuntimeException: a fixed message, with neither the cause nor its message. */
    | DeactivationFailed
    /** A RuntimeException whose message is `context` followed by the message of `cause`. */
    | Wrapped(context: string, cause: Error)
}

=== FILE: infura.dfy ===
/**
 * The log-masking helpers and the chain-id naming of InfuraWeb3Config.
 * Connecting, loading credentials and the gas settings are left out.
 */
module Infura {
  import opened Wrappers
  import opened Strings

  const Hidden := "***"
  const Ellipsis := "..."

  /** maskAddress: the first six and the last four characters around "...", or "***" when too short. */
  function MaskAddress(address: Option<string>): (r: string)
    ensures r == Hidden <==> address.None? || |address.value| < 10
    ensures address.Some? && |address.value| >= 10 ==>
      && |r| == 13
      && r[..6] == address.value[..6]
      && r[6..9] == Ellipsis
      && r[9..] == address.value[|address.value| - 4..]
  {
    if address.None? || |address.value| < 10 then Hidden
    else
      var a := address.value;
      var r := a[..6] + Ellipsis + a[|a| - 4..];
      assert r[..6] == a[..6] && r[6..9] == Ellipsis && r[9..] == a[|a| - 4..];
      r
  }

  /** Masking a masked address changes nothing: what is shown is already the masked form. */
  lemma MaskAddressIdempotent(address: Option<string>)
    ensures MaskAddress(Some(MaskAddress(address))) == MaskAddress(address)
  {
    var m := MaskAddress(address);
    if |m| >= 10 {
      assert m == m[..6] + m[6..9] + m[9..];
    }
  }

  /** The position of the last '/' at which maskUrl cuts, if the URL has one with a non-empty tail past index 0. */
  predicate Cuts(url: string) {
    0 < LastIndexOf(url, '/') < |url| - 1
  }

  /** The part after the last '/'. */
  function Tail(url: string): string
    requires Cuts(url)
  {
    url[LastIndexOf(url, '/') + 1..]
  }

  /**
   * maskUrl: "***" for a missing or empty URL; a project id after the
   * last '/' that is longer than eight characters is shown as its first
   * four and last four; anything else is returned as it is.
   */
  function MaskUrl(url: Option<string>): (r: string)
    ensures url.None? || url.value == "" ==> r == Hidden
    ensures url.Some? && url.value != "" && Cuts(url.value) && |Tail(url.value)| > 8 ==>
      var u := url.value;
      var k := LastIndexOf(u, '/') + 1;
      && |r| == k + 11
      && r[..k] == u[..k]
      && r[k..k + 4] == u[k..k + 4]
      && r[k + 4..k + 7] == Ellipsis
      && r[k + 7..] == u[|u| - 4..]
    ensures url.Some? && url.value != "" && !(Cuts(url.value) && |Tail(url.value)| > 8) ==> r == url.value
  {
    if url.None? || url.value == "" then Hidden
    else
      var u := url.value;
      var slash := LastIndexOf(u, '/');
      if 0 < slash < |u| - 1 && |u[slash + 1..]| > 8 then
        var k := slash + 1;
        var r := u[..k] + (u[k..k + 4] + Ellipsis + u[|u| - 4..]);
        assert r[..k] == u[..k] && r[k..k + 4] == u[k..k + 4];
        assert r[k + 4..k + 7] == Ellipsis && r[k + 7..] == u[|u| - 4..];
        r
      else u
  }

  /** The masked URL still ends in a project id after the same last '/', so masking it again changes nothing. */
  lemma MaskUrlIdempotent(url: Option<string>)
    ensures MaskUrl(Some(MaskUrl(url))) == MaskUrl(url)
  {
    var m := MaskUrl(url);
    if url.Some? && url.value != "" && Cuts(url.value) && |Tail(url.value)| > 8 {
      var u := url.value;
      var slash := LastIndexOf(u, '/');
      var k := slash + 1;
      assert m[slash] == '/';
      forall j | k <= j < |m|
        ensures m[j] != '/'
      {
        if j < k + 4 {
          assert m[j] == u[j];
        } else if j < k + 7 {
          assert m[j] == Ellipsis[j - k - 4];
        } else {
          assert m[j] == u[|u| - 4 + (j - k - 7)];
        }
      }
      LastIndexOfIs(m, '/', slash);
      assert m == m[..k] + (m[k..k + 4] + Ellipsis + m[|m| - 4..]);
    } else if url.None? || url.value == "" {
      assert LastIndexOf(Hidden, '/') == -1;
    }
  }

  /** A position holding `c` with none after it is the last index of `c`. */
  lemma LastIndexOfIs(s: string, c: char, i: int)
    requires 0 <= i < |s| && s[i] == c
    requires forall j :: i < j < |s| ==> s[j] != c
    ensures LastIndexOf(s, c) == i
  {
  }

  const Mainnet := "Mainnet"
  const Sepolia := "Sepolia Testnet"
  const Goerli := "Goerli Testnet"
  const Mumbai := "Mumbai (Polygon)"
  const Polygon := "Polygon Mainnet"
  const UnknownNetwork := "Unknown Network"

  /** getNetworkName: the five chain ids the service knows, by name. */
  function GetNetworkName(networkId: string): (r: string)
    ensures r != UnknownNetwork <==> networkId in {"1", "11155111", "5", "80001", "137"}
  {
    match networkId
    case "1" => Mainnet
    case "11155111" => Sepolia
    case "5" => Goerli
    case "80001" => Mumbai
    case "137" => Polygon
    case _ => UnknownNetwork
  }

  /** The chain id behind a known network name. */
  function NetworkId(name: string): Option<string> {
    match name
    case "Mainnet" => Some("1")
    case "Sepolia Testnet" => Some("11155111")
    case "Goerli Testnet" => Some("5")
    case "Mumbai (Polygon)" => Some("80001")
    case "Polygon Mainnet" => Some("137")
    case _ => None
  }

  /** Naming loses nothing for the known ids, and every name but the fallback comes from exactly one id. */
  lemma NetworkNameRoundTrip(networkId: string, name: string)
    ensures GetNetworkName(networkId) != UnknownNetwork ==> NetworkId(GetNetworkName(networkId)) == Some(networkId)
    ensures NetworkId(name).Some? ==> GetNetworkName(NetworkId(name).value) == name
  {
  }
}

=== FILE: ledger.dfy ===
/**
 * BlockchainService: the gateway to the DocumentNotarization contract.
 * The ledger is modelled by what its reads answer and which transactions
 * it refuses; an accepted transaction is appended to `submitted`, so
 * "no ledger write" is `submitted` unchanged.
 */
module Gateway {
  import opened Wrappers
  import opened Errors
  import opened Strings

  /** The contract's Document struct. */
  datatype ChainDocument = ChainDocument(
    ipfsCid: string, owner: string, timestamp: int, documentName: string,
    isNotarized: bool, notaries: seq<string>)

  /** The contract's NotaryInfo struct. */
  datatype NotaryInfo = NotaryInfo(
    notaryAddress: string, name: string, isActive: bool, stakeAmount: nat,
    successfulNotarizations: nat, slashedCount: nat)

  /** A state-changing contract call. None carries the notary's address: the contract acts for the sender. */
  datatype Call =
    | RegisterAsNotary(name: string, stakeWei: nat)
    | RegisterDocumentCall(cid: string, documentName: string)
    | NotarizeDocumentCall(cid: string)
    | SlashNotaryCall(notary: string, cid: string)
    | WithdrawStakeCall

  datatype Ledger = Ledger(
    /** a contract wrapper is loaded */
    contractLoaded: bool,
    /** the bootstrap service reports the contract ready */
    contractReady: bool,
    /** what STAKE_AMOUNT() answers; None: the read fails */
    stakeAmount: Option<nat>,
    /** what getDocument(cid) answers; an absent CID: the read fails */
    documents: map<string, ChainDocument>,
    /** what getNotary(address) answers; an absent address: the read fails */
    notaries: map<string, NotaryInfo>,
    /** what getUserDocuments(user) answers; an absent user: the read fails */
    userDocuments: map<string, seq<string>>,
    /** the calls the ledger would revert or fail to mine */
    rejected: set<Call>,
    /** the accepted transactions, oldest first */
    submitted: seq<Call>)

  const ZeroAddress := "0x0000000000000000000000000000000000000000"

  // ------------------------------------------------------------- validation

  /**
   * isValidIpfsCid: null and blank (after trim) are invalid; otherwise the
   * untrimmed string must start with "Qm" (CIDv0) or "bafy"/"bafk" (CIDv1).
   */
  function IsValidIpfsCid(cid: Option<string>): (r: bool)
    ensures cid.None? ==> !r
    ensures cid.Some? && IsBlank(cid.value) ==> !r
    ensures r <==> (cid.Some? &&
      (StartsWith(cid.value, "Qm") || StartsWith(cid.value, "bafy") || StartsWith(cid.value, "bafk")))
  {
    if cid.None? || Trim(cid.value) == "" then false
    else
      var s := cid.value;
      CidPrefixIsNotBlank(s);
      StartsWith(s, "Qm") || StartsWith(s, "bafy") || StartsWith(s, "bafk")
  }

  /** Every CID prefix starts with a printable character, so a prefixed string is never blank. */
  lemma CidPrefixIsNotBlank(s: string)
    ensures StartsWith(s, "Qm") || StartsWith(s, "bafy") || StartsWith(s, "bafk") ==> !IsBlank(s)
  {
    if StartsWith(s, "Qm") {
      assert s[0] == s[..2][0] == 'Q';
    } else if StartsWith(s, "bafy") || StartsWith(s, "bafk") {
      assert s[0] == s[..4][0] == 'b';
    }
  }

  /** validateContractState: the error it raises, or None when the contract is usable. */
  function ContractStateError(l: Ledger): (r: Option<Error>)
    ensures r.None? <==> l.contractLoaded && l.contractReady
    ensures !l.contractLoaded ==> r == Some(ContractNotInitialized)
    ensures l.contractLoaded && !l.contractReady ==> r == Some(ContractNotReady)
  {
    if !l.contractLoaded then Some(ContractNotInitialized)
    else if !l.contractReady then Some(ContractNotReady)
    else None
  }

  predicate Usable(l: Ledger) {
    ContractStateError(l).None?
  }

  /** Sends one transaction: refused calls fail and change nothing. */
  function Submit(l: Ledger, call: Call): (r: Result<Ledger, Error>)
  {
    if call in l.rejected then Failure(LedgerRejected)
    else Success(l.(submitted := l.submitted + [call]))
  }

  /** The ledger after accepting exactly `call` and nothing else. */
  function After(l: Ledger, call: Call): Ledger {
    l.(submitted := l.submitted + [call])
  }

  // ---------------------------------------------------------------- writes

  /**
   * registerNotary: checks the contract state, reads STAKE_AMOUNT and
   * refuses any other offered stake before sending registerAsNotary.
   * The address is only logged: the contract registers the sender.
   */
  function RegisterNotary(l: Ledger, notaryAddress: string, name: string, stakeWei: nat): (r: Result<Ledger, Error>)
    ensures !Usable(l) ==> r == Failure(ContractStateError(l).value)
    ensures Usable(l) && l.stakeAmount.None? ==> r == Failure(LedgerReadFailed)
    ensures Usable(l) && l.stakeAmount.Some? && l.stakeAmount.value != stakeWei ==>
      r == Failure(StakeMismatch(stakeWei, l.stakeAmount.value))
    ensures r.Success? <==>
      Usable(l) && l.stakeAmount == Some(stakeWei) && RegisterAsNotary(name, stakeWei) !in l.rejected
    ensures r.Success? ==> r.value == After(l, RegisterAsNotary(name, stakeWei))
  {
    if !Usable(l) then Failure(ContractStateError(l).value)
    else if l.stakeAmount.None? then Failure(LedgerReadFailed)
    else if stakeWei != l.stakeAmount.value then Failure(StakeMismatch(stakeWei, l.stakeAmount.value))
    else Submit(l, RegisterAsNotary(name, stakeWei))
  }

  /** The guard shared by every CID-carrying call: contract state first, then the CID. */
  function CidCallError(l: Ledger, cid: string): (r: Option<Error>)
    ensures r.None? <==> Usable(l) && IsValidIpfsCid(Some(cid))
    ensures !Usable(l) ==> r == ContractStateError(l)
    ensures Usable(l) && !IsValidIpfsCid(Some(cid)) ==> r == Some(InvalidIpfsCid(Some(cid)))
  {
    if !Usable(l) then ContractStateError(l)
    else if !IsValidIpfsCid(Some(cid)) then Some(InvalidIpfsCid(Some(cid)))
    else None
  }

  /** Sends a call that names `cid`, behind the shared guard. */
  function GuardedCall(l: Ledger, cid: string, call: Call): (r: Result<Ledger, Error>)
    ensures CidCallError(l, cid).Some? ==> r == Failure(CidCallError(l, cid).value)
    ensures r.Success? <==> CidCallError(l, cid).None? && call !in l.rejected
    ensures r.Success? ==> r.value == After(l, call)
    ensures r.Failure? && CidCallError(l, cid).None? ==> r.error == LedgerRejected
  {
    match CidCallError(l, cid)
    case Some(e) => Failure(e)
    case None => Submit(l, call)
  }

  function SlashNotary(l: Ledger, notary: string, cid: string): (r: Result<Ledger, Error>)
    ensures CidCallError(l, cid).Some? ==> r == Failure(CidCallError(l, cid).value)
    ensures r.Success? <==> CidCallError(l, cid).None? && SlashNotaryCall(notary, cid) !in l.rejected
    ensures r.Success? ==> r.value == After(l, SlashNotaryCall(notary, cid))
  {
    GuardedCall(l, cid, SlashNotaryCall(notary, cid))
  }

  /** registerDocument(cid, name), the two-argument form the services call. */
  function RegisterDocument(l: Ledger, cid: string, documentName: string): (r: Result<Ledger, Error>)
    ensures CidCallError(l, cid).Some? ==> r == Failure(CidCallError(l, cid).value)
    ensures r.Success? <==> CidCallError(l, cid).None? && RegisterDocumentCall(cid, documentName) !in l.rejected
    ensures r.Success? ==> r.value == After(l, RegisterDocumentCall(cid, documentName))
  {
    GuardedCall(l, cid, RegisterDocumentCall(cid, documentName))
  }

  function NotarizeDocument(l: Ledger, cid: string): (r: Result<Ledger, Error>)
    ensures CidCallError(l, cid).Some? ==> r == Failure(CidCallError(l, cid).value)
    ensures r.Success? <==> CidCallError(l, cid).None? && NotarizeDocumentCall(cid) !in l.rejected
    ensures r.Success? ==> r.value == After(l, NotarizeDocumentCall(cid))
  {
    GuardedCall(l, cid, NotarizeDocumentCall(cid))
  }

  /** withdrawStake: only the contract state is checked; the contract pays the sender. */
  function WithdrawStake(l: Ledger): (r: Result<Ledger, Error>)
    ensures !Usable(l) ==> r == Failure(ContractStateError(l).value)
    ensures r.Success? <==> Usable(l) && WithdrawStakeCall !in l.rejected
    ensures r.Success? ==> r.value == After(l, WithdrawStakeCall)
  {
    if !Usable(l) then Failure(ContractStateError(l).value)
    else Submit(l, WithdrawStakeCall)
  }

  /**
   * What the gateway guarantees of each transaction it lets through: a
   * registration offers the contract's own stake, and every call that names
   * a CID names a valid one.
   */
  predicate Sanctioned(l: Ledger, call: Call) {
    match call
    case RegisterAsNotary(_, stakeWei) => l.stakeAmount == Some(stakeWei)
    case RegisterDocumentCall(cid, _) => IsValidIpfsCid(Some(cid))
    case NotarizeDocumentCall(cid) => IsValidIpfsCid(Some(cid))
    case SlashNotaryCall(_, cid) => IsValidIpfsCid(Some(cid))
    case WithdrawStakeCall => true
  }

  /** Every accepted transaction was sanctioned. */
  predicate SanctionedLog(l: Ledger) {
    forall i :: 0 <= i < |l.submitted| ==> Sanctioned(l, l.submitted[i])
  }

  /**
   * The gateway's writes keep the log sanctioned: no malformed CID and no
   * wrong stake ever reaches the ledger, and a write sends only when the
   * contract is usable.
   */
  lemma WritesKeepLogSanctioned(l: Ledger, notary: string, name: string, stakeWei: nat, cid: string,
                                documentName: string)
    requires SanctionedLog(l)
    ensures RegisterNotary(l, notary, name, stakeWei).Success? ==>
      Usable(l) && SanctionedLog(RegisterNotary(l, notary, name, stakeWei).value)
    ensures SlashNotary(l, notary, cid).Success? ==> Usable(l) && SanctionedLog(SlashNotary(l, notary, cid).value)
    ensures RegisterDocument(l, cid, documentName).Success? ==>
      Usable(l) && SanctionedLog(RegisterDocument(l, cid, documentName).value)
    ensures NotarizeDocument(l, cid).Success? ==> Usable(l) && SanctionedLog(NotarizeDocument(l, cid).value)
    ensures WithdrawStake(l).Success? ==> Usable(l) && SanctionedLog(WithdrawStake(l).value)
  {
    if RegisterNotary(l, notary, name, stakeWei).Success? {
      AfterSanctioned(l, RegisterAsNotary(name, stakeWei));
    }
    if CidCallError(l, cid).None? {
      AfterSanctioned(l, SlashNotaryCall(notary, cid));
      AfterSanctioned(l, RegisterDocumentCall(cid, documentName));
      AfterSanctioned(l, NotarizeDocumentCall(cid));
    }
    if Usable(l) {
      AfterSanctioned(l, WithdrawStakeCall);
    }
  }

  /** Appending a sanctioned call keeps the log sanctioned. */
  lemma AfterSanctioned(l: Ledger, call: Call)
    requires SanctionedLog(l) && Sanctioned(l, call)
    ensures SanctionedLog(After(l, call))
  {
    var l' := After(l, call);
    forall i | 0 <= i < |l'.submitted|
      ensures Sanctioned(l', l'.submitted[i])
    {
      if i < |l.submitted| {
        assert l'.submitted[i] == l.submitted[i];
        SanctionedKeepsReads(l, l', l.submitted[i]);
      } else {
        SanctionedKeepsReads(l, l', call);
      }
    }
  }

  /** Whether a call is sanctioned depends only on the ledger's stake answer. */
  lemma SanctionedKeepsReads(l: Ledger, l': Ledger, call: Call)
    requires l'.stakeAmount == l.stakeAmount && Sanctioned(l, call)
    ensures Sanctioned(l', call)
  {
  }

  // ----------------------------------------------------------------- reads

  function GetDocument(l: Ledger, cid: string): (r: Result<ChainDocument, Error>)
    ensures CidCallError(l, cid).Some? ==> r == Failure(CidCallError(l, cid).value)
    ensures r.Success? <==> CidCallError(l, cid).None? && cid in l.documents
    ensures r.Success? ==> r.value == l.documents[cid]
  {
    match CidCallError(l, cid)
    case Some(e) => Failure(e)
    case None => if cid in l.documents then Success(l.documents[cid]) else Failure(LedgerReadFailed)
  }

  function IsDocumentNotarized(l: Ledger, cid: string): (r: Result<bool, Error>)
    ensures r.Success? <==> GetDocument(l, cid).Success?
    ensures r.Success? ==> r.value == l.documents[cid].isNotarized
    ensures r == Success(true) <==> NotarizedOnChain(l, cid)
  {
    var d :- GetDocument(l, cid);
    Success(d.isNotarized)
  }

  /** documentExists: the ledger holds a document with a non-zero owner; every failure reads as false. */
  function DocumentExists(l: Ledger, cid: string): (r: bool)
    ensures r <==> Usable(l) && IsValidIpfsCid(Some(cid)) && cid in l.documents && l.documents[cid].owner != ZeroAddress
    ensures !IsValidIpfsCid(Some(cid)) ==> !r
  {
    match GetDocument(l, cid)
    case Success(d) => d.owner != ZeroAddress
    case Failure(_) => false
  }

  /** isNotaryRegisteredOnBlockchain: a readable, active NotaryInfo; every failure reads as false. */
  function IsNotaryRegisteredOnBlockchain(l: Ledger, notary: string): (r: bool)
    ensures r ==> Usable(l) && notary in l.notaries
    ensures r <==> Usable(l) && notary in l.notaries && l.notaries[notary].isActive
  {
    Usable(l) && notary in l.notaries && l.notaries[notary].isActive
  }

  function GetUserDocuments(l: Ledger, user: string): (r: Result<seq<string>, Error>)
    ensures !Usable(l) ==> r == Failure(ContractStateError(l).value)
    ensures r.Success? <==> Usable(l) && user in l.userDocuments
    ensures r.Success? ==> r.value == l.userDocuments[user]
  {
    if !Usable(l) then Failure(ContractStateError(l).value)
    else if user in l.userDocuments then Success(l.userDocuments[user])
    else Failure(LedgerReadFailed)
  }

  /** The ledger holds a readable record for `cid` that says notarized. */
  predicate NotarizedOnChain(l: Ledger, cid: string) {
    Usable(l) && IsValidIpfsCid(Some(cid)) && cid in l.documents && l.documents[cid].isNotarized
  }

  /** How many of `cids` read back as notarized; unreadable ones do not count. */
  function CountNotarized(l: Ledger, cids: seq<string>): (r: nat)
    ensures r <= |cids|
  {
    if |cids| == 0 then 0
    else CountNotarized(l, cids[..|cids| - 1]) + (if NotarizedOnChain(l, cids[|cids| - 1]) then 1 else 0)
  }

  /** The count reaches |cids| exactly when every CID reads as notarized, and 0 exactly when none does. */
  lemma {:induction false} CountNotarizedExtremes(l: Ledger, cids: seq<string>)
    ensures CountNotarized(l, cids) == |cids| <==> forall c :: c in cids ==> NotarizedOnChain(l, c)
    ensures CountNotarized(l, cids) == 0 <==> forall c :: c in cids ==> !NotarizedOnChain(l, c)
    decreases |cids|
  {
    if |cids| > 0 {
      var init, last := cids[..|cids| - 1], cids[|cids| - 1];
      assert cids == init + [last];
      assert forall c :: c in cids <==> c in init || c == last;
      CountNotarizedExtremes(l, init);
    }
  }

  lemma CountNotarizedSnoc(l: Ledger, cids: seq<string>, c: string)
    ensures CountNotarized(l, cids + [c]) == CountNotarized(l, cids) + (if NotarizedOnChain(l, c) then 1 else 0)
  {
    assert (cids + [c])[..|cids|] == cids;
  }

  /** getUserNotarizedDocumentCount: counts the user's documents that read back as notarized. */
  method GetUserNotarizedDocumentCount(l: Ledger, user: string) returns (r: Result<nat, Error>)
    ensures r.Success? <==> GetUserDocuments(l, user).Success?
    ensures r.Success? ==> r.value == CountNotarized(l, GetUserDocuments(l, user).value)
    ensures r.Success? ==> r.value <= |GetUserDocuments(l, user).value|
    ensures r.Success? ==> (r.value == |GetUserDocuments(l, user).value| <==>
      forall c :: c in GetUserDocuments(l, user).value ==> NotarizedOnChain(l, c))
  {
    var docs := GetUserDocuments(l, user);
    if docs.Failure? {
      return Failure(docs.error);
    }
    var cids := docs.value;
    var count := 0;
    var i := 0;
    while i < |cids|
      invariant 0 <= i <= |cids|
      invariant count == CountNotarized(l, cids[..i])
    {
      assert cids[..i + 1] == cids[..i] + [cids[i]];
      CountNotarizedSnoc(l, cids[..i], cids[i]);
      var notarized := IsDocumentNotarized(l, cids[i]);
      if notarized.Success? && notarized.value {
        count := count + 1;
      }
      i := i + 1;
    }
    assert cids[..|cids|] == cids;
    CountNotarizedExtremes(l, cids);
    return Success(count);
  }

  /** The readable ledger records of `cids`, in order; unreadable ones are skipped. */
  function Details(l: Ledger, cids: seq<string>): (r: seq<ChainDocument>)
    ensures |r| <= |cids|
  {
    if |cids| == 0 then []
    else
      var last := cids[|cids| - 1];
      Details(l, cids[..|cids| - 1]) + Readable(l, last)
  }

  /** The record at `cid` when it reads back, else nothing. */
  function Readable(l: Ledger, cid: string): seq<ChainDocument> {
    match GetDocument(l, cid)
    case Success(d) => [d]
    case Failure(_) => []
  }

  /** A record is listed exactly when some CID of the list reads back as it. */
  lemma {:induction false} DetailsMembers(l: Ledger, cids: seq<string>)
    ensures forall d :: d in Details(l, cids) <==> exists c :: c in cids && GetDocument(l, c) == Success(d)
    decreases |cids|
  {
    if |cids| > 0 {
      var init, last := cids[..|cids| - 1], cids[|cids| - 1];
      assert cids == init + [last];
      assert forall c :: c in cids <==> c in init || c == last;
      DetailsMembers(l, init);
    }
  }

  lemma DetailsSnoc(l: Ledger, cids: seq<string>, c: string)
    ensures Details(l, cids + [c]) == Details(l, cids) + Readable(l, c)
  {
    assert (cids + [c])[..|cids|] == cids;
  }

  /** getUserDocumentsWithDetails: the user's readable ledger records, in the ledger's order. */
  method GetUserDocumentsWithDetails(l: Ledger, user: string) returns (r: Result<seq<ChainDocument>, Error>)
    ensures r.Success? <==> GetUserDocuments(l, user).Success?
    ensures r.Success? ==> r.value == Details(l, GetUserDocuments(l, user).value)
    ensures r.Success? ==> forall d :: d in r.value <==>
      exists c :: c in GetUserDocuments(l, user).value && GetDocument(l, c) == Success(d)
  {
    var docs := GetUserDocuments(l, user);
    if docs.Failure? {
      return Failure(docs.error);
    }
    var out := CollectDetails(l, docs.value);
    DetailsMembers(l, docs.value);
    return Success(out);
  }

  /** The loop of getUserDocumentsWithDetails: one read per CID, failures skipped. */
  method CollectDetails(l: Ledger, cids: seq<string>) returns (out: seq<ChainDocument>)
    ensures out == Details(l, cids)
  {
    out := [];
    var i := 0;
    while i < |cids|
      invariant 0 <= i <= |cids|
      invariant out == Details(l, cids[..i])
    {
      assert cids[..i + 1] == cids[..i] + [cids[i]];
      DetailsSnoc(l, cids[..i], cids[i]);
      out := out + Readable(l, cids[i]);
      i := i + 1;
    }
    assert cids[..|cids|] == cids;
  }
}

=== FILE: notaries.dfy ===
/**
 * NotaryService: registration, slashing, stake withdrawal and top-up,
 * deactivation, success counting and reputation. Every transition
 * returns the new world or the exception; a Failure leaves the world as
 * it was.
 */
module Notaries {
  import opened Wrappers
  import opened Errors
  import opened Entities
  import opened Store
  import opened Gateway
  import opened Worlds

  /** The fixed stake sent with registerAsNotary: 1 ether in wei. */
  const StakeWei: nat := 1_000_000_000_000_000_000
  /** The stake the cache records on registration, in ether. */
  const RecordedStake: real := 1.0
  /** The default of the `notary.stake-amount` setting, in ether. */
  const DefaultRequiredStake: real := 1.0

  const RegisterContext := "Failed to register notary"

  /** Only `a`'s notary row may differ; documents and the content store are untouched. */
  ghost predicate OnlyNotaryChanged(w: World, w': World, a: string) {
    && OtherNotariesUnchanged(w.cache.notaries, w'.cache.notaries, a)
    && w'.cache.documents == w.cache.documents
    && w'.ipfs == w.ipfs
  }

  /** The outcome one slash must have on a notary row. */
  ghost predicate SlashedFrom(before: Notary, after: Notary, requiredStake: real) {
    && after.slashedCount == before.slashedCount + 1
    && after.stakeAmount == before.stakeAmount * 9.0 / 10.0
    && (after.active <==> before.active && after.stakeAmount >= requiredStake / 2.0)
    && after.(slashedCount := before.slashedCount, stakeAmount := before.stakeAmount, active := before.active) == before
  }

  /** The cache update after a successful slash: one more slash, 90% of the stake, deactivation below half the required stake. */
  function ApplySlash(n: Notary, requiredStake: real): (r: Notary)
    ensures SlashedFrom(n, r, requiredStake)
  {
    var stake := n.stakeAmount * 0.9;
    n.(slashedCount := n.slashedCount + 1,
       stakeAmount := stake,
       active := if stake < requiredStake / 2.0 then false else n.active)
  }

  /** Writes back a row read from a valid cache. */
  function WriteBack(w: World, n: Notary): (r: World)
    requires Valid(w.cache) && ExistsByNotaryAddress(w.cache.notaries, n.notaryAddress)
    requires n.registeredAt.Some?
    ensures Valid(r.cache) && ExistsByNotaryAddress(r.cache.notaries, n.notaryAddress)
    ensures NotaryOf(r.cache, n.notaryAddress) == n
    ensures OnlyNotaryChanged(w, r, n.notaryAddress) && r.ledger == w.ledger
  {
    w.(cache := w.cache.(notaries := UpdateNotary(w.cache.notaries, n).value))
  }

  // ------------------------------------------------------------ registration

  /**
   * registerNotary: refuses an address the cache or the ledger already
   * knows, registers on the ledger with the fixed 1-ether stake whatever
   * stake the request offers, then persists an active notary with a
   * recorded stake of 1.0 and zero counters. Ledger failures come back
   * wrapped.
   */
  function RegisterNotary(w: World, address: string, name: string, offeredStake: real, now: Time): (r: Result<World, Error>)
    requires Valid(w.cache)
    ensures ExistsByNotaryAddress(w.cache.notaries, address) ==> r == Failure(NotaryAlreadyInDatabase)
    ensures !ExistsByNotaryAddress(w.cache.notaries, address) && IsNotaryRegisteredOnBlockchain(w.ledger, address) ==>
      r == Failure(NotaryAlreadyOnLedger)
    ensures r.Success? <==>
      && !ExistsByNotaryAddress(w.cache.notaries, address)
      && !IsNotaryRegisteredOnBlockchain(w.ledger, address)
      && Gateway.RegisterNotary(w.ledger, address, name, StakeWei).Success?
    ensures r.Success? ==> w.ledger.stakeAmount == Some(StakeWei)
    ensures r.Success? ==> r.value.ledger == After(w.ledger, RegisterAsNotary(name, StakeWei))
    ensures r.Success? ==> ExistsByNotaryAddress(r.value.cache.notaries, address)
    ensures r.Success? ==> NotaryOf(r.value.cache, address) == Notary(address, name, true, RecordedStake, 0, 0, Some(now))
    ensures r.Success? ==> OnlyNotaryChanged(w, r.value, address) && Valid(r.value.cache)
    ensures r.Failure? && !ExistsByNotaryAddress(w.cache.notaries, address) && !IsNotaryRegisteredOnBlockchain(w.ledger, address) ==>
      r.error.Wrapped? && r.error.context == RegisterContext
  {
    if ExistsByNotaryAddress(w.cache.notaries, address) then Failure(NotaryAlreadyInDatabase)
    else if IsNotaryRegisteredOnBlockchain(w.ledger, address) then Failure(NotaryAlreadyOnLedger)
    else
      match Gateway.RegisterNotary(w.ledger, address, name, StakeWei)
      case Failure(e) => Failure(Wrapped(RegisterContext, e))
      case Success(ledger) =>
        var n := Notary(address, name, true, RecordedStake, 0, 0, None);
        var ns := SaveNotary(w.cache.notaries, n, now).value;
        Success(w.(cache := w.cache.(notaries := ns), ledger := ledger))
  }

  // ---------------------------------------------------------------- slashing

  /**
   * slashNotaryByIpfsCid: the notary must be cached and the CID valid;
   * the ledger slash must succeed before the cache records it. Whether
   * the notary is active plays no part.
   */
  function SlashNotaryByIpfsCid(w: World, address: string, cid: string, requiredStake: real): (r: Result<World, Error>)
    requires Valid(w.cache)
    ensures !ExistsByNotaryAddress(w.cache.notaries, address) ==> r == Failure(NotaryNotFound)
    ensures ExistsByNotaryAddress(w.cache.notaries, address) && !IsValidIpfsCid(Some(cid)) ==>
      r == Failure(InvalidIpfsCid(Some(cid)))
    ensures r.Success? <==>
      ExistsByNotaryAddress(w.cache.notaries, address) && Gateway.SlashNotary(w.ledger, address, cid).Success?
    ensures r.Success? ==> r.value.ledger == After(w.ledger, SlashNotaryCall(address, cid))
    ensures r.Success? ==> ExistsByNotaryAddress(r.value.cache.notaries, address)
    ensures r.Success? ==> SlashedFrom(NotaryOf(w.cache, address), NotaryOf(r.value.cache, address), requiredStake)
    ensures r.Success? ==> OnlyNotaryChanged(w, r.value, address) && Valid(r.value.cache)
  {
    match FindByNotaryAddress(w.cache.notaries, address)
    case None => Failure(NotaryNotFound)
    case Some(n) =>
      if !IsValidIpfsCid(Some(cid)) then Failure(InvalidIpfsCid(Some(cid)))
      else
        var ledger :- Gateway.SlashNotary(w.ledger, address, cid);
        Success(WriteBack(w.(ledger := ledger), ApplySlash(n, requiredStake)))
  }

  /**
   * slashNotary(notaryAddress, documentHash): slashes the notary for the
   * document's CID. The notary and the document must both be cached and
   * the document must carry a valid CID; the notary need not be active.
   */
  function SlashNotary(w: World, address: string, documentHash: string, requiredStake: real): (r: Result<World, Error>)
    requires Valid(w.cache)
    ensures !ExistsByNotaryAddress(w.cache.notaries, address) ==> r == Failure(NotaryNotFound)
    ensures ExistsByNotaryAddress(w.cache.notaries, address) && !ExistsByDocumentHash(w.cache.documents, documentHash) ==>
      r == Failure(DocumentNotFound)
    ensures ExistsByNotaryAddress(w.cache.notaries, address) && ExistsByDocumentHash(w.cache.documents, documentHash) ==>
      (!HasIpfsCid(DocumentOf(w.cache, documentHash)) ==> r == Failure(DocumentHasNoCid))
    ensures r.Success? <==>
      && ExistsByNotaryAddress(w.cache.notaries, address)
      && ExistsByDocumentHash(w.cache.documents, documentHash)
      && HasIpfsCid(DocumentOf(w.cache, documentHash))
      && Gateway.SlashNotary(w.ledger, address, DocumentOf(w.cache, documentHash).ipfsHash.value).Success?
    ensures r.Success? ==>
      r.value.ledger == After(w.ledger, SlashNotaryCall(address, DocumentOf(w.cache, documentHash).ipfsHash.value))
    ensures r.Success? ==> ExistsByNotaryAddress(r.value.cache.notaries, address)
    ensures r.Success? ==> SlashedFrom(NotaryOf(w.cache, address), NotaryOf(r.value.cache, address), requiredStake)
    ensures r.Success? ==> OnlyNotaryChanged(w, r.value, address) && Valid(r.value.cache)
  {
    match FindByNotaryAddress(w.cache.notaries, address)
    case None => Failure(NotaryNotFound)
    case Some(n) =>
      match FindByDocumentHash(w.cache.documents, documentHash)
      case None => Failure(DocumentNotFound)
      case Some(d) =>
        if !HasIpfsCid(d) then Failure(DocumentHasNoCid)
        else if !IsValidIpfsCid(d.ipfsHash) then Failure(InvalidIpfsCid(d.ipfsHash))
        else
          var ledger :- Gateway.SlashNotary(w.ledger, address, d.ipfsHash.value);
          Success(WriteBack(w.(ledger := ledger), ApplySlash(n, requiredStake)))
  }

  // ------------------------------------------------------------------ stake

  /**
   * withdrawStake: only a cached, inactive notary with a positive stake
   * may withdraw; after the ledger call the cached stake is zero and
   * nothing else about the notary changes.
   */
  function WithdrawStake(w: World, address: string): (r: Result<World, Error>)
    requires Valid(w.cache)
    ensures !ExistsByNotaryAddress(w.cache.notaries, address) ==> r == Failure(NotaryNotFound)
    ensures ExistsByNotaryAddress(w.cache.notaries, address) && NotaryOf(w.cache, address).active ==>
      r == Failure(ActiveNotaryCannotWithdraw)
    ensures (ExistsByNotaryAddress(w.cache.notaries, address) && !NotaryOf(w.cache, address).active &&
      NotaryOf(w.cache, address).stakeAmount <= 0.0) ==> r == Failure(NoStakeToWithdraw)
    ensures r.Success? <==>
      && ExistsByNotaryAddress(w.cache.notaries, address)
      && !NotaryOf(w.cache, address).active
      && NotaryOf(w.cache, address).stakeAmount > 0.0
      && Gateway.WithdrawStake(w.ledger).Success?
    ensures r.Success? ==> r.value.ledger == After(w.ledger, WithdrawStakeCall)
    ensures r.Success? ==> ExistsByNotaryAddress(r.value.cache.notaries, address)
    ensures r.Success? ==> NotaryOf(r.value.cache, address).stakeAmount == 0.0
    ensures r.Success? ==>
      NotaryOf(r.value.cache, address).(stakeAmount := NotaryOf(w.cache, address).stakeAmount) == NotaryOf(w.cache, address)
    ensures r.Success? ==> OnlyNotaryChanged(w, r.value, address) && Valid(r.value.cache)
  {
    match FindByNotaryAddress(w.cache.notaries, address)
    case None => Failure(NotaryNotFound)
    case Some(n) =>
      if n.active then Failure(ActiveNotaryCannotWithdraw)
      else if n.stakeAmount <= 0.0 then Failure(NoStakeToWithdraw)
      else
        var ledger :- Gateway.WithdrawStake(w.ledger);
        Success(WriteBack(w.(ledger := ledger), n.(stakeAmount := 0.0)))
  }

  /**
   * addStake: raises the cached stake by `amount` (no ledger call) and
   * reactivates an inactive notary whose new stake reaches the required
   * stake. An active notary stays active.
   */
  function AddStake(w: World, address: string, amount: real, requiredStake: real): (r: Result<World, Error>)
    requires Valid(w.cache)
    ensures r.Failure? <==> !ExistsByNotaryAddress(w.cache.notaries, address)
    ensures r.Failure? ==> r.error == NotaryNotFound
    ensures r.Success? ==> r.value.ledger == w.ledger
    ensures r.Success? ==> ExistsByNotaryAddress(r.value.cache.notaries, address)
    ensures r.Success? ==>
      var before, after := NotaryOf(w.cache, address), NotaryOf(r.value.cache, address);
      && after.stakeAmount == before.stakeAmount + amount
      && (after.active <==> before.active || after.stakeAmount >= requiredStake)
      && after.(stakeAmount := before.stakeAmount, active := before.active) == before
    ensures r.Success? ==> OnlyNotaryChanged(w, r.value, address) && Valid(r.value.cache)
  {
    match FindByNotaryAddress(w.cache.notaries, address)
    case None => Failure(NotaryNotFound)
    case Some(n) =>
      var stake := n.stakeAmount + amount;
      var n' := n.(stakeAmount := stake, active := if !n.active && stake >= requiredStake then true else n.active);
      Success(WriteBack(w, n'))
  }

  /**
   * deactivateNotary: clears the active flag and nothing else. Any failure,
   * a missing notary included, becomes the fixed "Failed to deactivate
   * notary" exception, which keeps nothing of its cause.
   */
  function DeactivateNotary(w: World, address: string): (r: Result<World, Error>)
    requires Valid(w.cache)
    ensures r.Failure? <==> !ExistsByNotaryAddress(w.cache.notaries, address)
    ensures r.Failure? ==> r.error == DeactivationFailed
    ensures r.Success? ==> r.value.ledger == w.ledger
    ensures r.Success? ==> ExistsByNotaryAddress(r.value.cache.notaries, address)
    ensures r.Success? ==> !NotaryOf(r.value.cache, address).active
    ensures r.Success? ==> NotaryOf(r.value.cache, address).(active := NotaryOf(w.cache, address).active) == NotaryOf(w.cache, address)
    ensures r.Success? ==> OnlyNotaryChanged(w, r.value, address) && Valid(r.value.cache)
  {
    match FindByNotaryAddress(w.cache.notaries, address)
    case None => Failure(DeactivationFailed)
    case Some(n) => Success(WriteBack(w, n.(active := false)))
  }

  /** incrementSuccessfulNotarizations: one more success for a cached notary; a missing one is ignored. */
  function IncrementSuccessfulNotarizations(c: Cache, address: string): (r: Cache)
    requires Valid(c)
    ensures Valid(r) && r.documents == c.documents
    ensures !ExistsByNotaryAddress(c.notaries, address) ==> r == c
    ensures ExistsByNotaryAddress(c.notaries, address) ==> ExistsByNotaryAddress(r.notaries, address)
    ensures ExistsByNotaryAddress(c.notaries, address) ==>
      NotaryOf(r, address).successfulNotarizations == NotaryOf(c, address).successfulNotarizations + 1 &&
      NotaryOf(r, address).(successfulNotarizations := NotaryOf(c, address).successfulNotarizations) == NotaryOf(c, address)
    ensures OtherNotariesUnchanged(c.notaries, r.notaries, address)
  {
    match FindByNotaryAddress(c.notaries, address)
    case None => c
    case Some(n) =>
      var n' := n.(successfulNotarizations := n.successfulNotarizations + 1);
      c.(notaries := UpdateNotary(c.notaries, n').value)
  }

  // ----------------------------------------------------------------- queries

  /** getNotary: the cached row for `address`, or NotaryNotFound. */
  function GetNotary(c: Cache, address: string): (r: Result<Notary, Error>)
    requires UniqueNotaryAddresses(c.notaries)
    ensures r.Failure? <==> !ExistsByNotaryAddress(c.notaries, address)
    ensures r.Failure? ==> r.error == NotaryNotFound
    ensures r.Success? ==> r.value in c.notaries && r.value.notaryAddress == address
    ensures forall n :: n in c.notaries && n.notaryAddress == address ==> r == Success(n)
  {
    match FindByNotaryAddress(c.notaries, address)
    case None => Failure(NotaryNotFound)
    case Some(n) => Success(n)
  }

  /** getActiveNotaries: every cached notary whose flag is set. */
  function GetActiveNotaries(c: Cache): (r: seq<Notary>)
    ensures forall n :: n in r <==> n in c.notaries && n.active
  {
    FindByActiveTrue(c.notaries)
  }

  /** A notary is active exactly when getNotary finds it and it is among the active ones. */
  lemma ActiveMeansListed(c: Cache, address: string)
    requires UniqueNotaryAddresses(c.notaries)
    ensures IsNotaryActive(c, address) <==> GetNotary(c, address).Success? && GetNotary(c, address).value in GetActiveNotaries(c)
  {
  }

  /** isNotaryActive: a cached notary whose flag is set; unknown addresses are inactive. */
  function IsNotaryActive(c: Cache, address: string): (r: bool)
    requires UniqueNotaryAddresses(c.notaries)
    ensures r <==> exists n :: n in c.notaries && n.notaryAddress == address && n.active
  {
    match FindByNotaryAddress(c.notaries, address)
    case None => false
    case Some(n) => n.active
  }

  function Min(a: real, b: real): real { if a <= b then a else b }
  function Max(a: real, b: real): real { if a >= b then a else b }

  /**
   * calculateNotaryReputation: the share of successes among all recorded
   * outcomes, as a percentage clamped to [0, 100]; 0 for an unknown
   * notary and 100 for one without history.
   */
  function Reputation(c: Cache, address: string): (r: real)
    ensures 0.0 <= r <= 100.0
    ensures !ExistsByNotaryAddress(c.notaries, address) ==> r == 0.0
    ensures ExistsByNotaryAddress(c.notaries, address) ==>
      var n := NotaryOf(c, address);
      var total := n.successfulNotarizations + n.slashedCount;
      && (total == 0 ==> r == 100.0)
      && (total > 0 ==> r * total as real == 100.0 * n.successfulNotarizations as real)
      && (n.successfulNotarizations == n.slashedCount && total > 0 ==> r == 50.0)
  {
    match FindByNotaryAddress(c.notaries, address)
    case None => 0.0
    case Some(n) =>
      var total := n.successfulNotarizations + n.slashedCount;
      if total == 0 then 100.0
      else
        var share := n.successfulNotarizations as real / total as real * 100.0;
        ShareIsPercentage(n.successfulNotarizations, n.slashedCount);
        Max(0.0, Min(100.0, share))
  }

  /** The success share already lies in [0, 100], so the clamp never bites. */
  lemma ShareIsPercentage(s: nat, k: nat)
    requires s + k > 0
    ensures 0.0 <= s as real / (s + k) as real * 100.0 <= 100.0
    ensures (s as real / (s + k) as real * 100.0) * (s + k) as real == 100.0 * s as real
    ensures s == k ==> s as real / (s + k) as real * 100.0 == 50.0
  {
    var t := (s + k) as real;
    var q := s as real / t;
    assert q * t == s as real;
    assert 0.0 <= q <= 1.0;
    if s == k {
      assert t == 2.0 * s as real;
      assert q == 0.5;
    }
  }
}

=== FILE: repositories.dfy ===
/**
 * The local cache and the Spring Data repositories over it. A table is a
 * sequence of rows in insertion order; `save` is JPA's merge-or-persist by
 * the entity's unique key, running the entity's lifecycle hooks.
 */
module Store {
  import opened Wrappers
  import opened Errors
  import opened Entities

  datatype Cache = Cache(documents: seq<Document>, notaries: seq<Notary>)

  /** The rows of `s` that satisfy `p`, in their order: the derived `findBy…` queries. */
  function Filter<T(!new)>(s: seq<T>, p: T -> bool): (r: seq<T>)
    ensures |r| <= |s|
    ensures forall x :: x in r <==> x in s && p(x)
  {
    if |s| == 0 then [] else (if p(s[0]) then [s[0]] else []) + Filter(s[1..], p)
  }

  /** Overwriting the rows selected by `key` leaves the membership of every other row alone. */
  lemma ReplaceKeepsOthers<T>(s: seq<T>, r: seq<T>, key: T -> bool)
    requires |r| == |s|
    requires forall i :: 0 <= i < |s| && !key(s[i]) ==> r[i] == s[i]
    requires forall i :: 0 <= i < |s| && key(s[i]) ==> key(r[i])
    ensures forall y :: !key(y) ==> (y in r <==> y in s)
  {
    forall y | !key(y)
      ensures y in r <==> y in s
    {
      if y in r {
        var i :| 0 <= i < |r| && r[i] == y;
        assert s[i] == y;
      }
      if y in s {
        var i :| 0 <= i < |s| && s[i] == y;
        assert r[i] == y;
      }
    }
  }

  // ---------------------------------------------------------------- documents

  /** The unique constraint on `document_hash`. */
  predicate UniqueDocumentHashes(ds: seq<Document>) {
    forall i, j :: 0 <= i < |ds| && 0 <= j < |ds| && ds[i].documentHash == ds[j].documentHash ==> i == j
  }

  /** What the @PrePersist hook guarantees of every row that reached the table. */
  predicate Stamped(d: Document) {
    d.createdAt.Some? && d.timestamp.Some? && d.lastVerified.Some?
  }

  predicate ValidDocuments(ds: seq<Document>) {
    UniqueDocumentHashes(ds) && forall d :: d in ds ==> Stamped(d)
  }

  predicate ExistsByDocumentHash(ds: seq<Document>, h: string) {
    exists d :: d in ds && d.documentHash == h
  }

  function FindByDocumentHash(ds: seq<Document>, h: string): (r: Option<Document>)
    ensures r.Some? <==> ExistsByDocumentHash(ds, h)
    ensures r.Some? ==> r.value in ds && r.value.documentHash == h
    ensures UniqueDocumentHashes(ds) ==> forall d :: d in ds && d.documentHash == h ==> r == Some(d)
  {
    if |ds| == 0 then None
    else if ds[0].documentHash == h then Some(ds[0])
    else
      var r := FindByDocumentHash(ds[1..], h);
      assert forall d :: d in ds && d != ds[0] ==> d in ds[1..];
      r
  }

  function FindByOwnerAddress(ds: seq<Document>, owner: string): (r: seq<Document>)
    ensures forall d :: d in r <==> d in ds && d.ownerAddress == owner
  {
    Filter(ds, (d: Document) => d.ownerAddress == owner)
  }

  function FindByNotarized(ds: seq<Document>, notarized: bool): (r: seq<Document>)
    ensures forall d :: d in r <==> d in ds && d.notarized == notarized
  {
    Filter(ds, (d: Document) => d.notarized == notarized)
  }

  function FindByNotaryAddressesContaining(ds: seq<Document>, notary: string): (r: seq<Document>)
    ensures forall d :: d in r <==> d in ds && notary in d.notaryAddresses
  {
    Filter(ds, (d: Document) => notary in d.notaryAddresses)
  }

  /** The documents never verified, or last verified strictly before `cutoff`. */
  function FindByLastVerifiedBeforeOrLastVerifiedIsNull(ds: seq<Document>, cutoff: Time): (r: seq<Document>)
    ensures forall d :: d in r <==> d in ds && (d.lastVerified.None? || d.lastVerified.value < cutoff)
  {
    Filter(ds, (d: Document) => d.lastVerified.None? || d.lastVerified.value < cutoff)
  }

  /** Rows `i` and `j` are two different rows holding the CID. */
  predicate SharedCid(ds: seq<Document>, cid: string, i: int, j: int) {
    0 <= i < j < |ds| && ds[i].ipfsHash == Some(cid) && ds[j].ipfsHash == Some(cid)
  }

  /**
   * The Optional-returning query on the non-unique `ipfs_hash` column:
   * empty, the one match, or the exception Spring Data raises when
   * several rows match.
   */
  function FindByIpfsHash(ds: seq<Document>, cid: string): (r: Result<Option<Document>, Error>)
    ensures r == Success(None) <==> forall d :: d in ds ==> d.ipfsHash != Some(cid)
    ensures r.Success? && r.value.Some? ==> r.value.value in ds && r.value.value.ipfsHash == Some(cid)
    ensures r.Success? ==> forall i, j :: !SharedCid(ds, cid, i, j)
    ensures r.Failure? <==> exists i, j :: SharedCid(ds, cid, i, j)
    ensures r.Failure? ==> r.error == NonUniqueResult
  {
    if |ds| == 0 then Success(None)
    else
      var rest := FindByIpfsHash(ds[1..], cid);
      assert forall d :: d in ds ==> d == ds[0] || d in ds[1..];
      assert forall i, j :: SharedCid(ds[1..], cid, i, j) ==> SharedCid(ds, cid, i + 1, j + 1);
      assert forall i, j :: SharedCid(ds, cid, i, j) && i > 0 ==> SharedCid(ds[1..], cid, i - 1, j - 1);
      if ds[0].ipfsHash != Some(cid) then
        assert forall i, j :: SharedCid(ds, cid, i, j) ==> i > 0;
        rest
      else if rest == Success(None) then
        assert forall j :: 0 < j < |ds| ==> ds[j] in ds[1..];
        Success(Some(ds[0]))
      else
        if rest.Success? then
          var k :| 0 <= k < |ds[1..]| && ds[1..][k] == rest.value.value;
          assert SharedCid(ds, cid, 0, k + 1);
          Failure(NonUniqueResult)
        else
          Failure(NonUniqueResult)
  }

  /** Every row other than `h`'s is the same before and after. */
  ghost predicate OtherDocumentsUnchanged(before: seq<Document>, after: seq<Document>, h: string) {
    forall x :: x in after && x.documentHash != h <==> x in before && x.documentHash != h
  }

  /** Overwrites the row that has `u`'s hash with `u`, in place. */
  function ReplaceDocument(ds: seq<Document>, u: Document): (r: seq<Document>)
    requires UniqueDocumentHashes(ds) && ExistsByDocumentHash(ds, u.documentHash)
    ensures |r| == |ds| && u in r && UniqueDocumentHashes(r)
    ensures forall i :: 0 <= i < |ds| ==> r[i] == (if ds[i].documentHash == u.documentHash then u else ds[i])
    ensures OtherDocumentsUnchanged(ds, r, u.documentHash)
  {
    var r := seq(|ds|, i requires 0 <= i < |ds| => if ds[i].documentHash == u.documentHash then u else ds[i]);
    var x :| x in ds && x.documentHash == u.documentHash;
    var k :| 0 <= k < |ds| && ds[k] == x;
    assert r[k] == u;
    ReplaceKeepsOthers(ds, r, (x: Document) => x.documentHash == u.documentHash);
    r
  }

  /** Overwriting a row with itself leaves the table as it was. */
  lemma ReplaceBySelf(ds: seq<Document>, u: Document)
    requires UniqueDocumentHashes(ds) && FindByDocumentHash(ds, u.documentHash) == Some(u)
    ensures ReplaceDocument(ds, u) == ds
  {
    var r := ReplaceDocument(ds, u);
    assert forall i :: 0 <= i < |ds| ==> r[i] == ds[i];
  }

  /**
   * `documentRepository.save`: a row with the same hash is merged with the
   * entity, the update hook running only if a field changed; otherwise the
   * entity is appended after the create hook.
   */
  function SaveDocument(ds: seq<Document>, d: Document, now: Time): (r: seq<Document>)
    requires UniqueDocumentHashes(ds)
    ensures UniqueDocumentHashes(r)
    ensures ExistsByDocumentHash(ds, d.documentHash) ==>
      |r| == |ds| && Merged(FindByDocumentHash(ds, d.documentHash).value, d, now) in r
    ensures !ExistsByDocumentHash(ds, d.documentHash) ==> r == ds + [OnCreate(d, now)]
    ensures FindByDocumentHash(r, d.documentHash) ==
      Some(if ExistsByDocumentHash(ds, d.documentHash) then Merged(FindByDocumentHash(ds, d.documentHash).value, d, now)
           else OnCreate(d, now))
    ensures FindByDocumentHash(ds, d.documentHash) == Some(d) ==> r == ds
    ensures OtherDocumentsUnchanged(ds, r, d.documentHash)
    ensures ValidDocuments(ds) && (ExistsByDocumentHash(ds, d.documentHash) ==> d.createdAt.Some? && d.timestamp.Some?)
      ==> ValidDocuments(r)
  {
    match FindByDocumentHash(ds, d.documentHash)
    case Some(stored) =>
      var u := Merged(stored, d, now);
      if u == stored then
        ReplaceBySelf(ds, u);
        ds
      else
        ReplaceDocument(ds, u)
    case None =>
      var r := ds + [OnCreate(d, now)];
      assert forall x :: x in r && x.documentHash != d.documentHash ==> x in ds;
      r
  }

  /** Saving one document leaves the lookup of every other hash as it was. */
  lemma SaveKeepsOtherLookups(ds: seq<Document>, d: Document, now: Time, h: string)
    requires UniqueDocumentHashes(ds) && h != d.documentHash
    ensures FindByDocumentHash(SaveDocument(ds, d, now), h) == FindByDocumentHash(ds, h)
  {
    var r := SaveDocument(ds, d, now);
    if ExistsByDocumentHash(ds, h) {
      var x := FindByDocumentHash(ds, h).value;
      assert x in r;
    }
  }

  /** Under the unique constraint, no row after the first shares its hash. */
  lemma FirstHashNotInRest(ds: seq<Document>, rest: seq<Document>)
    requires |ds| > 0 && UniqueDocumentHashes(ds)
    requires forall x :: x in rest ==> x in ds[1..]
    ensures forall x :: x in rest ==> x.documentHash != ds[0].documentHash
  {
    forall x | x in rest
      ensures x.documentHash != ds[0].documentHash
    {
      var k :| 0 <= k < |ds[1..]| && ds[1..][k] == x;
      assert ds[k + 1] == x;
    }
  }

  /** `documentRepository.delete`: the rows with hash `h` go, every other row stays, in order. */
  function DeleteDocument(ds: seq<Document>, h: string): (r: seq<Document>)
    ensures forall x :: x in r <==> x in ds && x.documentHash != h
    ensures !ExistsByDocumentHash(r, h)
    ensures |r| <= |ds|
    ensures ValidDocuments(ds) ==> ValidDocuments(r)
  {
    if |ds| == 0 then []
    else
      var rest := DeleteDocument(ds[1..], h);
      assert forall x :: x in ds <==> x == ds[0] || x in ds[1..];
      if ds[0].documentHash == h then rest
      else
        var r := [ds[0]] + rest;
        if UniqueDocumentHashes(ds) then
          FirstHashNotInRest(ds, rest);
          assert forall j :: 0 < j < |r| ==> r[j] in rest;
          r
        else
        r
  }

  // ---------------------------------------------------------------- notaries

  /** The unique constraint on `notary_address`. */
  predicate UniqueNotaryAddresses(ns: seq<Notary>) {
    forall i, j :: 0 <= i < |ns| && 0 <= j < |ns| && ns[i].notaryAddress == ns[j].notaryAddress ==> i == j
  }

  predicate ValidNotaries(ns: seq<Notary>) {
    UniqueNotaryAddresses(ns) && forall n :: n in ns ==> n.registeredAt.Some?
  }

  /** The integrity of both tables. */
  predicate Valid(c: Cache) {
    ValidDocuments(c.documents) && ValidNotaries(c.notaries)
  }

  predicate ExistsByNotaryAddress(ns: seq<Notary>, a: string) {
    exists n :: n in ns && n.notaryAddress == a
  }

  function FindByNotaryAddress(ns: seq<Notary>, a: string): (r: Option<Notary>)
    ensures r.Some? <==> ExistsByNotaryAddress(ns, a)
    ensures r.Some? ==> r.value in ns && r.value.notaryAddress == a
    ensures UniqueNotaryAddresses(ns) ==> forall n :: n in ns && n.notaryAddress == a ==> r == Some(n)
  {
    if |ns| == 0 then None
    else if ns[0].notaryAddress == a then Some(ns[0])
    else
      var r := FindByNotaryAddress(ns[1..], a);
      assert forall n :: n in ns && n != ns[0] ==> n in ns[1..];
      r
  }

  function FindByActiveTrue(ns: seq<Notary>): (r: seq<Notary>)
    ensures forall n :: n in r <==> n in ns && n.active
  {
    Filter(ns, (n: Notary) => n.active)
  }

  /** Every row other than `a`'s is the same before and after. */
  ghost predicate OtherNotariesUnchanged(before: seq<Notary>, after: seq<Notary>, a: string) {
    forall x :: x in after && x.notaryAddress != a <==> x in before && x.notaryAddress != a
  }

  /**
   * `notaryRepository.save` of an entity whose address is already stored:
   * JPA merges it as it is (the entity has no update hook), so a null
   * `registered_at` violates the column's NOT NULL constraint.
   */
  function UpdateNotary(ns: seq<Notary>, n: Notary): (r: Result<seq<Notary>, Error>)
    requires UniqueNotaryAddresses(ns) && ExistsByNotaryAddress(ns, n.notaryAddress)
    ensures r.Failure? <==> n.registeredAt.None?
    ensures r.Failure? ==> r.error == NullColumn("registered_at")
    ensures r.Success? ==> |r.value| == |ns| && UniqueNotaryAddresses(r.value)
    ensures r.Success? ==> FindByNotaryAddress(r.value, n.notaryAddress) == Some(n)
    ensures r.Success? ==> OtherNotariesUnchanged(ns, r.value, n.notaryAddress)
    ensures r.Success? && ValidNotaries(ns) ==> ValidNotaries(r.value)
  {
    if n.registeredAt.None? then Failure(NullColumn("registered_at"))
    else
      var r := seq(|ns|, i requires 0 <= i < |ns| => if ns[i].notaryAddress == n.notaryAddress then n else ns[i]);
      var x :| x in ns && x.notaryAddress == n.notaryAddress;
      var k :| 0 <= k < |ns| && ns[k] == x;
      assert r[k] == n;
      ReplaceKeepsOthers(ns, r, (x: Notary) => x.notaryAddress == n.notaryAddress);
      Success(r)
  }

  /** `notaryRepository.save`: merge when the address is stored, otherwise persist after the create hook. */
  function SaveNotary(ns: seq<Notary>, n: Notary, now: Time): (r: Result<seq<Notary>, Error>)
    requires UniqueNotaryAddresses(ns)
    ensures r.Failure? <==> ExistsByNotaryAddress(ns, n.notaryAddress) && n.registeredAt.None?
    ensures r.Success? ==> UniqueNotaryAddresses(r.value)
    ensures r.Success? ==> (FindByNotaryAddress(r.value, n.notaryAddress) ==
      Some(if ExistsByNotaryAddress(ns, n.notaryAddress) then n else OnCreateNotary(n, now)))
    ensures !ExistsByNotaryAddress(ns, n.notaryAddress) ==> r == Success(ns + [OnCreateNotary(n, now)])
    ensures r.Success? ==> OtherNotariesUnchanged(ns, r.value, n.notaryAddress)
    ensures r.Success? && ValidNotaries(ns) ==> ValidNotaries(r.value)
  {
    if ExistsByNotaryAddress(ns, n.notaryAddress) then UpdateNotary(ns, n)
    else
      var r := ns + [OnCreateNotary(n, now)];
      assert forall x :: x in r && x.notaryAddress != n.notaryAddress ==> x in ns;
      Success(r)
  }

  // ---------------------------------------------------------------- lookups

  /** The stored row for `a`; the callers have checked that it exists. */
  function NotaryOf(c: Cache, a: string): Notary
    requires ExistsByNotaryAddress(c.notaries, a)
  {
    FindByNotaryAddress(c.notaries, a).value
  }

  /** The stored row for `h`; the callers have checked that it exists. */
  function DocumentOf(c: Cache, h: string): Document
    requires ExistsByDocumentHash(c.documents, h)
  {
    FindByDocumentHash(c.documents, h).value
  }
}

=== FILE: rpc.dfy ===
/**
 * What the Ethereum node answers during one bootstrap attempt. Every
 * remote call of the deployment code reads one of these fields; an absent
 * key or a `None` is the call throwing.
 */
module Rpc {
  import opened Wrappers

  datatype Node = Node(
    /** `ethBlockNumber` answered with a block number. */
    connected: bool,
    /** `web3ClientVersion`; None when the call fails or answers null. */
    clientVersion: Option<string>,
    /** `ethGetBalance` of the deployer account, in wei. */
    balance: Option<int>,
    /** `ethGetCode` per address: absent when the call fails, Some(None) when it answers null. */
    code: map<string, Option<string>>,
    /** The addresses whose `STAKE_AMOUNT()` call answers. */
    stakeReadable: set<string>,
    /** The addresses whose `SLASH_PERCENTAGE()` call answers. */
    slashReadable: set<string>,
    /** The address a deployment by ContractDeploymentService would get, or None if it fails. */
    deployedByService: Option<string>,
    /** The address a deployment by ContractDeployerUtil would get, or None if it fails. */
    deployedByUtil: Option<string>,
    /** The ISO local date-time the clock shows. */
    clock: string,
    /** The deployer account address. */
    deployer: string)
}

=== FILE: slashing.dfy ===
/**
 * SlashingService: the in-memory double-notarization attempt map, the
 * per-notary error counters, the audit trail of slashing events, and the
 * integrity check that slashes every notary of a compromised document.
 * The maps are modelled sequentially; the clock is the parameter `now`.
 */
module Slashing {
  import opened Wrappers
  import opened Entities
  import opened Store
  import opened Gateway
  import opened Worlds
  import Notaries
  import Documents
  import Strings

  /** One logged slashing event. */
  datatype SlashEvent = SlashEvent(notary: string, documentHash: string, reason: string)

  /**
   * The service's state: when each document/notary pair was last seen, the
   * error count of each notary, and the events logged so far.
   */
  datatype Monitor = Monitor(attempts: map<string, Time>, errorCounts: map<string, nat>, audit: seq<SlashEvent>)

  /** The world and the monitor after an operation. */
  datatype State = State(world: World, monitor: Monitor)

  const DoubleNotarization := "DOUBLE_NOTARIZATION"
  const IntegrityViolation := "INTEGRITY_VIOLATION"

  /** The attempt-map key of a document/notary pair. */
  function AttemptKey(documentHash: string, notary: string): string {
    documentHash + "-" + notary
  }

  /** `getOrDefault(a, 0)` on the error counters. */
  function ErrorCount(counts: map<string, nat>, a: string): nat {
    if a in counts then counts[a] else 0
  }

  /** cleanOldAttempts: drops exactly the entries strictly older than a day before `now`. */
  function CleanOldAttempts(attempts: map<string, Time>, now: Time): (r: map<string, Time>)
    ensures forall k :: k in r <==> k in attempts && attempts[k] >= now - SecondsPerDay
    ensures forall k :: k in r ==> r[k] == attempts[k]
  {
    map k | k in attempts && !(attempts[k] < now - SecondsPerDay) :: attempts[k]
  }

  /** Purging twice is purging once. */
  lemma CleanOldAttemptsIdempotent(attempts: map<string, Time>, now: Time)
    ensures CleanOldAttempts(CleanOldAttempts(attempts, now), now) == CleanOldAttempts(attempts, now)
  {
  }

  /** incrementErrorCount: one more error for `a`, every other counter unchanged. */
  function IncrementErrorCount(counts: map<string, nat>, a: string): (r: map<string, nat>)
    ensures a in r && r[a] == ErrorCount(counts, a) + 1
    ensures forall b :: b != a ==> ErrorCount(r, b) == ErrorCount(counts, b)
    ensures r.Keys == counts.Keys + {a}
  {
    counts[a := ErrorCount(counts, a) + 1]
  }

  /**
   * slashNotary: counts the error first, then runs the notary service's
   * slash, and logs the event only when that succeeded; a failed slash is
   * swallowed and leaves the world as it was.
   */
  function SlashNotary(s: State, notary: string, documentHash: string, reason: string, requiredStake: real): (r: State)
    requires Valid(s.world.cache)
    ensures Valid(r.world.cache)
    ensures ErrorCount(r.monitor.errorCounts, notary) == ErrorCount(s.monitor.errorCounts, notary) + 1
    ensures forall b :: b != notary ==> ErrorCount(r.monitor.errorCounts, b) == ErrorCount(s.monitor.errorCounts, b)
    ensures r.monitor.attempts == s.monitor.attempts
    ensures r.monitor.audit == s.monitor.audit || r.monitor.audit == s.monitor.audit + [SlashEvent(notary, documentHash, reason)]
    ensures Notaries.SlashNotary(s.world, notary, documentHash, requiredStake).Failure? ==>
      r.world == s.world && r.monitor.audit == s.monitor.audit
    ensures Notaries.SlashNotary(s.world, notary, documentHash, requiredStake).Success? ==>
      && r.world == Notaries.SlashNotary(s.world, notary, documentHash, requiredStake).value
      && r.monitor.audit == s.monitor.audit + [SlashEvent(notary, documentHash, reason)]
  {
    var counted := s.monitor.(errorCounts := IncrementErrorCount(s.monitor.errorCounts, notary));
    match Notaries.SlashNotary(s.world, notary, documentHash, requiredStake)
    case Failure(_) => State(s.world, counted)
    case Success(w') => State(w', counted.(audit := counted.audit + [SlashEvent(notary, documentHash, reason)]))
  }

  /**
   * detectDoubleNotarization: slashes iff the pair was already recorded
   * (whatever its age, since the check runs before the purge), then
   * records the pair at `now` and purges stale entries.
   */
  function DetectDoubleNotarization(s: State, documentHash: string, notary: string, now: Time, requiredStake: real)
    : (r: State)
    requires Valid(s.world.cache)
    ensures Valid(r.world.cache)
    ensures AttemptKey(documentHash, notary) in r.monitor.attempts
    ensures r.monitor.attempts[AttemptKey(documentHash, notary)] == now
    ensures forall k :: k != AttemptKey(documentHash, notary) ==>
      (k in r.monitor.attempts <==> k in s.monitor.attempts && s.monitor.attempts[k] >= now - SecondsPerDay)
    ensures forall k :: k in r.monitor.attempts && k != AttemptKey(documentHash, notary) ==>
      r.monitor.attempts[k] == s.monitor.attempts[k]
    ensures AttemptKey(documentHash, notary) in s.monitor.attempts ==>
      var t := SlashNotary(s, notary, documentHash, DoubleNotarization, requiredStake);
      r.world == t.world && r.monitor.errorCounts == t.monitor.errorCounts && r.monitor.audit == t.monitor.audit
    ensures ErrorCount(r.monitor.errorCounts, notary) ==
      ErrorCount(s.monitor.errorCounts, notary) + (if AttemptKey(documentHash, notary) in s.monitor.attempts then 1 else 0)
    ensures AttemptKey(documentHash, notary) !in s.monitor.attempts ==>
      r.world == s.world && r.monitor.errorCounts == s.monitor.errorCounts && r.monitor.audit == s.monitor.audit
  {
    var key := AttemptKey(documentHash, notary);
    var s1 := if key in s.monitor.attempts then SlashNotary(s, notary, documentHash, DoubleNotarization, requiredStake) else s;
    s1.(monitor := s1.monitor.(attempts := CleanOldAttempts(s1.monitor.attempts[key := now], now)))
  }

  /** The second report of the same pair within a day is a double notarization: it counts one error. */
  lemma SecondAttemptIsSlashed(s: State, documentHash: string, notary: string, t1: Time, t2: Time, requiredStake: real)
    requires Valid(s.world.cache)
    requires AttemptKey(documentHash, notary) !in s.monitor.attempts
    ensures
      var s1 := DetectDoubleNotarization(s, documentHash, notary, t1, requiredStake);
      var s2 := DetectDoubleNotarization(s1, documentHash, notary, t2, requiredStake);
      && ErrorCount(s1.monitor.errorCounts, notary) == ErrorCount(s.monitor.errorCounts, notary)
      && ErrorCount(s2.monitor.errorCounts, notary) == ErrorCount(s.monitor.errorCounts, notary) + 1
  {
  }

  /** calculateErrorRate: the simplified rate, errors per hundred. */
  function CalculateErrorRate(counts: map<string, nat>, a: string): (r: real)
    ensures r >= 0.0
    ensures r * 100.0 == ErrorCount(counts, a) as real
  {
    ErrorCount(counts, a) as real / 100.0
  }

  /**
   * monitorNotaryPerformance: whether the warning fires. An unknown notary
   * is caught and reported as not flagged; nothing changes either way.
   */
  function MonitorNotaryPerformance(c: Cache, mon: Monitor, a: string): (flagged: bool)
    ensures flagged <==> ExistsByNotaryAddress(c.notaries, a) && ErrorCount(mon.errorCounts, a) > 10
  {
    FindByNotaryAddress(c.notaries, a).Some? && CalculateErrorRate(mon.errorCounts, a) > 0.1
  }

  /**
   * Error counts only grow: a slash, even a failed one, never clears a
   * warning, and the eleventh error of a cached notary raises one.
   */
  lemma SlashingRaisesWarnings(s: State, notary: string, documentHash: string, reason: string, requiredStake: real,
                               a: string)
    requires Valid(s.world.cache)
    ensures
      var t := SlashNotary(s, notary, documentHash, reason, requiredStake);
      MonitorNotaryPerformance(s.world.cache, s.monitor, a) ==> MonitorNotaryPerformance(t.world.cache, t.monitor, a)
    ensures
      var t := SlashNotary(s, notary, documentHash, reason, requiredStake);
      ExistsByNotaryAddress(s.world.cache.notaries, notary) && ErrorCount(s.monitor.errorCounts, notary) == 10 ==>
        !MonitorNotaryPerformance(s.world.cache, s.monitor, notary) && MonitorNotaryPerformance(t.world.cache, t.monitor, notary)
  {
    var t := SlashNotary(s, notary, documentHash, reason, requiredStake);
    if ExistsByNotaryAddress(s.world.cache.notaries, a) && Notaries.SlashNotary(s.world, notary, documentHash, requiredStake).Success? && a != notary {
      var x :| x in s.world.cache.notaries && x.notaryAddress == a;
      assert x in t.world.cache.notaries;
    }
  }

  /** How often `a` occurs in `s`. */
  function Occurrences(s: seq<string>, a: string): nat {
    multiset(s)[a]
  }

  /** Slashes each listed notary in order, as the loop over the document's notary list does. */
  function SlashAll(s: State, notaries: seq<string>, documentHash: string, reason: string, requiredStake: real): (r: State)
    requires Valid(s.world.cache)
    ensures Valid(r.world.cache)
    ensures r.monitor.attempts == s.monitor.attempts
    decreases |notaries|
  {
    if |notaries| == 0 then s
    else SlashAll(SlashNotary(s, notaries[0], documentHash, reason, requiredStake), notaries[1..], documentHash, reason,
                  requiredStake)
  }

  /** Every listing of a notary costs it exactly one error, whether or not the slash went through. */
  lemma {:induction false} SlashAllCountsEveryListing(s: State, notaries: seq<string>, documentHash: string,
                                                      reason: string, requiredStake: real, a: string)
    requires Valid(s.world.cache)
    ensures ErrorCount(SlashAll(s, notaries, documentHash, reason, requiredStake).monitor.errorCounts, a) ==
      ErrorCount(s.monitor.errorCounts, a) + Occurrences(notaries, a)
    decreases |notaries|
  {
    if |notaries| > 0 {
      var s1 := SlashNotary(s, notaries[0], documentHash, reason, requiredStake);
      SlashAllCountsEveryListing(s1, notaries[1..], documentHash, reason, requiredStake, a);
      OccurrencesCons(notaries, a);
    }
  }

  lemma OccurrencesCons(s: seq<string>, a: string)
    requires |s| > 0
    ensures Occurrences(s, a) == (if s[0] == a then 1 else 0) + Occurrences(s[1..], a)
  {
    assert s == [s[0]] + s[1..];
    assert multiset(s) == multiset([s[0]]) + multiset(s[1..]);
  }

  /** `e` records a slash of one of `notaries` over `documentHash` for `reason`. */
  predicate LoggedFor(e: SlashEvent, notaries: seq<string>, documentHash: string, reason: string) {
    e.notary in notaries && e.documentHash == documentHash && e.reason == reason
  }

  /** `after` extends `before` by at most one event per listed notary, each logged for one of them. */
  predicate ExtendsAudit(before: seq<SlashEvent>, after: seq<SlashEvent>, notaries: seq<string>,
                         documentHash: string, reason: string) {
    && |before| <= |after| <= |before| + |notaries|
    && after[..|before|] == before
    && forall i :: |before| <= i < |after| ==> LoggedFor(after[i], notaries, documentHash, reason)
  }

  /** One slash step followed by the rest of the list extends the audit trail as the whole list may. */
  lemma ExtendsAuditStep(a0: seq<SlashEvent>, a1: seq<SlashEvent>, ra: seq<SlashEvent>, notaries: seq<string>,
                         documentHash: string, reason: string)
    requires |notaries| > 0
    requires a1 == a0 || a1 == a0 + [SlashEvent(notaries[0], documentHash, reason)]
    requires ExtendsAudit(a1, ra, notaries[1..], documentHash, reason)
    ensures ExtendsAudit(a0, ra, notaries, documentHash, reason)
  {
    assert forall e :: LoggedFor(e, notaries[1..], documentHash, reason) ==> LoggedFor(e, notaries, documentHash, reason);
    if a1 != a0 {
      assert ra[..|a0|] == ra[..|a1|][..|a0|];
      assert ra[|a0|] == ra[..|a1|][|a0|];
    }
  }

  /** The audit trail only grows, by at most one event per listing, each naming a listed notary and the reason. */
  lemma {:induction false} SlashAllLogsListedNotaries(s: State, notaries: seq<string>, documentHash: string,
                                                      reason: string, requiredStake: real)
    requires Valid(s.world.cache)
    ensures ExtendsAudit(s.monitor.audit, SlashAll(s, notaries, documentHash, reason, requiredStake).monitor.audit,
                         notaries, documentHash, reason)
    decreases |notaries|
  {
    if |notaries| > 0 {
      var s1 := SlashNotary(s, notaries[0], documentHash, reason, requiredStake);
      SlashAllLogsListedNotaries(s1, notaries[1..], documentHash, reason, requiredStake);
      ExtendsAuditStep(s.monitor.audit, s1.monitor.audit,
                       SlashAll(s1, notaries[1..], documentHash, reason, requiredStake).monitor.audit,
                       notaries, documentHash, reason);
    }
  }

  /** Whether the content `downloaded` still hashes to the document hash. */
  function Check(s: State, hash: string -> string, documentHash: string, notaries: seq<string>,
                 downloaded: Result<string, Errors.Error>, requiredStake: real): (r: State)
    requires Valid(s.world.cache)
    ensures Valid(r.world.cache)
  {
    match downloaded
    case Failure(_) => s
    case Success(content) =>
      if Documents.VerifyDocumentIntegrity(hash, documentHash, content) then s
      else SlashAll(s, notaries, documentHash, IntegrityViolation, requiredStake)
  }

  /**
   * verifyDocumentAndSlash as the code has it: the download is asked for
   * the document's CID, but the download operation takes a document hash
   * and looks the CID up among the document hashes. Every failure is
   * swallowed.
   */
  function VerifyDocumentAndSlashAsWritten(s: State, hash: string -> string, documentHash: string, requiredStake: real)
    : (r: State)
    requires Valid(s.world.cache)
    ensures Valid(r.world.cache)
    ensures Documents.GetDocument(s.world, documentHash).Failure? ==> r == s
  {
    match Documents.GetDocument(s.world, documentHash)
    case Failure(_) => s
    case Success(doc) =>
      Check(s, hash, documentHash, doc.notaryAddresses,
            Documents.DownloadFromIpfs(s.world, doc.ipfsHash.value), requiredStake)
  }

  /** No cached document hash looks like a CID of a cached document. */
  ghost predicate CidsAreNotHashes(ds: seq<Document>) {
    forall d :: d in ds && d.ipfsHash.Some? ==> !ExistsByDocumentHash(ds, d.ipfsHash.value)
  }

  /**
   * As written, the integrity check never slashes anybody once CIDs and
   * document hashes are different strings, which is how they are produced
   * (a SHA-256 hex digest against a "Qm…"/"bafy…" CID).
   */
  lemma AsWrittenNeverSlashes(s: State, hash: string -> string, documentHash: string, requiredStake: real)
    requires Valid(s.world.cache)
    requires CidsAreNotHashes(s.world.cache.documents)
    ensures VerifyDocumentAndSlashAsWritten(s, hash, documentHash, requiredStake) == s
  {
    if Documents.GetDocument(s.world, documentHash).Success? {
      var d := DocumentOf(s.world.cache, documentHash);
      assert d in s.world.cache.documents;
    }
  }

  /**
   * verifyDocumentAndSlash as intended: the content is downloaded for the
   * document itself; when it no longer hashes to the document hash, every
   * notary on the document is slashed.
   */
  function VerifyDocumentAndSlash(s: State, hash: string -> string, documentHash: string, requiredStake: real)
    : (r: State)
    requires Valid(s.world.cache)
    ensures Valid(r.world.cache)
    ensures Documents.GetDocument(s.world, documentHash).Failure? ==> r == s
  {
    match Documents.GetDocument(s.world, documentHash)
    case Failure(_) => s
    case Success(doc) =>
      Check(s, hash, documentHash, doc.notaryAddresses, Documents.DownloadFromIpfs(s.world, documentHash), requiredStake)
  }

  /** The content the corrected check judges: what the document's CID holds. */
  ghost predicate Compromised(w: World, hash: string -> string, documentHash: string) {
    && Documents.GetDocument(w, documentHash).Success?
    && Documents.DownloadFromIpfs(w, documentHash).Success?
    && !Documents.VerifyDocumentIntegrity(hash, documentHash, Documents.DownloadFromIpfs(w, documentHash).value)
  }

  /**
   * The corrected check attempts a slash of every listed notary (one error
   * each, per listing) exactly when the stored content no longer matches,
   * and touches nothing otherwise.
   */
  lemma VerifyDocumentAndSlashSlashesAll(s: State, hash: string -> string, documentHash: string, requiredStake: real)
    requires Valid(s.world.cache)
    ensures
      var r := VerifyDocumentAndSlash(s, hash, documentHash, requiredStake);
      && (Compromised(s.world, hash, documentHash) ==>
            var listed := DocumentOf(s.world.cache, documentHash).notaryAddresses;
            forall a :: ErrorCount(r.monitor.errorCounts, a) == ErrorCount(s.monitor.errorCounts, a) + Occurrences(listed, a))
      && (!Compromised(s.world, hash, documentHash) ==> r == s)
  {
    if Compromised(s.world, hash, documentHash) {
      var listed := DocumentOf(s.world.cache, documentHash).notaryAddresses;
      forall a
        ensures ErrorCount(VerifyDocumentAndSlash(s, hash, documentHash, requiredStake).monitor.errorCounts, a) ==
          ErrorCount(s.monitor.errorCounts, a) + Occurrences(listed, a)
      {
        SlashAllCountsEveryListing(s, listed, documentHash, IntegrityViolation, requiredStake, a);
      }
    }
  }

  // ------------------------------------------------- the discrepancy, concretely

  const SampleDocument := Document("h", "owner", "name", Some("Qm1"), Some(0), true, ["n"], Some(0), Some(0))
  const SampleNotary := Notary("n", "notary", true, 1.0, 1, 0, Some(0))
  const SampleLedger := Ledger(true, true, Some(Notaries.StakeWei),
                               map["Qm1" := ChainDocument("Qm1", "owner", 0, "name", true, ["n"])],
                               map[], map[], {}, [])
  /** One notarized document whose pinned content was replaced. */
  const Tampered := State(World(Cache([SampleDocument], [SampleNotary]), SampleLedger, map["Qm1" := "tampered"]),
                          Monitor(map[], map[], []))

  /** On the tampered sample, the code as written counts no error, the corrected check counts one for "n". */
  lemma TamperedSampleShowsDiscrepancy()
    ensures Valid(Tampered.world.cache)
    ensures ErrorCount(VerifyDocumentAndSlashAsWritten(Tampered, s => s, "h", 1.0).monitor.errorCounts, "n") == 0
    ensures ErrorCount(VerifyDocumentAndSlash(Tampered, s => s, "h", 1.0).monitor.errorCounts, "n") == 1
  {
    var w := Tampered.world;
    assert w.cache.documents[0] == SampleDocument;
    assert ExistsByDocumentHash(w.cache.documents, "h");
    assert !ExistsByDocumentHash(w.cache.documents, "Qm1");
    assert IsValidIpfsCid(Some("Qm1")) by {
      assert Strings.StartsWith("Qm1", "Qm");
    }
    VerifyDocumentAndSlashSlashesAll(Tampered, s => s, "h", 1.0);
    AsWrittenNeverSlashes(Tampered, s => s, "h", 1.0);
    assert Occurrences(["n"], "n") == 1;
  }
}

=== FILE: strings.dfy ===
/**
 * The java.lang.String operations the core relies on, over seq<char>:
 * startsWith, contains, trim, toLowerCase (ASCII letters), indexOf,
 * lastIndexOf and split on a newline.
 */
module Strings {

  predicate StartsWith(s: string, prefix: string) {
    |prefix| <= |s| && s[..|prefix|] == prefix
  }

  /** `t` occurs in `s` starting at position `i`. */
  predicate OccursAt(s: string, t: string, i: int) {
    0 <= i && i + |t| <= |s| && s[i..i + |t|] == t
  }

  predicate Contains(s: string, t: string) {
    exists i | 0 <= i <= |s| - |t| :: OccursAt(s, t, i)
  }

  /** Every character is one that String.trim strips (code point at most U+0020). */
  predicate IsBlank(s: string) {
    forall i :: 0 <= i < |s| ==> s[i] <= ' '
  }

  function TrimStart(s: string): (r: string)
    ensures |r| <= |s| && r == s[|s| - |r|..]
    ensures r == [] || r[0] > ' '
    ensures IsBlank(s[..|s| - |r|])
    decreases |s|
  {
    if |s| > 0 && s[0] <= ' ' then TrimStart(s[1..]) else s
  }

  function TrimEnd(s: string): (r: string)
    ensures |r| <= |s| && r == s[..|r|]
    ensures r == [] || r[|r| - 1] > ' '
    ensures IsBlank(s[|r|..])
    decreases |s|
  {
    if |s| > 0 && s[|s| - 1] <= ' ' then TrimEnd(s[..|s| - 1]) else s
  }

  /** String.trim: drops the leading and trailing characters at or below U+0020. */
  function Trim(s: string): (r: string)
    ensures |r| <= |s|
    ensures r == "" <==> IsBlank(s)
    ensures r == "" || (r[0] > ' ' && r[|r| - 1] > ' ')
  {
    var t := TrimStart(s);
    assert t == [] ==> s[..|s|] == s;
    TrimEnd(t)
  }

  /** Character.toLowerCase restricted to the ASCII letters. */
  function LowerChar(c: char): char {
    if 'A' <= c <= 'Z' then (c as int + 32) as char else c
  }

  function Lower(s: string): (r: string)
    ensures |r| == |s|
    ensures forall i :: 0 <= i < |s| ==> r[i] == LowerChar(s[i])
  {
    seq(|s|, i requires 0 <= i < |s| => LowerChar(s[i]))
  }

  /** String.indexOf(char): the first position holding `c`, or -1. */
  function IndexOf(s: string, c: char): (r: int)
    ensures -1 <= r < |s|
    ensures r == -1 <==> c !in s
    ensures r >= 0 ==> s[r] == c && forall j :: 0 <= j < r ==> s[j] != c
  {
    if |s| == 0 then -1
    else if s[0] == c then 0
    else
      var k := IndexOf(s[1..], c);
      if k < 0 then -1 else k + 1
  }

  /** String.lastIndexOf(char): the last position holding `c`, or -1. */
  function LastIndexOf(s: string, c: char): (r: int)
    ensures -1 <= r < |s|
    ensures r == -1 <==> c !in s
    ensures r >= 0 ==> s[r] == c && forall j :: r < j < |s| ==> s[j] != c
  {
    if |s| == 0 then -1
    else if s[|s| - 1] == c then |s| - 1
    else
      var k := LastIndexOf(s[..|s| - 1], c);
      assert s == s[..|s| - 1] + [s[|s| - 1]];
      k
  }

  /**
   * String.split("\n") before trailing empty strings are dropped: the
   * maximal newline-free pieces, in order. Dropping the trailing empty
   * pieces never matters below, because only a search for the first line
   * with a given non-empty prefix runs over the result.
   */
  function Lines(s: string): (r: seq<string>)
    ensures |r| >= 1
    ensures forall k :: 0 <= k < |r| ==> '\n' !in r[k]
    decreases |s|
  {
    var i := IndexOf(s, '\n');
    if i < 0 then [s] else [s[..i]] + Lines(s[i + 1..])
  }

  /** Each line followed by a newline, as the config writer emits them. */
  function JoinLines(lines: seq<string>): string {
    if |lines| == 0 then "" else lines[0] + "\n" + JoinLines(lines[1..])
  }

  /** A newline-free head followed by a newline splits off as the first line. */
  lemma LinesCons(head: string, rest: string)
    requires '\n' !in head
    ensures Lines(head + "\n" + rest) == [head] + Lines(rest)
  {
    var s := head + "\n" + rest;
    assert s[|head|] == '\n';
    assert forall j :: 0 <= j < |head| ==> s[j] == head[j];
    assert IndexOf(s, '\n') == |head|;
    assert s[..|head|] == head;
    assert s[|head| + 1..] == rest;
  }

  /** Splitting the joined lines gives them back, with the empty piece after the last newline. */
  lemma {:induction false} LinesOfJoin(lines: seq<string>)
    requires forall k :: 0 <= k < |lines| ==> '\n' !in lines[k]
    ensures Lines(JoinLines(lines)) == lines + [""]
    decreases |lines|
  {
    if |lines| == 0 {
      assert IndexOf("", '\n') == -1;
    } else {
      var head, tail := lines[0], lines[1..];
      forall k | 0 <= k < |tail|
        ensures '\n' !in tail[k]
      {
        assert tail[k] == lines[k + 1];
      }
      LinesOfJoin(tail);
      assert lines == [head] + tail;
      LinesOfJoinStep(head, tail);
    }
  }

  /** One step of LinesOfJoin: a newline-free line in front. */
  lemma LinesOfJoinStep(head: string, tail: seq<string>)
    requires '\n' !in head
    requires Lines(JoinLines(tail)) == tail + [""]
    ensures Lines(JoinLines([head] + tail)) == [head] + tail + [""]
  {
    assert ([head] + tail)[0] == head && ([head] + tail)[1..] == tail;
    LinesCons(head, JoinLines(tail));
  }

  function DigitChar(d: nat): char
    requires d < 10
  {
    "0123456789"[d]
  }

  /** Long.toString for a non-negative value. */
  function DecimalString(n: nat): (r: string)
    ensures |r| >= 1
    ensures forall i :: 0 <= i < |r| ==> '0' <= r[i] <= '9'
  {
    if n < 10 then [DigitChar(n)] else DecimalString(n / 10) + [DigitChar(n % 10)]
  }

  lemma ContainsLower(s: string, t: string)
    requires Contains(s, t)
    ensures Contains(Lower(s), Lower(t))
  {
    var i: int :| 0 <= i <= |s| - |t| && OccursAt(s, t, i);
    assert Lower(s)[i..i + |t|] == Lower(t);
    assert OccursAt(Lower(s), Lower(t), i);
  }

  /** Lower-casing works character by character, so it distributes over concatenation. */
  lemma LowerAppend(s: string, t: string)
    ensures Lower(s + t) == Lower(s) + Lower(t)
  {
  }

  lemma ContainsTransitive(s: string, t: string, u: string)
    requires Contains(s, t) && Contains(t, u)
    ensures Contains(s, u)
  {
    var i: int :| 0 <= i <= |s| - |t| && OccursAt(s, t, i);
    var j: int :| 0 <= j <= |t| - |u| && OccursAt(t, u, j);
    var window := s[i + j..i + j + |u|];
    forall k | 0 <= k < |u|
      ensures window[k] == u[k]
    {
      assert window[k] == s[i..i + |t|][j + k];
      assert u[k] == t[j..j + |u|][k];
    }
    assert window == u;
    assert OccursAt(s, u, i + j);
  }
}

=== FILE: world.dfy ===
/** The state every service transition reads and returns. */
module Worlds {
  import opened Wrappers
  import opened Errors
  import opened Store
  import opened Gateway

  /**
   * The local cache, the ledger, and the content store's answers: the
   * text the IPFS gateways return for a CID; an absent CID means every
   * gateway failed.
   */
  datatype World = World(cache: Cache, ledger: Ledger, ipfs: map<string, string>)

  /**
   * IpfsUtil.downloadFromIpfs: the gateways' answer for `cid`. An empty
   * answer counts as a failed gateway, so the call only ever returns
   * non-empty text and otherwise throws.
   */
  function IpfsDownload(w: World, cid: string): (r: Result<string, Error>)
    ensures r.Success? <==> cid in w.ipfs && w.ipfs[cid] != ""
    ensures r.Success? ==> r.value == w.ipfs[cid] && r.value != ""
    ensures r.Failure? ==> r.error == DownloadFailed
  {
    if cid in w.ipfs && w.ipfs[cid] != "" then Success(w.ipfs[cid]) else Failure(DownloadFailed)
  }
}

=== FILE: wrappers.dfy ===
/**
 * Option stands for the source's nullable references, Result for a value
 * or the exception that replaced it.
 */
module Wrappers {

  datatype Option<+T> = None | Some(value: T) {
    function GetOr(default: T): T {
      if Some? then value else default
    }
  }

  datatype Result<+T, +E> = Success(value: T) | Failure(error: E) {
    predicate IsFailure() {
      Failure?
    }

    function PropagateFailure<U>(): Result<U, E>
      requires Failure?
    {
      Failure(error)
    }

    function Extract(): T
      requires Success?
    {
      value
    }
  }
}
